=== FILE: README.md ===
# py-printer, modelled in Dafny

This project models the core of py-printer, a small Python library for
coloured, indented and width-limited console output, and proves properties
of the model. It has four parts.

- **The printer** (`pyprinter/printer.py`) is modelled in several modules:
  - `Ansi` holds the colour codes, the colour regular expression and the
    colour wrapper (`printer.yellow(text)` and its siblings).
  - `Wrap`, `WrapProofs`, `WrapScan`, `WrapBound` and `WrapChunks` model the
    line splitter `_split_lines`. It breaks lines at the console width less
    the indentation. It copies 7-character colour windows whole and does
    not count them.
  - `Writer` holds the printer state record and `write`, `write_line`, the
    indent groups (`_TextGroup`), `write_title` and `write_aligned`.
  - `WriterProofs` and `AlignedOutput` hold what `write` and the
    compositions print.
- **`FileSize`** (`pyprinter/file_size.py`) is in `FileSizes`: parsing
  `"1,600 KB"`, unit selection, floor conversions, arithmetic, comparisons
  and the unit padding of `pretty_print`.
- **The integer progress meters** (`pyprinter/progress_bar.py`) are in
  `ProgressMeters`: `Bar`, `Percentage`, the `Composite` format and the
  clamp and message of `ProgressBar.eval`.
- **`Table`'s bookkeeping** (`pyprinter/table.py`) is in `Tables`: the
  ordered column map, the header-row split, row projection, column limits
  and title padding.

How the model represents the source:

- The printer's state is an immutable `Writer.Printer` record.
- `write` returns the strings it hands to the writer, in order, together
  with the new state.
- The console width is a parameter `query`. `Writer.ConsoleWidth` applies
  the source's one rule for it: any width of 0 or less becomes 80.
- A composition (`write_title`, `write_aligned`) is a script of `Writer.Op`
  steps that `Writer.Run` executes. Each step is one `write`, one
  `write_line`, one entry into a group or one exit from it.
- A Python exception is an `Outcomes.Result` error naming the exception
  class.
- The splitter's lines are sequences of tokens, so that one value holds
  both what was written and what was read:
  - `Ch` is a counted character;
  - `Code` is a whole colour window;
  - `Brk` is a break the splitter added;
  - `Gone` is a character the lone-window merge deleted.

Three behaviours of the source are modelled as written, because they are
easy to mistake for slips:

- `write("")` resets the cursor column to 0 (printer.py:228-229). So
  `write_aligned` with a key as long as `align_size - 1` leaves the column
  at 0 after its padding write.
- With colours off, the column grows by the length of the split line
  before its colour codes are stripped (printer.py:219-224).
- The lone-window merge (printer.py:174) runs whether colours are on or
  not.

## Model

| member | source | states |
|---|---|---|
| Ansi.ColorNumber | pyprinter/printer.py:75-88 | every colour's SGR number lies between 31 and 37 |
| Ansi.ColorCode | pyprinter/printer.py:70-93 | every colour constant is 7 characters long, `_ANSI_COLOR_LENGTH`, with the escape character first and nowhere else |
| Ansi.DigitRun | pyprinter/printer.py:69 | the `\d+` of the regular expression takes the longest run of digits: every character it takes is a digit and the next one is not |
| Ansi.MatchPrefix | pyprinter/printer.py:69 | `_ANSI_REGEXP.match` succeeds only with a well-formed code (optional `d;`, digits, `m`) that is a prefix of the text |
| Ansi.MatchPrefixComplete | pyprinter/printer.py:69 | conversely, whenever the text starts with a well-formed code, `match` finds exactly that code |
| Ansi.FindAll | pyprinter/printer.py:203 | `findall` returns only well-formed codes, and the first one is the one at the start when the text starts with a code |
| Ansi.RebuildRecognised | pyprinter/printer.py:203-204 | a code rebuilt through `int(...)` is recognised again, with its digits in canonical form |
| Ansi.StripKeepsNewline | pyprinter/printer.py:202-204 | removing the colour codes never removes a line's final line break |
| Ansi.Colorize | pyprinter/printer.py:294-305 | the wrapped text starts with the colour's code and always ends with `NORMAL`, which is added only when the text lacks it; stripping it gives plain text back (`Ansi.StripColorize`) |
| Ansi.ColorEndsWithNormal | pyprinter/printer.py:301-302 | the wrapped text ends with `NORMAL` exactly when the text does |
| Ansi.StripColorize | pyprinter/printer.py:294-305 | stripping the colour codes from wrapped plain text gives the text back |
| Ansi.StripCoded | pyprinter/printer.py:202-204 | stripping a line that starts with a colour code and is otherwise plain gives the plain text |
| TextUtil.Spaces | pyprinter/printer.py:200 | `' ' * n` is n spaces for positive n, and empty for n of 0 or less |
| TextUtil.SplitKeepEndsPieces | pyprinter/printer.py:193 | `splitlines(True)` yields non-empty pieces, each with a line break only at its end, and every piece but the last ends with one |
| TextUtil.SplitKeepEndsJoin | pyprinter/printer.py:193 | joining the pieces of `splitlines(True)` gives the text back |
| TextUtil.RightAlign | pyprinter/progress_bar.py:87 | right alignment in a field pads with spaces on the left up to the width and never truncates |
| TextUtil.NatToStringRoundTrip | pyprinter/progress_bar.py:87 | the decimal string of a number reads back as that number |
| Wrap.Step | pyprinter/printer.py:139-169 | each pass of the splitter's inner loop consumes at least one input character |
| WrapScan.StepWindowSource | pyprinter/printer.py:143-151 | a step that copies a colour window keeps the pending line well formed with its colour count, and the text read so far grows by exactly the 7 characters of the window |
| WrapScan.StepBreakSource | pyprinter/printer.py:156-169 | a forced break keeps the pending line well formed, and the closed and pending lines together hold exactly the text read before plus the one character consumed; an added line break contributes nothing to that text |
| WrapScan.StepSource | pyprinter/printer.py:139-169 | every pass of the inner loop, whichever branch it takes, keeps the pending line well formed and reads exactly the characters it steps over, so no input character is lost or duplicated |
| WrapScan.SplitLinesKeepsInput | pyprinter/printer.py:134-179 | nothing is lost: apart from the breaks it adds and the characters the lone-window merge deletes, the output is the input, in order |
| WrapScan.SplitNewline | pyprinter/printer.py:157-159 | a lone line break comes out as one line holding only that break |
| WrapBound.SplitLinesBound | pyprinter/printer.py:131-178 | with colours on, the lines split into two bands: a leading band, non-empty once a forced break happened and everything when none did, whose lines hold at most max(first limit, 1) counted characters, and the rest, at most max(break limit, 1); the first line is always within the first limit |
| WrapBound.MergeKeeps | pyprinter/printer.py:171-178 | the lone-window merge never makes the line it joins longer |
| WrapChunks.SplitPlainLine | pyprinter/printer.py:131-178 | a plain line is cut into pieces of exactly max(limit, 1) characters, the first under the first limit and the rest under the break limit, as an independent reference cut says |
| WrapChunks.SplitPlainLines | pyprinter/printer.py:131-178 | from column 0, several plain lines are cut one after another under the break limit |
| WrapChunks.WidthExamples | tests/test_printer.py:29-33 | at width 80, 79 characters stay on one line and 80 characters become 79 and 1 |
| WrapChunks.TwoLinesExample | tests/test_printer.py:34-35 | at width 80, 100 then 200 characters become lines of 79, 21, 79, 79 and 42 |
| WrapChunks.IndentExamples | tests/test_printer.py:49-89 | with an indent of 10, 79 characters become 69 and 10; with nested indents of 10 and 5, 64 and 15 |
| Writer.NewPrinter | pyprinter/printer.py:95-110 | a new printer is at a line start, at column 0, with no indents, and its indent sum is the sum of its indents |
| Writer.ConsoleWidth | pyprinter/printer.py:403-405 | a positive console width is used as is; any other becomes 80 |
| Writer.Shown | pyprinter/printer.py:201-207 | the line shown is the split line with its codes stripped (colours off) or with the last colour put in front when it does not start with a code (colours on) |
| Writer.EmitLine | pyprinter/printer.py:197-214 | one printed line: the shown line is recorded, the printer is in a line exactly when it does not end with a line break, and with colours on the last colour becomes the last code of the shown line |
| Writer.Emit | pyprinter/printer.py:197-214 | the print loop shows one line per split line and leaves the printer in a line exactly when the last shown line lacks a line break |
| Writer.EmitShows | pyprinter/printer.py:201-207 | every shown line is its split line, stripped or prefixed as the colours flag says |
| Writer.LayOut | pyprinter/printer.py:194 | without a width limit the lines are the `splitlines` pieces unchanged; splitting keeps the indents and the flags |
| Writer.Settle | pyprinter/printer.py:216-229 | the column update: 0 after no lines or a final line break, and otherwise the old column plus the length of the last split line, colour-stripped when colours are on |
| Writer.Write | pyprinter/printer.py:181-233 | `write` keeps the indents, their sum, and the colour and width flags, and never sets the first-line flag |
| Writer.WriteLine | pyprinter/printer.py:235-242 | `write_line` keeps the indents and their sum |
| Writer.Enter | pyprinter/printer.py:42-47 | entering a group pushes its unit, keeps the indent sum equal to the sum of the indents, and sets the first-line flag when the printer is in a line (otherwise keeping it) |
| Writer.Exit | pyprinter/printer.py:49-55 | leaving a group pops the top indent (IndexError on an empty stack), subtracts the unit, clears the first-line flag, and writes a line break exactly when `add_line` is set and the printer is in a line |
| Writer.NewlineSettles | pyprinter/printer.py:235-242 | `write_line()` always prints something and leaves the printer at column 0 at a line start |
| Writer.EnterExitRestores | pyprinter/printer.py:42-55 | entering and then leaving a group restores the indent stack and its sum |
| Writer.ExitKeepsValid | pyprinter/printer.py:49-52 | leaving the innermost group keeps the indent sum equal to the sum of the indents |
| Writer.WriteTitle | pyprinter/printer.py:283-292 | `write_title` writes the coloured title line, then a line in the line colour with `len(title) + 3` '=' characters |
| Writer.AlignSize | pyprinter/printer.py:262 | a given non-zero `align_size` is used; otherwise it is min(32, width // 2) |
| Writer.ValueLines | pyprinter/printer.py:275-281 | the value lines: one `write_line` of the value colour and text for a scalar, one per item for a list, none for an empty list |
| Writer.WriteAligned | pyprinter/printer.py:244-281 | nothing for a None value; otherwise the key write in the key colour, the padding write, the group of `align_size`, the value lines and the group's exit; keys in `not_important_keys` get the dark key and value colours |
| WriterProofs.EmitCarries | pyprinter/printer.py:205-214 | with colours on, each line is shown behind the colour the previous shown line ended with, `NORMAL` for the first |
| WriterProofs.EmitPassesOn | pyprinter/printer.py:213-214 | the colour the print loop ends with is the last code of the last shown line |
| WriterProofs.EmitFramed | pyprinter/printer.py:197-209 | the writer receives each shown line behind the indent margin, which is written only when the printer is not in a line |
| WriterProofs.WriteOutput | pyprinter/printer.py:181-233 | what `write` hands to the writer: the framed shown lines, then `NORMAL` exactly when colours are on and the text does not end with `NORMAL` |
| WriterProofs.ShownNewline | pyprinter/printer.py:211 | a split line ending in a line break is shown ending in one, and with colours on the converse holds too |
| WriterProofs.WriteCursor | pyprinter/printer.py:211-229 | after `write`: no lines keep the in-line flag and reset the column; a final line break means a line start at column 0 with the first-line flag cleared; with colours on the printer is in a line exactly when the last line lacks a break |
| WriterProofs.EmitPlain | pyprinter/printer.py:202-204 | with colours off, lines without colour codes are shown unchanged |
| WriterProofs.WritePlainText | pyprinter/printer.py:181-233 | with colours off, no width limit and no indent, `write` of plain text prints exactly that text |
| WriterProofs.ApplyFollowsStack | pyprinter/printer.py:42-55 | every step of a script moves the indent stack as a stack machine would and keeps the indent sum in step with it |
| WriterProofs.RunFollowsStack | pyprinter/printer.py:42-55 | a script whose group entries and exits match runs without error and keeps the indent sum equal to the stack's sum |
| WriterProofs.RunEndsClosed | pyprinter/printer.py:49-55 | a script that ends by leaving a group with `add_line` ends at a line start with the first-line flag cleared |
| WriterProofs.ScriptKeepsValid | pyprinter/printer.py:42-55 | a well-nested script keeps the indent sum equal to the sum of the indents |
| WriterProofs.AlignedNests | pyprinter/printer.py:272-281 | `write_aligned` enters exactly one group and leaves it |
| WriterProofs.WriteAlignedRestores | pyprinter/printer.py:244-281 | `write_aligned` runs without error, restores the indent stack and its sum, and for a present value ends at a line start |
| AlignedOutput.WriteOneLine | pyprinter/printer.py:181-233 | with colours off and no width limit, `write` of a one-line text prints the margin when not in a line, then the stripped text |
| AlignedOutput.WriteNothing | pyprinter/printer.py:216-233 | `write("")` prints nothing with colours off, keeps the in-line flag and resets the column to 0 |
| AlignedOutput.WriteOneLineColumn | pyprinter/printer.py:216-224 | without a width limit, a one-line text without a final break moves the column by its length, colour-stripped when colours are on |
| AlignedOutput.ValueLineOut | pyprinter/printer.py:235-242 | with colours off, `write_line(colour + v)` prints the margin when not in a line, then `v` and a line break |
| AlignedOutput.ValueLinesRun | pyprinter/printer.py:275-281 | with colours off, the value lines print each item on its own line, the first behind the current column and the others behind the indent margin |
| AlignedOutput.AlignedHead | pyprinter/printer.py:272-274 | with colours off, from a line start, the key write and the padding write print the margin, the key with its separator and the padding, and then enter the group of `align_size` |
| AlignedOutput.NewlineOut | pyprinter/printer.py:235-242 | with colours off and inside a line, `write_line()` prints just a line break |
| AlignedOutput.AlignedClose | pyprinter/printer.py:49-55 | leaving the group prints a line break exactly when the printer is in a line |
| AlignedOutput.AlignedOutput | pyprinter/printer.py:244-281 | with colours off, no width limit and from a line start, `write_aligned` prints the margin, key and separator, padding to `align_size`, the first value right after the padding, and each further value on its own line behind a margin of the indent plus `align_size`; an empty list prints a line break; None prints nothing |
| AlignedOutput.HeadColumn | pyprinter/printer.py:272 | with colours on, the key write moves the column by the length of the key and separator |
| AlignedOutput.PadColumn | pyprinter/printer.py:273 | the padding write moves the column by the padding, and resets it to 0 when the padding is empty |
| AlignedOutput.AlignedColumn | pyprinter/printer.py:272-274 | with colours on, from column 0 and a one-character separator, the value starts at column `align_size` when the key is shorter than `align_size - 1`, and at column 0 otherwise |
| FileSizes.Lower | pyprinter/file_size.py:37 | lower-casing keeps the length and lower-cases each character |
| FileSizes.WithoutCommasRemoves | pyprinter/file_size.py:37 | removing commas leaves no comma and keeps every other character, as often as it occurred |
| FileSizes.FirstSuffix | pyprinter/file_size.py:38-42 | the suffix chosen is the first of the list that the text ends with; none is chosen only when the text ends with none |
| FileSizes.TrimSlice | pyprinter/file_size.py:43 | the numeral `float()` reads is a contiguous slice of the text, with only whitespace cut away before and after it, and the slice has no whitespace at either end (the ensures of `FileSizes.Trim`) |
| FileSizes.ParseSize | pyprinter/file_size.py:36-43 | parsing a size string can fail only with ValueError; what it yields on success is stated by the round-trip lemmas below |
| FileSizes.Make | pyprinter/file_size.py:29-43 | a FileSize is copied, an int becomes its size, and None or another object is a TypeError; a text succeeds exactly when it parses (`"1,600 KB"` style), then with the parsed size, and otherwise raises ValueError |
| FileSizes.UnitName | pyprinter/file_size.py:60-75 | unit names are one or two characters long |
| FileSizes.UnitOf | pyprinter/file_size.py:54-77 | below TB the absolute size is less than 1024 units; the unit is B or its divider is at most the absolute size, so size 0 is in bytes |
| FileSizes.UnitIsLargestFit | pyprinter/file_size.py:60-75 | the chosen unit is the largest whose divider does not exceed the absolute size |
| FileSizes.UnitIgnoresSign | pyprinter/file_size.py:60 | a size and its negation get the same unit |
| FileSizes.KiloBytes | pyprinter/file_size.py:83-85 | `kilo_bytes` is the floor of size / 1024 |
| FileSizes.MegaBytes | pyprinter/file_size.py:87-89 | `mega_bytes` is the floor of `kilo_bytes` / 1024 |
| FileSizes.MegaBytesFloor | pyprinter/file_size.py:84-89 | `mega_bytes` is also the floor of size / 1024², for negative sizes too |
| FileSizes.Add | pyprinter/file_size.py:95-106 | adding a FileSize or an int adds its size; any other operand is a TypeError |
| FileSizes.Sub | pyprinter/file_size.py:108-119 | subtracting a FileSize or an int subtracts its size; any other operand is a TypeError |
| FileSizes.SubUndoesAdd | pyprinter/file_size.py:95-119 | subtracting what was added gives the original size back, for sizes and operands kept exact (see Left out: the source rounds above 2^53) |
| FileSizes.AddCommutes | pyprinter/file_size.py:102-103 | adding two file sizes does not depend on their order |
| FileSizes.Lt | pyprinter/file_size.py:160-166 | `<` compares sizes, and raises when the other operand cannot become a FileSize |
| FileSizes.Le | pyprinter/file_size.py:168-174 | `<=` compares sizes, and raises when the other operand cannot become a FileSize |
| FileSizes.Gt | pyprinter/file_size.py:192-198 | `>` compares sizes, and raises when the other operand cannot become a FileSize |
| FileSizes.Ge | pyprinter/file_size.py:200-206 | `>=` compares sizes, and raises when the other operand cannot become a FileSize |
| FileSizes.Eq | pyprinter/file_size.py:176-182 | `==` holds only for a FileSize or an int of the same size; it is false for None and strings and never raises |
| FileSizes.Ne | pyprinter/file_size.py:184-190 | `!=` is the negation of `==` |
| FileSizes.Trichotomy | pyprinter/file_size.py:160-206 | for a FileSize or int operand exactly one of `<`, `==`, `>` holds, and `<=`/`>=` are `<`/`>` or `==` |
| FileSizes.LtSwaps | pyprinter/file_size.py:160-198 | `a < b` exactly when `b > a` |
| FileSizes.TextComparesButNeverEquals | pyprinter/file_size.py:168-182 | the string `"5"` is converted for `<=` and compares as equal in size to `FileSize(5)`, yet `==` between them is false |
| FileSizes.PrettyPrint | pyprinter/file_size.py:208-235 | `pretty_print` writes the size string, a space and the coloured unit padded to `min_unit_width`, preceded by a write of leading spaces only when `min_width` exceeds their total length |
| FileSizes.PrettyPrintWidth | pyprinter/file_size.py:222-235 | the printed width, without the colour code, is the larger of `min_width` and the natural width, and the output ends with the unit name |
| FileSizes.NumeralRoundTrip | pyprinter/file_size.py:43 | the decimal string of an integer, with or without a trailing space, reads back as that integer |
| FileSizes.ParseBareRoundTrip | pyprinter/file_size.py:36-43 | an integer's decimal string parses to that integer |
| FileSizes.ParseRoundTrip | pyprinter/file_size.py:36-43 | `"<n> <suffix>"` parses to n times the suffix's multiplier, for every suffix of `MULTIPLIERS` |
| FileSizes.ParseUnitRoundTrip | pyprinter/file_size.py:36-77 | a size written with a unit name in upper case parses back to n times that unit's divider |
| FileSizes.CommaIgnored | pyprinter/file_size.py:37 | a comma anywhere in the string does not change what it parses to |
| FileSizes.ParseExample | pyprinter/file_size.py:33-43 | `"1,600 KB"` parses to 1600 · 1024 |
| ProgressMeters.FloorDiv | pyprinter/progress_bar.py:74 | `//` is floor division for either sign of the divisor, and a ZeroDivisionError for 0 |
| ProgressMeters.Filled | pyprinter/progress_bar.py:74-76 | for a positive total, the filled count is the floor of current · width / total, capped at `width`; a zero total is a ZeroDivisionError |
| ProgressMeters.BarEval | pyprinter/progress_bar.py:72-78 | the bar starts with the filled count of `after` characters; a zero total is a ZeroDivisionError |
| ProgressMeters.FilledNonNegative | pyprinter/progress_bar.py:74-76 | for a positive total, a non-negative width and non-negative progress, the filled count is not negative |
| ProgressMeters.BarShape | pyprinter/progress_bar.py:74-77 | for a positive total, a non-negative width and non-negative progress: the filled count lies between 0 and `width`, the bar starts with that many `after` marks and ends with `width` less that many `before` marks, and its length is the sum of their lengths; with one-character marks it is exactly `width` characters |
| ProgressMeters.BarFull | pyprinter/progress_bar.py:74-77 | for a positive total and a non-negative width, once current reaches the total the bar is all `after` |
| ProgressMeters.BarMonotone | pyprinter/progress_bar.py:74-76 | for a positive total and a non-negative width, the filled count never decreases as current grows |
| ProgressMeters.PercentageEval | pyprinter/progress_bar.py:85-87 | the percentage is `'%'` and `current * 100 // total`, at least 4 characters; a zero total is a ZeroDivisionError |
| ProgressMeters.PercentageReadsBack | pyprinter/progress_bar.py:85-87 | for a positive total and non-negative current, the percentage text reads back as `current * 100 // total` |
| ProgressMeters.PercentageFixedWidth | pyprinter/progress_bar.py:85-87 | up to 100% the percentage is exactly 4 characters wide |
| ProgressMeters.PercentageFull | pyprinter/progress_bar.py:85-87 | at the total the percentage is `"%100"` |
| ProgressMeters.Fill | pyprinter/progress_bar.py:167 | filling a format succeeds exactly when every slot has an argument, and is an IndexError otherwise; the text filled is stated by `ProgressMeters.FillReference` |
| ProgressMeters.FillReference | pyprinter/progress_bar.py:167 | for any format whose slots all have arguments, `format` gives each part's value in order: a text part as written and slot `{k}` as argument k |
| ProgressMeters.DefaultFormatTextMatches | pyprinter/progress_bar.py:159-163 | the default format as parsed is the string the constructor builds: numbered slots separated by spaces, the message slot last with no space |
| ProgressMeters.DefaultFormatJoins | pyprinter/progress_bar.py:159-167 | the default format fills to the meter outputs joined by single spaces, followed by the message |
| ProgressMeters.MeterEval | pyprinter/progress_bar.py:166 | the time-based meters give their readings; only division by a zero total raises |
| ProgressMeters.Collect | pyprinter/progress_bar.py:166 | the list comprehension succeeds exactly when every meter does, keeping the order, and otherwise raises the first meter's error |
| ProgressMeters.NewComposite | pyprinter/progress_bar.py:155-163 | the composite keeps its meters and a given format, and otherwise builds the default format for their number |
| ProgressMeters.CompositeEval | pyprinter/progress_bar.py:165-167 | evaluation succeeds whenever every meter does and the format's slots are covered, and a failing meter's error is what comes back; for any format the text is stated by `ProgressMeters.CompositeReference` |
| ProgressMeters.CompositeReference | pyprinter/progress_bar.py:165-167 | for any format, once the meters succeed the composite prints each part of the format in order, a text part as written and slot `{k}` as the k-th meter's text, the last slot being the message; a slot past them is an IndexError |
| ProgressMeters.DefaultCompositeEval | pyprinter/progress_bar.py:155-167 | with the default format, the composite prints the meters' texts in order, separated by single spaces, followed by the message; when a meter fails, the first failing meter's error is the result |
| ProgressMeters.NewProgressBar | pyprinter/progress_bar.py:183-201 | a positive total selects a bar, a percentage and a timing meter; otherwise an animation and a timing meter; the message width is the console width less 55 |
| ProgressMeters.ComfortNeverShrinks | pyprinter/progress_bar.py:207-216 | without a message, the comforting message never gets shorter as time passes and is at most 20 characters |
| ProgressMeters.ShownMessage | pyprinter/progress_bar.py:218 | the message shown is a prefix of the comforting message, at most the bar's width long |
| ProgressMeters.ProgressEval | pyprinter/progress_bar.py:203-221 | without a total, `eval` is a TypeError |
| ProgressMeters.ProgressClamps | pyprinter/progress_bar.py:204-205 | progress past the total shows exactly what progress at the total shows |
| ProgressMeters.ProgressFinished | pyprinter/progress_bar.py:203-221 | at or past the total, the default bar shows 20 `'#'`, `"%100"`, the timing text and the message |
| ProgressMeters.FinishedComposite | pyprinter/progress_bar.py:165-167 | the three default meters at the total fill the default format as a full bar, `"%100"` and the timing text |
| Tables.IndexOf | pyprinter/table.py:123 | a column is found exactly when it is one of the keys, at a position holding it |
| Tables.Put | pyprinter/table.py:44-45 | setting a column's limit appends a new key at the end, keeps an existing key in place, and changes only that key's limit |
| Tables.ColumnsFromList | pyprinter/table.py:41-45 | a list of columns becomes a map from each distinct column, in order of first occurrence, to `column_size_limit` |
| Tables.NewTable | pyprinter/table.py:22-47 | the table keeps its name, rows, limit and alignment; an OrderedDict is kept as given, a list is turned into the column map, and no columns give an empty map |
| Tables.Rows | pyprinter/table.py:74-83 | with columns, `rows` is every row; without, it drops the first row |
| Tables.Columns | pyprinter/table.py:85-94 | with columns, `columns` is their keys; without, it is the first row when that is a list, an IndexError with no rows, and an AttributeError for a dict |
| Tables.HeaderSplit | pyprinter/table.py:79-94 | without columns, the header row followed by `rows` is the table's rows |
| Tables.Project | pyprinter/table.py:105-110 | a list row passes through; a dict row becomes its values in column order, None where a key is missing |
| Tables.RowsList | pyprinter/table.py:96-112 | `rows_list` projects every row onto the columns, and raises what `columns` raises |
| Tables.DictRowRoundTrip | pyprinter/table.py:105-107 | projecting a dict row built from the columns and a list of values gives the values back |
| Tables.SetColumnSizeLimit | pyprinter/table.py:114-126 | a ValueError without columns or for a column with no limit; otherwise only that column's limit changes, keys and order kept |
| Tables.SetLimitRoundTrip | pyprinter/table.py:114-126 | after a change the column has the new limit, and setting the old limit back restores the table |
| Tables.FirstLine | pyprinter/table.py:61 | the first line of the table text is its prefix up to the first line break |
| Tables.Title | pyprinter/table.py:64-69 | the title is the name behind spaces, and just the name when aligned left |
| Tables.TitleRight | pyprinter/table.py:68-69 | a right-aligned title is as wide as the first line |
| Tables.TitleCentered | pyprinter/table.py:64-65 | when the name fits the first line, a centred title leaves spaces on either side that differ by at most one |
| Tables.HeaderVisibleLength | pyprinter/table.py:62-63 | the visible length discounts 7 characters for each colour code |
| Tables.PrettyPrint | pyprinter/table.py:49-72 | `pretty_print` raises exactly when `rows_list` does, with the error `columns` raises, before writing anything; otherwise an empty table text writes nothing, and a non-empty one writes a title line and then the table text; the title line is yellow, ends with the name behind spaces, is just the name when aligned left, and spans the first line's visible width when aligned right and the name fits |
| Tables.PrettyPrintEmptyRaises | pyprinter/table.py:85-94 | a table with neither columns nor rows raises IndexError from `pretty_print`, because `columns` indexes the empty row list |

## Left out

- Console-width discovery (printer.py:346-408): tput, the Windows console calls and the QTConsole check. The width is the parameter `query`; only the fallback of 80 is modelled.
- `get_printer`, the `DefaultWriter` and its `disabled` flag (printer.py:11-29, 328-343): the writer is the sequence of strings `write` returns.
- `Printer.__getattr__` for names that are not colours: ordinary attribute lookup, outside the model.
- TextUtil.SplitKeepEnds: `str.splitlines` is modelled on `'\n'` only. Python also breaks at `'\r'`, `'\x0b'`, `'\x0c'`, `'\x1c'`-`'\x1e'`, `'\x85'`, `' '` and `' '`.
- Ansi.DigitRun: `\d` in `_ANSI_REGEXP` (printer.py:69) is matched as an ASCII digit. Python's `\d` is Unicode-aware and also matches other decimal digits, such as Arabic-Indic ones. Those would then reach `int()` in `write`.
- FileSizes.Lower: lower-cases ASCII letters only. Python's `.lower()` is Unicode-aware. For example, the Kelvin sign U+212A lower-cases to `'k'`, so `"1 KB"` parses as kilobytes in Python and is a ValueError here.
- FileSizes.ParseSize: only integer numerals (an optional sign, digits and surrounding whitespace) are read. Python's `float()` accepts more:
  - `"1.5 KB"` is 1536 in Python and a ValueError here. So are exponents and `_` digit separators.
  - `int(float(x) * m)` rounds integers above 2^53 to the nearest double. The model keeps them exact.
  - A numeral too large for a double raises OverflowError in Python. The model returns its exact value.
  - `"inf"` raises OverflowError and `"nan"` raises ValueError in Python. Both are ValueError here.
  - `bytes` input (decoded as UTF-8) is not modelled; strings only.
- FileSizes.Make: an int size is kept exact. The source passes every non-FileSize value, ints included, through `int(float(size) * multiplier)` (file_size.py:43). So an int above 2^53 is rounded to the nearest double (`FileSize(2**53 + 1).size == 2**53`), and one beyond the double range raises OverflowError. The model agrees with the source while magnitudes stay within 2^53.
- FileSizes.Make: `OfOther` stands for any object that is not a FileSize, int, string or None, and is a TypeError. Python's `float()` also accepts objects that define `__float__` or `__index__`, and floats themselves. Floating-point sizes are not modelled.
- FileSizes.Add: the sum is kept exact. The source builds it with `FileSize(self.size + x)` (file_size.py:102-105), which rounds through `int(float(...))` above 2^53. The same holds for `FileSizes.Sub` (file_size.py:114-118) and for the comparisons, which convert the other operand with `int(FileSize(other))` (file_size.py:160-206).
- FileSizes.SubUndoesAdd: holds for the model's exact integers only. In the source, `FileSize(2**53) + 1 - 1` has size `2**53 - 1`, because the intermediate `2**53 + 1` rounds to `2**53`.
- FileSizes.Add: a float operand, which the source accepts (file_size.py:104-105), is not modelled. Floating point is outside the model. The same holds for `FileSizes.Sub` and the comparisons.
- FileSizes.PrettyPrint: the `.1f` size string is a parameter. It is computed in floating point (file_size.py:225-228).
- `FileSize.__str__`, `__repr__`, `__int__`, `__float__`, `__mul__`, `__truediv__`, `__floordiv__` and `get_file_size_string`: floating-point formatting and arithmetic, outside the model.
- ProgressMeters.ProgressEval: returns the composed line. The source prints `'\r'` and the line when verbose, flushes stdout and returns None (progress_bar.py:218-221). The `verbose` flag and `finish` (progress_bar.py:223-228) are printing only.
- ProgressMeters.Comfort: elapsed time is one parameter, read once. The source calls `time.time()` afresh for each threshold (progress_bar.py:209-213). If the clock crosses a threshold between those calls, the source can choose a message the model would not.
- `Timing` and `Animated` (progress_bar.py:90-147): wall-clock time, floating point and `round`. Their outputs are the `readings` parameter.
- ProgressMeters.Fill: a `print_format` is given already parsed into text and numbered slots. Format specs such as `{0:>5s}` and the rest of `str.format`'s grammar are not modelled.
- `Table._get_pretty_table`, `get_as_html` and `get_as_csv` (table.py:128-198): prettytable rendering. The rendered table text is a parameter of `Tables.PrettyPrint`. The errors raised while drawing are not modelled either: prettytable's own errors, such as a row whose length differs from the columns, and the KeyError of an unknown cell `align` (table.py:153).
- `headers_color` (table.py:23, 46): used only by the prettytable rendering, which is outside the model.
- Tables.FirstLine: like `TextUtil.SplitKeepEnds`, it ends the first line at `'\n'` only, where `splitlines()` (table.py:61) also ends it at the other Unicode line breaks.
- Tables.RowsList: rows that are neither lists nor dicts are read with `getattr` (table.py:108-109). So is a first row whose `__dict__` gives the columns (table.py:92). Arbitrary objects are not modelled.
- WrapBound.SplitLinesBound: the boundary between the two bands is shown to exist, but it is not pinned to the line the first forced break closed.
- WrapBound.SplitLinesBound: the bound is stated with colours on only. With colours off, no window is recognised. The lone-window merge (printer.py:171-178) still runs on a trailing piece that is exactly a colour code, and can lengthen the previous line by up to six counted characters. So no bound is claimed.
- AlignedOutput.AlignedOutput: the printed output of `write_aligned` is stated only with colours off, no width limit, from a line start, and for values whose lines are plain text without line breaks. In other configurations the model states the script's shape (`Writer.WriteAligned`) and its indent bookkeeping (`WriterProofs.WriteAlignedRestores`). It also states the value's column with colours on (`AlignedOutput.AlignedColumn`).
- AlignedOutput.AlignedColumn: assumes a one-character separator and starts from column 0.
- Writer.WriteAligned: `str(value)` of an arbitrary object, and `str(True)` for a bool, are given as the scalar's text.

=== FILE: aligned_output.dfy ===
/** What `Printer.write_aligned` (pyprinter/printer.py, lines 244-281) puts on
    the console: the text sent to the sink with colours off and no width
    limit, and the cursor column the printer records before the value. */
module AlignedOutput {
  import opened Outcomes
  import opened TextUtil
  import opened Ansi
  import opened Writer
  import opened WriterProofs
  import opened Wrap

  // ---------------------------------------------------------------------
  // One call of `write`

  /** Text that `splitlines(True)` keeps as one line: no line break before its end. */
  predicate OneLine(text: string) {
    forall t :: 0 <= t < |text| - 1 ==> text[t] != '\n'
  }

  lemma {:induction false} LineEndWhole(s: string, i: nat)
    requires i < |s|
    requires forall t :: i <= t < |s| - 1 ==> s[t] != '\n'
    ensures LineEnd(s, i) == |s|
    decreases |s| - i
  {
    if !(s[i] == '\n' || i + 1 == |s|) {
      LineEndWhole(s, i + 1);
    }
  }

  lemma OneLinePieces(text: string)
    requires |text| > 0 && OneLine(text)
    ensures SplitKeepEnds(text) == [text]
  {
    LineEndWhole(text, 0);
    assert text[..|text|] == text;
    assert text[|text|..] == [];
  }

  /** A colour constant holds no line break. */
  lemma CodeOneLine(c: Color)
    ensures forall i :: 0 <= i < |ColorCode(c)| ==> ColorCode(c)[i] != '\n'
  {
    var n := ColorNumber(c);
    var lead := if IsLight(c) then LightCode else DarkCode;
    assert NatToString(n) == [DigitChar(n / 10), DigitChar(n % 10)];
    assert ColorCode(c) == [Esc, '['] + lead + [DigitChar(n / 10), DigitChar(n % 10)] + "m";
  }

  /** A colour constant in front of one line of plain text. */
  lemma CodedLine(c: Color, text: string)
    requires Plain(text) && OneLine(text)
    ensures OneLine(ColorCode(c) + text)
    ensures Strip(ColorCode(c) + text) == text
  {
    CodeOneLine(c);
    StripCoded(c, text);
    var s := ColorCode(c) + text;
    forall t | 0 <= t < |s| - 1
      ensures s[t] != '\n'
    {
      if t >= 7 {
        assert s[t] == text[t - 7];
      }
    }
  }

  /** Without a width limit and with colours off, a one-line text is sent to
      the sink behind the margin a line start needs, without its codes, and
      the cursor is inside a line exactly when the shown text lacks a break. */
  lemma WriteOneLine(p: Printer, query: int, text: string)
    requires p.isFirstLine ==> |p.indents| > 0
    requires !p.colors && !p.widthLimit
    requires |text| > 0 && OneLine(text)
    ensures Write(p, query, text).out == MarginFor(p.inLine, p.indentsSum) + [Strip(text)]
    ensures Write(p, query, text).printer.inLine == !EndsWith(Strip(text), "\n")
  {
    OneLinePieces(text);
    var e := Emit([text], false, p.indentsSum, p.inLine);
    assert [text][..0] == [];
    assert Emit([], false, p.indentsSum, p.inLine) == Pass([], [], p.inLine, NormalMatch);
    assert e == EmitLine(Pass([], [], p.inLine, NormalMatch), text, false, p.indentsSum);
    assert e.out + [] == e.out;
  }

  /** `write('')` sends nothing (colours off), keeps the in-line flag, and
      puts the recorded column back to 0. */
  lemma WriteNothing(p: Printer, query: int)
    requires p.isFirstLine ==> |p.indents| > 0
    ensures !p.colors ==> Write(p, query, "").out == []
    ensures Write(p, query, "").printer.inLine == p.inLine
    ensures Write(p, query, "").printer.lastPosition == 0
  {
    assert SplitKeepEnds("") == [];
    var lines := LayOut(p, query, []).lines;
    if p.widthLimit {
      assert ScanAll([], p.colors, BreakLimit(ConsoleWidth(query), p.indentsSum),
                     Scan([], [], 0, FirstLimit(ConsoleWidth(query), p.lastPosition, Margin(p)), false)).done == [];
    }
    assert lines == [];
  }

  /** Without a width limit, the column `write` records after a text that
      ends inside its one line: the old column plus the text's length, its
      codes stripped only when colours are on. */
  lemma WriteOneLineColumn(p: Printer, query: int, text: string)
    requires p.isFirstLine ==> |p.indents| > 0
    requires !p.widthLimit
    requires |text| > 0 && OneLine(text) && !EndsWith(text, "\n")
    ensures Write(p, query, text).printer.lastPosition
            == p.lastPosition + |if p.colors then Strip(text) else text|
  {
    OneLinePieces(text);
    WriteSettles(p, query, text);
    assert LayOut(p, query, [text]) == Layout([text], p);
  }

  // ---------------------------------------------------------------------
  // Scripts

  /** One step of a run: the first call, then the rest from its printer. */
  lemma RunStep(p: Printer, query: int, ops: seq<Op>)
    requires p.isFirstLine ==> |p.indents| > 0
    requires |ops| > 0 && Apply(p, query, ops[0]).Ok?
    requires Run(Apply(p, query, ops[0]).value.printer, query, ops[1..]).Ok?
    ensures var w := Apply(p, query, ops[0]).value;
            var rest := Run(w.printer, query, ops[1..]).value;
            Run(p, query, ops) == Ok(Written(w.out + rest.out, rest.printer))
  {
  }

  lemma {:induction false} RunAppend(p: Printer, query: int, xs: seq<Op>, ys: seq<Op>)
    requires p.isFirstLine ==> |p.indents| > 0
    requires Run(p, query, xs).Ok?
    requires Run(Run(p, query, xs).value.printer, query, ys).Ok?
    ensures var a := Run(p, query, xs).value;
            var b := Run(a.printer, query, ys).value;
            Run(p, query, xs + ys) == Ok(Written(a.out + b.out, b.printer))
    decreases |xs|
  {
    if |xs| == 0 {
      assert xs + ys == ys;
      assert Run(p, query, xs) == Ok(Written([], p));
      var b := Run(p, query, ys).value;
      assert [] + b.out == b.out;
    } else {
      RunTail(p, query, xs);
      var w := Apply(p, query, xs[0]).value;
      RunStep(p, query, xs);
      RunAppend(w.printer, query, xs[1..], ys);
      RunAppendStep(p, query, xs, ys);
    }
  }

  /** The step of `RunAppend`, from the claim for the rest of `xs`. */
  lemma RunAppendStep(p: Printer, query: int, xs: seq<Op>, ys: seq<Op>)
    requires p.isFirstLine ==> |p.indents| > 0
    requires |xs| > 0 && Apply(p, query, xs[0]).Ok?
    requires var w := Apply(p, query, xs[0]).value;
             && Run(w.printer, query, xs[1..]).Ok?
             && Run(Run(w.printer, query, xs[1..]).value.printer, query, ys).Ok?
             && Run(w.printer, query, xs[1..] + ys)
                == Ok(Written(Run(w.printer, query, xs[1..]).value.out
                              + Run(Run(w.printer, query, xs[1..]).value.printer, query, ys).value.out,
                              Run(Run(w.printer, query, xs[1..]).value.printer, query, ys).value.printer))
    ensures var w := Apply(p, query, xs[0]).value;
            var r1 := Run(w.printer, query, xs[1..]).value;
            var b := Run(r1.printer, query, ys).value;
            Run(p, query, xs + ys) == Ok(Written((w.out + r1.out) + b.out, b.printer))
  {
    var w := Apply(p, query, xs[0]).value;
    var r1 := Run(w.printer, query, xs[1..]).value;
    var b := Run(r1.printer, query, ys).value;
    TailAppend(xs, ys);
    RunStep(p, query, xs + ys);
    assert w.out + (r1.out + b.out) == (w.out + r1.out) + b.out;
  }

  lemma TailAppend<T>(xs: seq<T>, ys: seq<T>)
    requires |xs| > 0
    ensures (xs + ys)[0] == xs[0] && (xs + ys)[1..] == xs[1..] + ys
  {
  }

  /** The value lines as printed: each behind the margin when the cursor is
      at a line start, each ended by a line break. */
  function LinesText(vs: seq<string>, inLine: bool, indentsSum: int): string
    decreases |vs|
  {
    if |vs| == 0 then []
    else Flatten(MarginFor(inLine, indentsSum)) + vs[0] + "\n" + LinesText(vs[1..], false, indentsSum)
  }

  /** Items that print as one plain line each. */
  predicate PlainLines(vs: seq<string>) {
    forall i :: 0 <= i < |vs| ==> Plain(vs[i]) && '\n' !in vs[i]
  }

  lemma PlainLine(v: string)
    requires Plain(v) && '\n' !in v
    ensures Plain(v + "\n") && OneLine(v + "\n") && |v + "\n"| > 0
  {
    var s := v + "\n";
    forall t | 0 <= t < |s| - 1
      ensures s[t] != '\n'
    {
      assert s[t] == v[t];
    }
  }

  /** One `write_line(color + v)` with colours off and no width limit. */
  lemma ValueLineOut(p: Printer, query: int, c: Color, v: string)
    requires p.isFirstLine ==> |p.indents| > 0
    requires !p.colors && !p.widthLimit && Plain(v) && '\n' !in v
    ensures var w := WriteLine(p, query, ColorCode(c) + v);
            && w.out == MarginFor(p.inLine, p.indentsSum) + [v + "\n"]
            && !w.printer.inLine
  {
    PlainLine(v);
    CodedLine(c, v + "\n");
    assert ColorCode(c) + v + "\n" == ColorCode(c) + (v + "\n");
    WriteOneLine(p, query, ColorCode(c) + (v + "\n"));
  }

  lemma FlattenLine(margin: seq<string>, x: string)
    ensures Flatten(margin + [x]) == Flatten(margin) + x
  {
    FlattenAppend(margin, [x]);
    assert [x][1..] == [];
  }

  /** The value lines of a list, run from `p`, print `LinesText` and leave
      the stack, the sum and the flags as they were, the cursor at a line
      start once a line was printed. */
  predicate RunsLines(p: Printer, query: int, c: Color, vs: seq<string>)
    requires p.isFirstLine ==> |p.indents| > 0
  {
    var r := Run(p, query, ValueLines(Items(vs), ColorCode(c)));
    && r.Ok?
    && Flatten(r.value.out) == LinesText(vs, p.inLine, p.indentsSum)
    && r.value.printer.indents == p.indents && r.value.printer.indentsSum == p.indentsSum
    && !r.value.printer.colors && !r.value.printer.widthLimit
    && r.value.printer.inLine == (p.inLine && |vs| == 0)
  }

  /** The value lines of a list: one `write_line` per item. */
  lemma {:induction false} ValueLinesRun(p: Printer, query: int, c: Color, vs: seq<string>)
    requires p.isFirstLine ==> |p.indents| > 0
    requires !p.colors && !p.widthLimit && PlainLines(vs)
    ensures var r := Run(p, query, ValueLines(Items(vs), ColorCode(c)));
            && r.Ok?
            && Flatten(r.value.out) == LinesText(vs, p.inLine, p.indentsSum)
            && r.value.printer.indents == p.indents && r.value.printer.indentsSum == p.indentsSum
            && !r.value.printer.colors && !r.value.printer.widthLimit
            && r.value.printer.inLine == (p.inLine && |vs| == 0)
    decreases |vs|
  {
    if |vs| > 0 {
      var w := WriteLine(p, query, ColorCode(c) + vs[0]);
      var rest := vs[1..];
      assert PlainLines(rest) by {
        forall i | 0 <= i < |rest| ensures Plain(rest[i]) && '\n' !in rest[i] {
          assert rest[i] == vs[i + 1];
        }
      }
      ValueLinesRun(w.printer, query, c, rest);
      ValueLinesStep(p, query, c, vs);
    }
    assert RunsLines(p, query, c, vs);
  }

  lemma ValueLinesCons(vs: seq<string>, code: string)
    requires |vs| > 0
    ensures var ops := ValueLines(Items(vs), code);
            |ops| > 0 && ops[0] == PutLine(code + vs[0]) && ops[1..] == ValueLines(Items(vs[1..]), code)
  {
  }

  /** The step of `ValueLinesRun`: the first item, then the rest. */
  lemma ValueLinesStep(p: Printer, query: int, c: Color, vs: seq<string>)
    requires p.isFirstLine ==> |p.indents| > 0
    requires !p.colors && !p.widthLimit && |vs| > 0 && Plain(vs[0]) && '\n' !in vs[0]
    requires RunsLines(WriteLine(p, query, ColorCode(c) + vs[0]).printer, query, c, vs[1..])
    ensures RunsLines(p, query, c, vs)
  {
    var code := ColorCode(c);
    var ops := ValueLines(Items(vs), code);
    ValueLinesCons(vs, code);
    var w := WriteLine(p, query, code + vs[0]);
    ValueLineOut(p, query, c, vs[0]);
    assert Apply(p, query, ops[0]) == Ok(w);
    var rest := Run(w.printer, query, ops[1..]).value;
    RunStep(p, query, ops);
    assert Run(p, query, ops) == Ok(Written(w.out + rest.out, rest.printer));
    assert w.printer.indents == p.indents && w.printer.indentsSum == p.indentsSum;
    assert Flatten(rest.out) == LinesText(vs[1..], false, p.indentsSum);
    FlattenAppend(w.out, rest.out);
    FlattenLine(MarginFor(p.inLine, p.indentsSum), vs[0] + "\n");
    assert Flatten(w.out + rest.out) == Flatten(MarginFor(p.inLine, p.indentsSum)) + (vs[0] + "\n") + Flatten(rest.out);
    LinesTextCons(vs, p.inLine, p.indentsSum);
  }

  lemma LinesTextCons(vs: seq<string>, inLine: bool, indentsSum: int)
    requires |vs| > 0
    ensures LinesText(vs, inLine, indentsSum)
            == Flatten(MarginFor(inLine, indentsSum)) + (vs[0] + "\n") + LinesText(vs[1..], false, indentsSum)
  {
  }

  // ---------------------------------------------------------------------
  // `write_aligned`

  /** The items a value prints: one for a single value, each item of a list. */
  function Printed(value: Value): seq<string> {
    match value
    case Absent => []
    case Scalar(t) => [t]
    case Items(xs) => xs
  }

  /** Reference reading of `write_aligned`'s output from a line start at
      indentation `indentsSum`: the key and separator, spaces up to the
      alignment column, the first item right there, and every further item
      behind the group's margin of `indentsSum + align` columns; an empty
      list leaves only the line break the group's exit writes. */
  function AlignedText(key: string, separator: string, vs: seq<string>, align: int, indentsSum: int): string {
    Spaces(indentsSum) + key + separator + Spaces(align - |key| - 1)
      + (if |vs| == 0 then "\n" else LinesText(vs, true, indentsSum + align))
  }

  /** A script of one call runs as that call. */
  lemma RunOne(p: Printer, query: int, a: Op)
    requires p.isFirstLine ==> |p.indents| > 0
    requires Apply(p, query, a).Ok?
    ensures Run(p, query, [a]) == Apply(p, query, a)
  {
    var w := Apply(p, query, a).value;
    assert [a][1..] == [];
    assert Run(w.printer, query, []) == Ok(Written([], w.printer));
    assert w.out + [] == w.out;
  }

  /** The head of `write_aligned`, two writes and a group's entry, runs as
      those calls one after another. */
  lemma RunHead(p: Printer, query: int, text: string, pad: string, unit: int)
    requires p.isFirstLine ==> |p.indents| > 0
    ensures var w1 := Write(p, query, text);
            var w2 := Write(w1.printer, query, pad);
            Run(p, query, [Put(text), Put(pad), Open(unit)])
              == Ok(Written(w1.out + (w2.out + []), Enter(w2.printer, unit)))
  {
    var w1 := Write(p, query, text);
    var w2 := Write(w1.printer, query, pad);
    var e := Enter(w2.printer, unit);
    ApplyOpen(w2.printer, query, unit);
    RunOne(w2.printer, query, Open(unit));
    ApplyPut(w1.printer, query, pad);
    assert [Put(pad), Open(unit)][1..] == [Open(unit)];
    RunFirst(w1.printer, query, [Put(pad), Open(unit)], w2, Written([], e));
    ApplyPut(p, query, text);
    assert [Put(text), Put(pad), Open(unit)][1..] == [Put(pad), Open(unit)];
    RunFirst(p, query, [Put(text), Put(pad), Open(unit)], w1, Written(w2.out + [], e));
  }

  /** `RunStep` for a first call and a rest already known. */
  lemma RunFirst(p: Printer, query: int, ops: seq<Op>, w: Written, rest: Written)
    requires p.isFirstLine ==> |p.indents| > 0
    requires |ops| > 0 && Apply(p, query, ops[0]) == Ok(w)
    requires w.printer.isFirstLine ==> |w.printer.indents| > 0
    requires Run(w.printer, query, ops[1..]) == Ok(rest)
    ensures Run(p, query, ops) == Ok(Written(w.out + rest.out, rest.printer))
  {
  }

  lemma ApplyPut(p: Printer, query: int, text: string)
    requires p.isFirstLine ==> |p.indents| > 0
    ensures Apply(p, query, Put(text)) == Ok(Write(p, query, text))
  {
  }

  lemma ApplyOpen(p: Printer, query: int, unit: int)
    requires p.isFirstLine ==> |p.indents| > 0
    ensures Apply(p, query, Open(unit)) == Ok(Written([], Enter(p, unit)))
  {
  }

  /** Key and separator hold one line that does not end in a break. */
  lemma HeadLine(head: string)
    requires '\n' !in head
    ensures OneLine(head) && !EndsWith(head, "\n")
  {
    forall t | 0 <= t < |head| - 1 ensures head[t] != '\n' { assert head[t] in head; }
    if |head| > 0 { assert head[|head| - 1] in head; }
  }

  /** Padding is plain, one line, and without a break at its end. */
  lemma PadLine(n: int)
    ensures Plain(Spaces(n)) && OneLine(Spaces(n)) && !EndsWith(Spaces(n), "\n")
    ensures Strip(Spaces(n)) == Spaces(n)
  {
    var pad := Spaces(n);
    FindAllPlain(pad);
    assert Strip(pad) == RemoveEach(pad, []) == pad;
    if |pad| > 0 {
      assert pad[|pad| - 1..] == [pad[|pad| - 1]];
    }
  }

  /** `write(key_color + key + separator)` from a line start, colours off. */
  lemma HeadWrite(p: Printer, query: int, c: Color, head: string)
    requires p.isFirstLine ==> |p.indents| > 0
    requires !p.colors && !p.widthLimit && !p.inLine
    requires Plain(head) && '\n' !in head
    ensures var w := Write(p, query, ColorCode(c) + head);
            Flatten(w.out) == Spaces(p.indentsSum) + head && w.printer.inLine
  {
    HeadLine(head);
    CodedLine(c, head);
    WriteOneLine(p, query, ColorCode(c) + head);
    FlattenTwo(Spaces(p.indentsSum), head);
  }

  lemma FlattenTwo(a: string, b: string)
    ensures Flatten([a, b]) == a + b
  {
    assert [a, b][1..] == [b] && [b][1..] == [];
    assert Flatten([b]) == b + [];
  }

  /** `write(' ' * n)` inside a line, colours off. */
  lemma PadWrite(p: Printer, query: int, n: int)
    requires p.isFirstLine ==> |p.indents| > 0
    requires !p.colors && !p.widthLimit && p.inLine
    ensures var w := Write(p, query, Spaces(n));
            Flatten(w.out) == Spaces(n) && w.printer.inLine
  {
    var pad := Spaces(n);
    if |pad| == 0 {
      assert pad == "";
      WriteNothing(p, query);
    } else {
      PadLine(n);
      WriteOneLine(p, query, pad);
      assert [pad][1..] == [];
    }
  }

  /** The key and separator, the padding and the group's entry, from a line
      start, colours off. */
  lemma AlignedHead(p: Printer, query: int, c: Color, head: string, n: int, align: int)
    requires p.isFirstLine ==> |p.indents| > 0
    requires !p.colors && !p.widthLimit && !p.inLine
    requires Plain(head) && '\n' !in head
    ensures var r := Run(p, query, [Put(ColorCode(c) + head), Put(Spaces(n)), Open(align)]);
            && r.Ok?
            && Flatten(r.value.out) == Spaces(p.indentsSum) + head + Spaces(n)
            && r.value.printer.inLine && !r.value.printer.colors && !r.value.printer.widthLimit
            && r.value.printer.indents == p.indents + [align]
            && r.value.printer.indentsSum == p.indentsSum + align
  {
    var w1 := Write(p, query, ColorCode(c) + head);
    HeadWrite(p, query, c, head);
    var w2 := Write(w1.printer, query, Spaces(n));
    PadWrite(w1.printer, query, n);
    RunHead(p, query, ColorCode(c) + head, Spaces(n), align);
    assert w2.out + [] == w2.out;
    FlattenAppend(w1.out, w2.out);
  }

  lemma Associate(a: string, b: string, c: string)
    ensures a + b + c == a + (b + c)
  {
  }

  /** `write_line('')` inside a line, colours off: a bare line break. */
  lemma NewlineOut(q: Printer, query: int)
    requires q.isFirstLine ==> |q.indents| > 0
    requires !q.colors && q.inLine
    ensures WriteLine(q, query, "").out == ["\n"]
  {
    assert "" + "\n" == "\n";
    FindAllPlain("\n");
    if q.widthLimit {
      NewlineLaidOut(q, query);
      WriteOutput(q, query, "\n");
      NewlinePieces();
      var e := Emit(["\n"], false, q.indentsSum, q.inLine);
      assert ["\n"][..0] == [];
      assert e == EmitLine(Pass([], [], q.inLine, NormalMatch), "\n", false, q.indentsSum);
    } else {
      assert OneLine("\n");
      WriteOneLine(q, query, "\n");
    }
  }

  /** The printer `__exit__` writes its line break with: the group popped. */
  function Popped(v: Printer, align: int): Printer
    requires |v.indents| > 0
  {
    v.(isFirstLine := false, indents := v.indents[..|v.indents| - 1], indentsSum := v.indentsSum - align)
  }

  lemma ExitInLine(v: Printer, query: int, align: int)
    requires v.inLine && |v.indents| > 0
    ensures Exit(v, query, align, true) == Ok(WriteLine(Popped(v, align), query, ""))
  {
  }

  lemma FlattenOne(a: string)
    ensures Flatten([a]) == a
  {
    assert [a][1..] == [];
    assert Flatten([a]) == a + [];
  }

  /** Leaving the group with `add_line` sends a line break exactly when the
      cursor is inside a line, colours off. */
  lemma CloseOut(v: Printer, query: int, align: int)
    requires v.isFirstLine ==> |v.indents| > 0
    requires !v.colors && |v.indents| > 0
    ensures Exit(v, query, align, true).Ok?
    ensures Flatten(Exit(v, query, align, true).value.out) == (if v.inLine then "\n" else "")
  {
    if v.inLine {
      ExitInLine(v, query, align);
      NewlineOut(Popped(v, align), query);
      FlattenOne("\n");
    }
  }

  /** The group's exit after the value lines. */
  lemma AlignedClose(v: Printer, query: int, align: int)
    requires v.isFirstLine ==> |v.indents| > 0
    requires !v.colors && |v.indents| > 0
    ensures var r := Run(v, query, [Close(align, true)]);
            && r.Ok?
            && Flatten(r.value.out) == (if v.inLine then "\n" else "")
  {
    CloseOut(v, query, align);
    RunOne(v, query, Close(align, true));
  }

  /** The value lines of a single value are those of a one-item list. */
  lemma ScalarLines(value: Value, color: string)
    requires !value.Absent?
    ensures ValueLines(value, color) == ValueLines(Items(Printed(value)), color)
  {
    if value.Scalar? {
      var vs := Printed(value);
      assert vs[1..] == [];
      assert ValueLines(Items(vs), color) == [PutLine(color + vs[0])] + ValueLines(Items([]), color);
    }
  }

  /** `write_aligned` with colours off and no width limit, called at a line
      start, prints exactly the reference text: the items line up under the
      alignment column, and nothing is printed for a missing value. */
  lemma AlignedOutput(p: Printer, query: int, key: string, value: Value, notImportant: seq<string>, align: int,
                      keyColor: Color, valueColor: Color, darkKeyColor: Color, darkValueColor: Color,
                      separator: string)
    requires p.isFirstLine ==> |p.indents| > 0
    requires !p.colors && !p.widthLimit && !p.inLine
    requires Plain(key + separator) && '\n' !in key + separator
    requires PlainLines(Printed(value))
    ensures var ops := WriteAligned(key, value, notImportant, align, ColorCode(keyColor), ColorCode(valueColor),
                                    ColorCode(darkKeyColor), ColorCode(darkValueColor), separator);
            var r := Run(p, query, ops);
            && r.Ok?
            && Flatten(r.value.out)
               == (if value.Absent? then "" else AlignedText(key, separator, Printed(value), align, p.indentsSum))
  {
    if value.Absent? {
      assert Run(p, query, []) == Ok(Written([], p));
    } else {
      var important := key !in notImportant;
      var kc := if important then keyColor else darkKeyColor;
      var vc := if important then valueColor else darkValueColor;
      var vs := Printed(value);
      var head := [Put(ColorCode(kc) + key + separator), Put(Spaces(align - |key| - 1)), Open(align)];
      var mid := ValueLines(value, ColorCode(vc));
      ScalarLines(value, ColorCode(vc));
      var tail := [Close(align, true)];
      AlignedAssembled(p, query, key, separator, align, kc, vc, vs, head, mid, tail);
    }
  }

  /** What a script printed, as one string. The assembly below states its
      facts through these names so that a caller receives them exactly as
      the callee stated them. */
  function Printout(out: seq<string>): string {
    Flatten(out)
  }

  /** The value lines printed inside a line, behind the margin of `column`. */
  function LinesOf(vs: seq<string>, column: int): string {
    LinesText(vs, true, column)
  }

  function RunOf(p: Printer, query: int, ops: seq<Op>): Result<Written>
    requires p.isFirstLine ==> |p.indents| > 0
  {
    Run(p, query, ops)
  }

  /** The three parts of `write_aligned` run one after another. */
  lemma AlignedAssembled(p: Printer, query: int, key: string, separator: string, align: int,
                         kc: Color, vc: Color, vs: seq<string>, head: seq<Op>, mid: seq<Op>, tail: seq<Op>)
    requires p.isFirstLine ==> |p.indents| > 0
    requires !p.colors && !p.widthLimit && !p.inLine
    requires Plain(key + separator) && '\n' !in key + separator
    requires PlainLines(vs)
    requires head == [Put(ColorCode(kc) + key + separator), Put(Spaces(align - |key| - 1)), Open(align)]
    requires mid == ValueLines(Items(vs), ColorCode(vc))
    requires tail == [Close(align, true)]
    ensures RunOf(p, query, head + mid + tail).Ok?
    ensures Printout(RunOf(p, query, head + mid + tail).value.out) == AlignedText(key, separator, vs, align, p.indentsSum)
  {
    var h := HeadPart(p, query, kc, key, separator, align, head);
    var column := p.indentsSum + align;
    var m := LinesOnly(h.printer, query, vc, vs, column);
    var cl := CloseOnly(m.printer, query, align, |vs| == 0);
    FinalJoin(p, query, key, separator, vs, align, column, head, mid, tail, h, m, cl);
  }

  /** The three parts' outputs, joined. */
  lemma FinalJoin(p: Printer, query: int, key: string, separator: string, vs: seq<string>, align: int, column: int,
                  head: seq<Op>, mid: seq<Op>, tail: seq<Op>, h: Written, m: Written, cl: Written)
    requires Printout(h.out) == Spaces(p.indentsSum) + (key + separator) + Spaces(align - |key| - 1)
    requires column == p.indentsSum + align && Printout(m.out) == LinesOf(vs, column)
    requires Printout(cl.out) == (if |vs| == 0 then "\n" else "")
    requires p.isFirstLine ==> |p.indents| > 0
    requires RunOf(p, query, head) == Ok(h)
    requires h.printer.isFirstLine ==> |h.printer.indents| > 0
    requires RunOf(h.printer, query, mid) == Ok(m)
    requires m.printer.isFirstLine ==> |m.printer.indents| > 0
    requires RunOf(m.printer, query, tail) == Ok(cl)
    ensures RunOf(p, query, head + mid + tail).Ok?
    ensures Printout(RunOf(p, query, head + mid + tail).value.out) == AlignedText(key, separator, vs, align, p.indentsSum)
  {
    AlignedTextJoin(key, separator, vs, align, p.indentsSum, h.out, m.out, cl.out);
    RunJoin(p, query, head, mid, tail, h, m, cl);
  }

  /** The printer after the head: inside a line, in the group of `align`. */
  predicate AfterHead(h: Printer, indentsSum: int, align: int) {
    && (h.isFirstLine ==> |h.indents| > 0)
    && !h.colors && !h.widthLimit && h.inLine
    && h.indentsSum == indentsSum + align && |h.indents| > 0
  }

  /** The head of `write_aligned` from a line start, colours off. */
  lemma HeadPart(p: Printer, query: int, kc: Color, key: string, separator: string, align: int, head: seq<Op>)
    returns (h: Written)
    requires p.isFirstLine ==> |p.indents| > 0
    requires !p.colors && !p.widthLimit && !p.inLine
    requires Plain(key + separator) && '\n' !in key + separator
    requires head == [Put(ColorCode(kc) + key + separator), Put(Spaces(align - |key| - 1)), Open(align)]
    ensures RunOf(p, query, head) == Ok(h)
    ensures AfterHead(h.printer, p.indentsSum, align)
    ensures Printout(h.out) == Spaces(p.indentsSum) + (key + separator) + Spaces(align - |key| - 1)
  {
    Associate(ColorCode(kc), key, separator);
    AlignedHead(p, query, kc, key + separator, align - |key| - 1, align);
    h := Run(p, query, head).value;
  }

  /** The value lines, inside a line of the group. */
  lemma LinesOnly(h: Printer, query: int, vc: Color, vs: seq<string>, column: int) returns (m: Written)
    requires h.isFirstLine ==> |h.indents| > 0
    requires !h.colors && !h.widthLimit && h.inLine && h.indentsSum == column
    requires PlainLines(vs)
    ensures RunOf(h, query, ValueLines(Items(vs), ColorCode(vc))) == Ok(m)
    ensures Printout(m.out) == LinesOf(vs, column)
    ensures m.printer.indents == h.indents && !m.printer.colors && m.printer.inLine == (|vs| == 0)
  {
    ValueLinesRun(h, query, vc, vs);
    m := Run(h, query, ValueLines(Items(vs), ColorCode(vc))).value;
  }

  /** The group's exit, as a one-call script. */
  lemma CloseOnly(v: Printer, query: int, align: int, inLine: bool) returns (cl: Written)
    requires v.isFirstLine ==> |v.indents| > 0
    requires !v.colors && |v.indents| > 0 && v.inLine == inLine
    ensures RunOf(v, query, [Close(align, true)]) == Ok(cl)
    ensures Printout(cl.out) == (if inLine then "\n" else "")
  {
    AlignedClose(v, query, align);
    cl := Run(v, query, [Close(align, true)]).value;
  }

  /** Three scripts run one after another. */
  lemma RunJoin(p: Printer, query: int, xs: seq<Op>, ys: seq<Op>, zs: seq<Op>, a: Written, b: Written, c: Written)
    requires p.isFirstLine ==> |p.indents| > 0
    requires RunOf(p, query, xs) == Ok(a)
    requires a.printer.isFirstLine ==> |a.printer.indents| > 0
    requires RunOf(a.printer, query, ys) == Ok(b)
    requires b.printer.isFirstLine ==> |b.printer.indents| > 0
    requires RunOf(b.printer, query, zs) == Ok(c)
    ensures RunOf(p, query, xs + ys + zs) == Ok(Written(a.out + b.out + c.out, c.printer))
  {
    RunAppend(p, query, xs, ys);
    RunAppend(p, query, xs + ys, zs);
  }

  lemma FlattenThree(a: seq<string>, b: seq<string>, c: seq<string>)
    ensures Flatten(a + b + c) == Flatten(a) + Flatten(b) + Flatten(c)
  {
    FlattenAppend(a + b, c);
    FlattenAppend(a, b);
  }

  /** The printed parts of `write_aligned` make up the reference text. */
  lemma AlignedTextJoin(key: string, separator: string, vs: seq<string>, align: int, indentsSum: int,
                        head: seq<string>, lines: seq<string>, close: seq<string>)
    ensures Printout(head) == Spaces(indentsSum) + (key + separator) + Spaces(align - |key| - 1)
         && Printout(lines) == LinesOf(vs, indentsSum + align)
         && Printout(close) == (if |vs| == 0 then "\n" else "")
        ==> Printout(head + lines + close) == AlignedText(key, separator, vs, align, indentsSum)
  {
    FlattenThree(head, lines, close);
    Associate(Spaces(indentsSum), key, separator);
    if |vs| == 0 {
      assert LinesText(vs, true, indentsSum + align) == [];
    }
  }

  /** `write(key_color + key + separator)` with colours on and no width
      limit moves the recorded column past the key and the separator. */
  lemma HeadColumn(p: Printer, query: int, c: Color, head: string)
    requires p.isFirstLine ==> |p.indents| > 0
    requires p.colors && !p.widthLimit
    requires Plain(head) && '\n' !in head && |head| > 0
    ensures Write(p, query, ColorCode(c) + head).printer.lastPosition == p.lastPosition + |head|
  {
    var text := ColorCode(c) + head;
    HeadLine(head);
    CodedLine(c, head);
    assert text[|text| - 1] == head[|head| - 1];
    WriteOneLineColumn(p, query, text);
  }

  /** `write(' ' * n)` with no width limit: `n` columns further on, or back
      to column 0 for the empty padding. */
  lemma PadColumn(p: Printer, query: int, n: int)
    requires p.isFirstLine ==> |p.indents| > 0
    requires !p.widthLimit
    ensures Write(p, query, Spaces(n)).printer.lastPosition == (if n > 0 then p.lastPosition + n else 0)
  {
    if n > 0 {
      PadLine(n);
      WriteOneLineColumn(p, query, Spaces(n));
    } else {
      assert Spaces(n) == "";
      WriteNothing(p, query);
    }
  }

  /** The recorded column after `write(color + head)` and `write(' ' * n)`
      and the group's entry, colours on and no width limit: `n` columns past
      the head, or column 0 when the padding is empty. */
  lemma HeadPadColumn(p: Printer, query: int, c: Color, head: string, n: int, align: int)
    requires p.isFirstLine ==> |p.indents| > 0
    requires p.colors && !p.widthLimit
    requires Plain(head) && '\n' !in head && |head| > 0
    ensures var r := Run(p, query, [Put(ColorCode(c) + head), Put(Spaces(n)), Open(align)]);
            && r.Ok?
            && r.value.printer.lastPosition == (if n > 0 then p.lastPosition + |head| + n else 0)
  {
    var w1 := Write(p, query, ColorCode(c) + head);
    HeadColumn(p, query, c, head);
    PadColumn(w1.printer, query, n);
    RunHead(p, query, ColorCode(c) + head, Spaces(n), align);
  }

  /** The recorded column once the key and the padding are written, with
      colours on and no width limit, from column 0: the alignment column when
      the key leaves room for padding. A key that fills the column makes the
      padding `write('')`, which puts the recorded column back to 0 although
      the cursor stands after the key. */
  lemma AlignedColumn(p: Printer, query: int, c: Color, key: string, separator: string, align: int)
    requires p.isFirstLine ==> |p.indents| > 0
    requires p.colors && !p.widthLimit && p.lastPosition == 0
    requires Plain(key + separator) && '\n' !in key + separator && |separator| == 1
    ensures var r := Run(p, query, [Put(ColorCode(c) + key + separator), Put(Spaces(align - |key| - 1)), Open(align)]);
            && r.Ok?
            && r.value.printer.lastPosition == (if align > |key| + 1 then align else 0)
  {
    var head, n := key + separator, align - |key| - 1;
    Associate(ColorCode(c), key, separator);
    HeadPadColumn(p, query, c, head, n, align);
  }
}

=== FILE: ansi.dfy ===
/** The colour escape codes of the printer (pyprinter/printer.py, lines 67-93),
    the recogniser `_ANSI_REGEXP` = `\x1b\[(\d;)?(\d+)m` used with `match`
    (a prefix match) and `findall`, the colour stripping of `write`, and the
    colour wrapper functions (`printer.red('text')`, ...). */
module Ansi {
  import opened TextUtil
  import opened Outcomes

  const Esc: char := '\U{1B}'

  /** `_ANSI_COLOR_CODE % (lead, n)`. */
  function Sgr(lead: string, n: nat): string {
    [Esc, '['] + lead + NatToString(n) + "m"
  }

  const DarkCode: string := "0;"
  const LightCode: string := "1;"

  /** The reset code. It is six characters long, one shorter than every colour. */
  const Normal: string := Sgr(DarkCode, 0)

  datatype Color =
    | DarkRed | DarkGreen | DarkYellow | DarkBlue | DarkPurple | DarkCyan | Grey
    | Red | Green | Yellow | Blue | Purple | Cyan | White

  function ColorNumber(c: Color): (n: nat)
    ensures 31 <= n <= 37
  {
    match c
    case DarkRed | Red => 31
    case DarkGreen | Green => 32
    case DarkYellow | Yellow => 33
    case DarkBlue | Blue => 34
    case DarkPurple | Purple => 35
    case DarkCyan | Cyan => 36
    case Grey | White => 37
  }

  predicate IsLight(c: Color) {
    c in {Red, Green, Yellow, Blue, Purple, Cyan, White}
  }

  /** `Printer.RED`, `Printer.DARK_RED`, ...: seven characters each. */
  function ColorCode(c: Color): (r: string)
    ensures |r| == 7 && r[0] == Esc
    ensures forall i :: 1 <= i < |r| ==> r[i] != Esc
  {
    var n := ColorNumber(c);
    assert NatToString(n) == [DigitChar(n / 10), DigitChar(n % 10)];
    Sgr(if IsLight(c) then LightCode else DarkCode, n)
  }

  /** `_ANSI_COLOR_LENGTH = len(WHITE)`: the width of the window the wrapper inspects. */
  const ColorLength: nat := 7

  // ---------------------------------------------------------------------
  // The recogniser

  /** The two groups of a regular-expression match: `(\d;)?` and `(\d+)`. */
  datatype Match = Match(lead: string, digits: string)

  predicate ValidMatch(m: Match) {
    && (m.lead == [] || (|m.lead| == 2 && IsDigit(m.lead[0]) && m.lead[1] == ';'))
    && |m.digits| > 0
    && AllDigits(m.digits)
  }

  /** The text a match covers. */
  function MatchText(m: Match): string {
    [Esc, '['] + m.lead + m.digits + "m"
  }

  /** `_ANSI_COLOR_CODE % (g1, int(g2))`: the code `write` rebuilds from a match. */
  function Rebuild(m: Match): string
    requires ValidMatch(m)
  {
    [Esc, '['] + m.lead + NatToString(DigitsValue(m.digits)) + "m"
  }

  /** The number of ASCII digits starting at `s[i]`. */
  function DigitRun(s: string, i: nat): (k: nat)
    requires i <= |s|
    ensures i + k <= |s|
    ensures forall j :: i <= j < i + k ==> IsDigit(s[j])
    ensures i + k < |s| ==> !IsDigit(s[i + k])
    decreases |s| - i
  {
    if i < |s| && IsDigit(s[i]) then 1 + DigitRun(s, i + 1) else 0
  }

  /** The digits-then-`m` tail of the pattern, tried at `s[i]`. */
  function DigitsThenM(s: string, i: nat): Option<string>
    requires i <= |s|
  {
    var k := DigitRun(s, i);
    if k >= 1 && i + k < |s| && s[i + k] == 'm' then Some(s[i..i + k]) else None
  }

  /** `_ANSI_REGEXP.match(s)`: the optional group is tried first, then the
      pattern without it; the match only has to cover a prefix of `s`. */
  function MatchPrefix(s: string): (r: Option<Match>)
    ensures r.Some? ==> ValidMatch(r.value) && StartsWith(s, MatchText(r.value))
  {
    if |s| >= 2 && s[0] == Esc && s[1] == '[' then
      var withLead :=
        if |s| >= 4 && IsDigit(s[2]) && s[3] == ';' then DigitsThenM(s, 4) else None;
      if withLead.Some? then
        var m := Match(s[2..4], withLead.value);
        assert MatchText(m) == s[..4 + |withLead.value| + 1];
        Some(m)
      else
        var plain := DigitsThenM(s, 2);
        if plain.Some? then
          var m := Match([], plain.value);
          assert MatchText(m) == s[..2 + |plain.value| + 1];
          Some(m)
        else None
    else None
  }

  /** The recogniser is exact: a string matches iff it starts with a
      well-formed code, and then the match is that code. */
  lemma MatchPrefixComplete(s: string, m: Match)
    requires ValidMatch(m) && StartsWith(s, MatchText(m))
    ensures MatchPrefix(s) == Some(m)
  {
    if m.lead != [] {
      MatchWithLead(s, m);
    } else {
      MatchWithoutLead(s, m);
    }
  }

  lemma MatchWithLead(s: string, m: Match)
    requires ValidMatch(m) && m.lead != [] && StartsWith(s, MatchText(m))
    ensures MatchPrefix(s) == Some(m)
  {
    var t := MatchText(m);
    var k := |m.digits|;
    assert s[..|t|] == t;
    assert t[0] == Esc && t[1] == '[' && t[2..4] == m.lead && t[4..4 + k] == m.digits && t[4 + k] == 'm';
    SliceOfPrefix(s, t, 2, 4);
    SliceOfPrefix(s, t, 4, 4 + k);
    assert s[0] == Esc && s[1] == '[' && s[2..4] == m.lead && s[4..4 + k] == m.digits && s[4 + k] == 'm';
    DigitsThenMExact(s, 4, m.digits);
  }

  lemma MatchWithoutLead(s: string, m: Match)
    requires ValidMatch(m) && m.lead == [] && StartsWith(s, MatchText(m))
    ensures MatchPrefix(s) == Some(m)
  {
    var t := MatchText(m);
    var k := |m.digits|;
    assert s[..|t|] == t;
    assert t[0] == Esc && t[1] == '[' && t[2..2 + k] == m.digits && t[2 + k] == 'm';
    SliceOfPrefix(s, t, 2, 2 + k);
    assert s[0] == Esc && s[1] == '[' && s[2..2 + k] == m.digits && s[2 + k] == 'm';
    assert !(IsDigit(s[2]) && s[3] == ';') by {
      if k >= 2 { assert s[3] == m.digits[1]; } else { assert s[3] == 'm'; }
    }
    DigitsThenMExact(s, 2, m.digits);
  }

  lemma SliceOfPrefix(s: string, t: string, i: nat, j: nat)
    requires |t| <= |s| && s[..|t|] == t && i <= j <= |t|
    ensures s[i..j] == t[i..j]
  {
    assert s[..|t|][i..j] == s[i..j];
  }

  /** A run of digits followed by `m` is read as exactly that run. */
  lemma DigitsThenMExact(s: string, i: nat, d: string)
    requires |d| > 0 && AllDigits(d) && i + |d| < |s|
    requires s[i..i + |d|] == d && s[i + |d|] == 'm'
    ensures DigitsThenM(s, i) == Some(d)
  {
    forall j | i <= j < i + |d|
      ensures IsDigit(s[j])
    {
      assert s[j] == d[j - i];
    }
    DigitRunExact(s, i, |d|);
  }

  lemma {:induction false} DigitRunExact(s: string, i: nat, k: nat)
    requires i + k < |s|
    requires forall j :: i <= j < i + k ==> IsDigit(s[j])
    requires !IsDigit(s[i + k])
    ensures DigitRun(s, i) == k
    decreases k
  {
    if k > 0 {
      DigitRunExact(s, i + 1, k - 1);
    }
  }

  function MatchLength(m: Match): nat {
    3 + |m.lead| + |m.digits|
  }

  /** `_ANSI_REGEXP.findall(s)`: the matches of a left-to-right scan that
      resumes after each match. */
  function FindAll(s: string): (r: seq<Match>)
    ensures forall i :: 0 <= i < |r| ==> ValidMatch(r[i])
    ensures MatchPrefix(s).Some? ==> |r| > 0 && r[0] == MatchPrefix(s).value
    decreases |s|
  {
    if |s| == 0 then []
    else
      var m := MatchPrefix(s);
      if m.Some? then
        assert |MatchText(m.value)| == MatchLength(m.value);
        [m.value] + FindAll(s[MatchLength(m.value)..])
      else FindAll(s[1..])
  }

  /** `s.replace(pat, '')`: occurrences removed left to right, without overlap. */
  function RemoveAll(s: string, pat: string): (r: string)
    requires |pat| > 0
    ensures |r| <= |s|
    decreases |s|
  {
    if |s| < |pat| then s
    else if s[..|pat|] == pat then RemoveAll(s[|pat|..], pat)
    else [s[0]] + RemoveAll(s[1..], pat)
  }

  /** The stripping loop of `write`: every code `findall` found in the
      original line is rebuilt and removed everywhere, in order. */
  function Strip(s: string): (r: string)
    ensures |r| <= |s|
  {
    RemoveEach(s, FindAll(s))
  }

  function RemoveEach(s: string, ms: seq<Match>): (r: string)
    requires forall i :: 0 <= i < |ms| ==> ValidMatch(ms[i])
    ensures |r| <= |s|
    decreases |ms|
  {
    if |ms| == 0 then s else RemoveEach(RemoveAll(s, Rebuild(ms[0])), ms[1..])
  }

  /** Removing codes that end with 'm' keeps a final character that is not 'm'. */
  lemma {:induction false} RemoveAllKeepsLast(s: string, pat: string)
    requires |pat| > 0 && |s| > 0 && s[|s| - 1] != pat[|pat| - 1]
    ensures var r := RemoveAll(s, pat); |r| > 0 && r[|r| - 1] == s[|s| - 1]
    decreases |s|
  {
    if |s| >= |pat| {
      if s[..|pat|] == pat {
        assert s[|pat| - 1] == pat[|pat| - 1];
        RemoveAllKeepsLast(s[|pat|..], pat);
      } else if |s| > 1 {
        RemoveAllKeepsLast(s[1..], pat);
      } else {
        assert RemoveAll(s[1..], pat) == [];
      }
    }
  }

  lemma {:induction false} RemoveEachKeepsLast(s: string, ms: seq<Match>)
    requires forall i :: 0 <= i < |ms| ==> ValidMatch(ms[i])
    requires |s| > 0 && s[|s| - 1] != 'm'
    ensures var r := RemoveEach(s, ms); |r| > 0 && r[|r| - 1] == s[|s| - 1]
    decreases |ms|
  {
    if |ms| > 0 {
      var code := Rebuild(ms[0]);
      assert code[|code| - 1] == 'm';
      RemoveAllKeepsLast(s, code);
      RemoveEachKeepsLast(RemoveAll(s, code), ms[1..]);
    }
  }

  /** Stripping the codes of a line keeps its line break. */
  lemma StripKeepsNewline(s: string)
    requires EndsWith(s, "\n")
    ensures EndsWith(Strip(s), "\n")
  {
    assert s[|s| - 1] == "\n"[0];
    RemoveEachKeepsLast(s, FindAll(s));
    var r := Strip(s);
    assert r[|r| - 1..] == "\n";
  }

  /** The colour `write` starts every call with: `(_DARK_CODE, 0)`. */
  const NormalMatch: Match := Match(DarkCode, "0")

  /** A rebuilt code is recognised again, as its normalised self. */
  lemma RebuildRecognised(m: Match, rest: string)
    requires ValidMatch(m)
    ensures MatchPrefix(Rebuild(m) + rest) == Some(Match(m.lead, NatToString(DigitsValue(m.digits))))
  {
    var n := Match(m.lead, NatToString(DigitsValue(m.digits)));
    assert MatchText(n) == Rebuild(m);
    assert (Rebuild(m) + rest)[..|MatchText(n)|] == MatchText(n);
    MatchPrefixComplete(Rebuild(m) + rest, n);
  }

  /** Text without an escape character. */
  predicate Plain(s: string) {
    forall i :: 0 <= i < |s| ==> s[i] != Esc
  }

  /** Plain text holds no code. */
  lemma {:induction false} FindAllPlain(s: string)
    requires Plain(s)
    ensures FindAll(s) == []
    decreases |s|
  {
    if |s| > 0 {
      FindAllPlain(s[1..]);
    }
  }

  /** Removing a code from plain text changes nothing. */
  lemma {:induction false} RemoveAllPlain(s: string, pat: string)
    requires |pat| > 0 && pat[0] == Esc && Plain(s)
    ensures RemoveAll(s, pat) == s
    decreases |s|
  {
    if |s| >= |pat| {
      assert s[..|pat|][0] != pat[0];
      RemoveAllPlain(s[1..], pat);
    }
  }

  // ---------------------------------------------------------------------
  // The colour wrapper: `printer.yellow('test')`

  /** The wrapper returns the colour, the text and one trailing reset; a text
      that already ends with the reset gets no second one. */
  function Colorize(c: Color, text: string): (r: string)
    ensures StartsWith(r, ColorCode(c)) && EndsWith(r, Normal)
    ensures r == ColorCode(c) + text + (if EndsWith(text, Normal) then [] else Normal)
  {
    var wrapped := ColorCode(c) + text;
    ColorEndsWithNormal(c, text);
    if !EndsWith(wrapped, Normal) then wrapped + Normal else wrapped
  }

  lemma ColorEndsWithNormal(c: Color, text: string)
    ensures EndsWith(ColorCode(c) + text, Normal) <==> EndsWith(text, Normal)
  {
    var w := ColorCode(c) + text;
    if |text| < |Normal| {
      var at := |w| - |Normal|;
      assert 1 <= at < 7 && w[at] == ColorCode(c)[at] != Esc;
      assert w[|w| - |Normal|..][0] != Normal[0];
    }
    if |text| >= |Normal| {
      assert w[|w| - |Normal|..] == text[|text| - |Normal|..];
    }
  }

  /** Plain text before a string contributes no code to `findall`. */
  lemma {:induction false} FindAllAfterPlain(t: string, rest: string)
    requires Plain(t)
    ensures FindAll(t + rest) == FindAll(rest)
    decreases |t|
  {
    if |t| > 0 {
      var s := t + rest;
      assert s[0] == t[0] != Esc;
      assert MatchPrefix(s).None?;
      assert FindAll(s) == FindAll(s[1..]);
      assert s[1..] == t[1..] + rest;
      FindAllAfterPlain(t[1..], rest);
    } else {
      assert t + rest == rest;
    }
  }

  /** Plain text before a string is kept by `replace`. */
  lemma {:induction false} RemoveAllAfterPlain(t: string, rest: string, pat: string)
    requires |pat| > 0 && pat[0] == Esc && Plain(t)
    ensures RemoveAll(t + rest, pat) == t + RemoveAll(rest, pat)
    decreases |t|
  {
    if |t| > 0 {
      var s := t + rest;
      if |s| < |pat| {
        assert RemoveAll(rest, pat) == rest;
      } else {
        assert s[..|pat|][0] == t[0] != pat[0];
        assert RemoveAll(s, pat) == [t[0]] + RemoveAll(s[1..], pat);
        assert s[1..] == t[1..] + rest;
        RemoveAllAfterPlain(t[1..], rest, pat);
        assert [t[0]] + t[1..] == t;
      }
    } else {
      assert t + rest == rest;
    }
  }

  /** The match `findall` reports for a colour constant, and its rebuilt text. */
  lemma ColorCodeMatch(c: Color, rest: string)
    ensures var m := Match(if IsLight(c) then LightCode else DarkCode, NatToString(ColorNumber(c)));
      && MatchPrefix(ColorCode(c) + rest) == Some(m)
      && Rebuild(m) == ColorCode(c)
  {
    var m := Match(if IsLight(c) then LightCode else DarkCode, NatToString(ColorNumber(c)));
    assert MatchText(m) == ColorCode(c);
    assert (ColorCode(c) + rest)[..|MatchText(m)|] == MatchText(m);
    MatchPrefixComplete(ColorCode(c) + rest, m);
    NatToStringRoundTrip(ColorNumber(c));
  }

  /** `findall` on the reset code. */
  lemma FindAllNormal()
    ensures FindAll(Normal) == [NormalMatch]
    ensures Rebuild(NormalMatch) == Normal
  {
    assert MatchText(NormalMatch) == Normal;
    MatchPrefixComplete(Normal, NormalMatch);
    assert Normal[MatchLength(NormalMatch)..] == [];
  }

  /** The codes `findall` sees in wrapped plain text: the colour and the reset. */
  lemma FindAllWrapped(c: Color, text: string)
    requires Plain(text)
    ensures FindAll(ColorCode(c) + (text + Normal))
            == [Match(if IsLight(c) then LightCode else DarkCode, NatToString(ColorNumber(c))), NormalMatch]
  {
    var m := Match(if IsLight(c) then LightCode else DarkCode, NatToString(ColorNumber(c)));
    var s := ColorCode(c) + (text + Normal);
    ColorCodeMatch(c, text + Normal);
    assert s[MatchLength(m)..] == text + Normal;
    FindAllAfterPlain(text, Normal);
    FindAllNormal();
  }

  /** Stripping a colour code in front of plain text leaves the text. */
  lemma StripCoded(c: Color, text: string)
    requires Plain(text)
    ensures Strip(ColorCode(c) + text) == text
  {
    var m := Match(if IsLight(c) then LightCode else DarkCode, NatToString(ColorNumber(c)));
    var code := ColorCode(c);
    var s := code + text;
    ColorCodeMatch(c, text);
    assert FindAll(s) == [m] by {
      assert s[MatchLength(m)..] == text;
      FindAllPlain(text);
    }
    assert RemoveEach(s, [m]) == RemoveAll(s, code) by {
      assert [m][1..] == [];
    }
    assert RemoveAll(s, code) == RemoveAll(text, code) by {
      assert s[..|code|] == code && s[|code|..] == text;
    }
    RemoveAllPlain(text, code);
  }

  /** Removing the colour and then the reset from wrapped plain text. */
  lemma RemoveWrapped(c: Color, text: string)
    requires Plain(text)
    ensures RemoveAll(RemoveAll(ColorCode(c) + (text + Normal), ColorCode(c)), Normal) == text
  {
    var code := ColorCode(c);
    var s := code + (text + Normal);
    assert s[..|code|] == code && s[|code|..] == text + Normal;
    RemoveAllAfterPlain(text, Normal, code);
    assert RemoveAll(s, code) == text + Normal;
    RemoveAllAfterPlain(text, Normal, Normal);
    assert Normal[|Normal|..] == [];
    assert text + [] == text;
  }

  lemma RemoveEachPair(s: string, m: Match, n: Match)
    requires ValidMatch(m) && ValidMatch(n)
    ensures RemoveEach(s, [m, n]) == RemoveAll(RemoveAll(s, Rebuild(m)), Rebuild(n))
  {
    var s1 := RemoveAll(s, Rebuild(m));
    assert [m, n][1..] == [n];
    assert RemoveEach(s, [m, n]) == RemoveEach(s1, [n]);
    assert [n][1..] == [];
    assert RemoveEach(s1, [n]) == RemoveEach(RemoveAll(s1, Rebuild(n)), []);
  }

  lemma PlainLacksNormal(text: string)
    requires Plain(text)
    ensures !EndsWith(text, Normal)
  {
    assert Normal[0] == Esc;
    if |text| >= |Normal| {
      var tail := text[|text| - |Normal|..];
      assert tail[0] == text[|text| - |Normal|] != Esc;
      assert tail[0] != Normal[0];
    }
  }

  /** Stripping text whose only escapes are a leading code and a trailing reset. */
  lemma StripPair(code: string, m: Match, text: string)
    requires ValidMatch(m) && Rebuild(m) == code
    requires FindAll(code + (text + Normal)) == [m, NormalMatch]
    ensures Strip(code + (text + Normal)) == RemoveAll(RemoveAll(code + (text + Normal), code), Normal)
  {
    FindAllNormal();
    RemoveEachPair(code + (text + Normal), m, NormalMatch);
  }

  /** Stripping undoes the colour wrapper on text without escapes. */
  lemma StripColorize(c: Color, text: string)
    requires Plain(text)
    ensures Strip(Colorize(c, text)) == text
  {
    PlainLacksNormal(text);
    assert Colorize(c, text) == ColorCode(c) + (text + Normal);
    StripWrapped(c, text);
  }

  lemma StripWrapped(c: Color, text: string)
    requires Plain(text)
    ensures Strip(ColorCode(c) + (text + Normal)) == text
  {
    var m := Match(if IsLight(c) then LightCode else DarkCode, NatToString(ColorNumber(c)));
    ColorCodeMatch(c, text + Normal);
    FindAllWrapped(c, text);
    StripPair(ColorCode(c), m, text);
    RemoveWrapped(c, text);
  }
}

=== FILE: file_sizes.dfy ===
/** `FileSize` (pyprinter/file_size.py): a byte count built from a number,
    another size or a text such as `'1,600 KB'`; its display unit; floor
    conversions to kilo- and megabytes; addition, subtraction and
    comparisons; and the unit padding of `pretty_print`. Sizes are whole
    numbers of bytes here: the floating-point paths are not modelled. */
module FileSizes {
  import opened Outcomes
  import opened TextUtil
  import opened Ansi

  datatype FileSize = FileSize(size: int)

  /** The values the class's operators accept or reject: another size, an
      integer (Python's `bool` included), a text (or UTF-8 bytes, which are
      decoded first), `None`, or a value of any other type. */
  datatype Value = OfSize(fs: FileSize) | OfInt(n: int) | OfText(text: string) | OfNone | OfOther

  const Kilo: nat := 1024
  const Mega: nat := 1_048_576
  const Giga: nat := 1_073_741_824
  const Tera: nat := 1_099_511_627_776

  // ---------------------------------------------------------------------
  // Parsing (lines 24-43)

  /** `MULTIPLIERS`, in the order they are tried. */
  const Multipliers: seq<(string, nat)> := [("kb", Kilo), ("mb", Mega), ("gb", Giga), ("tb", Tera), ("b", 1)]

  function LowerChar(c: char): char {
    if 'A' <= c <= 'Z' then (c as int + 32) as char else c
  }

  /** `str.lower()` on ASCII letters. */
  function Lower(s: string): (r: string)
    ensures |r| == |s|
    ensures forall i :: 0 <= i < |s| ==> r[i] == LowerChar(s[i])
  {
    seq(|s|, i requires 0 <= i < |s| => LowerChar(s[i]))
  }

  /** `s.replace(',', '')`. */
  function WithoutCommas(s: string): (r: string)
    ensures |r| <= |s|
  {
    if |s| == 0 then []
    else (if s[0] == ',' then [] else [s[0]]) + WithoutCommas(s[1..])
  }

  /** Every comma is removed, and only commas: the other characters stay
      in order. */
  lemma {:induction false} WithoutCommasRemoves(s: string)
    ensures ',' !in WithoutCommas(s)
    ensures forall c :: c != ',' ==> multiset(WithoutCommas(s))[c] == multiset(s)[c]
  {
    if |s| > 0 {
      WithoutCommasRemoves(s[1..]);
      assert s == [s[0]] + s[1..];
    }
  }

  /** A text without commas is left as it is. */
  lemma {:induction false} WithoutCommasKeeps(s: string)
    requires ',' !in s
    ensures WithoutCommas(s) == s
  {
    if |s| > 0 {
      assert ',' !in s[1..];
      WithoutCommasKeeps(s[1..]);
      assert s == [s[0]] + s[1..];
    }
  }

  /** The first entry of `ms` whose suffix ends `s`, as the loop with its
      `break` finds it. */
  function FirstSuffix(s: string, ms: seq<(string, nat)>): (r: Option<nat>)
    ensures r.Some? ==> r.value < |ms| && EndsWith(s, ms[r.value].0)
    ensures r.Some? ==> forall j :: 0 <= j < r.value ==> !EndsWith(s, ms[j].0)
    ensures r.None? ==> forall j :: 0 <= j < |ms| ==> !EndsWith(s, ms[j].0)
  {
    if |ms| == 0 then None
    else if EndsWith(s, ms[0].0) then Some(0)
    else
      var rest := FirstSuffix(s, ms[1..]);
      if rest.Some? then Some(rest.value + 1) else None
  }

  predicate IsSpace(c: char) {
    c == ' ' || c == '\t' || c == '\n' || c == '\r' || c == 11 as char || c == 12 as char
  }

  /** `s.strip()` on ASCII white space. */
  function Trim(s: string): (r: string)
    ensures |r| <= |s|
    ensures |r| > 0 ==> !IsSpace(r[0]) && !IsSpace(r[|r| - 1])
    decreases |s|
  {
    if |s| == 0 then []
    else if IsSpace(s[0]) then Trim(s[1..])
    else if IsSpace(s[|s| - 1]) then Trim(s[..|s| - 1])
    else s
  }

  /** `Trim` keeps a contiguous slice of its input and drops only white
      space on either side of it. */
  lemma {:induction false} TrimSlice(s: string) returns (a: nat)
    ensures a + |Trim(s)| <= |s| && Trim(s) == s[a..a + |Trim(s)|]
    ensures forall i :: 0 <= i < a ==> IsSpace(s[i])
    ensures forall i :: a + |Trim(s)| <= i < |s| ==> IsSpace(s[i])
    decreases |s|
  {
    if |s| == 0 {
      a := 0;
    } else if IsSpace(s[0]) {
      var b := TrimSlice(s[1..]);
      a := b + 1;
    } else if IsSpace(s[|s| - 1]) {
      a := TrimSlice(s[..|s| - 1]);
    } else {
      a := 0;
    }
  }

  /** `float(s)` on an integer numeral: optional white space, an optional
      sign and at least one ASCII digit. */
  function ParseNumeral(s: string): (r: Option<int>)
  {
    var t := Trim(s);
    if |t| > 0 && (t[0] == '+' || t[0] == '-') then
      var digits := t[1..];
      if |digits| > 0 && AllDigits(digits) then
        var n: int := if t[0] == '-' then -(DigitsValue(digits) as int) else DigitsValue(digits);
        Some(n)
      else None
    else if |t| > 0 && AllDigits(t) then Some(DigitsValue(t))
    else None
  }

  /** The size a text stands for: commas dropped, case ignored, the first
      matching unit suffix fixing the multiplier, and the rest read as a
      number; anything else is a `ValueError`. */
  function ParseSize(text: string): (r: Result<int>)
    ensures r.Err? ==> r.error == ValueError
  {
    ParseClean(Lower(WithoutCommas(text)))
  }

  /** `ParseSize` once commas are gone and letters are lower case. */
  function ParseClean(s: string): (r: Result<int>)
    ensures r.Err? ==> r.error == ValueError
  {
    ParseWith(s, Multipliers)
  }

  /** The loop over a suffix table: the first suffix that ends `s` fixes
      the multiplier and is cut off, and the rest is read as a number. */
  function ParseWith(s: string, ms: seq<(string, nat)>): (r: Result<int>)
    ensures r.Err? ==> r.error == ValueError
  {
    var k := FirstSuffix(s, ms);
    var mult := if k.Some? then ms[k.value].1 else 1;
    var number := if k.Some? then s[..|s| - |ms[k.value].0|] else s;
    match ParseNumeral(number)
    case None => Err(ValueError)
    case Some(n) => Ok(n * mult)
  }

  /** `FileSize(value)`. A copy for a size; `float(None)` and `float` of a
      value of another type raise `TypeError`. */
  function Make(v: Value): (r: Result<FileSize>)
    ensures v.OfSize? ==> r == Ok(v.fs)
    ensures v.OfInt? ==> r == Ok(FileSize(v.n))
    ensures v.OfNone? || v.OfOther? ==> r == Err(TypeError)
    ensures v.OfText? ==> (r.Ok? <==> ParseSize(v.text).Ok?)
    ensures v.OfText? && r.Ok? ==> r.value.size == ParseSize(v.text).value
    ensures v.OfText? && r.Err? ==> r.error == ValueError
  {
    match v
    case OfSize(fs) => Ok(fs)
    case OfInt(n) => Ok(FileSize(n))
    case OfText(text) =>
      var n :- ParseSize(text);
      Ok(FileSize(n))
    case OfNone => Err(TypeError)
    case OfOther => Err(TypeError)
  }

  // ---------------------------------------------------------------------
  // Units (lines 54-77)

  datatype Unit = B | KB | MB | GB | TB

  function UnitName(u: Unit): (r: string)
    ensures 1 <= |r| <= 2
  {
    match u
    case B => "B"
    case KB => "KB"
    case MB => "MB"
    case GB => "GB"
    case TB => "TB"
  }

  function Divider(u: Unit): (d: nat)
    ensures d >= 1
  {
    match u
    case B => 1
    case KB => Kilo
    case MB => Mega
    case GB => Giga
    case TB => Tera
  }

  /** `SIZE_COLORS` (lines 16-22). */
  function UnitColor(u: Unit): Color {
    match u
    case B => Yellow
    case KB => Cyan
    case MB => Green
    case GB => Red
    case TB => DarkRed
  }

  function Abs(n: int): nat {
    if n < 0 then -n else n
  }

  /** `_unit_info`: the unit by strict thresholds on the absolute size,
      terabytes for everything larger. */
  function UnitOf(size: int): (u: Unit)
    ensures u != TB ==> Abs(size) < Kilo * Divider(u)
    ensures Abs(size) >= 1 ==> Divider(u) <= Abs(size)
    ensures u == B || Divider(u) <= Abs(size)
  {
    var a := Abs(size);
    if a < Kilo then B
    else if a < Mega then KB
    else if a < Giga then MB
    else if a < Tera then GB
    else TB
  }

  /** The unit is the largest whose divider fits in the size. */
  lemma UnitIsLargestFit(size: int, v: Unit)
    requires Divider(v) <= Abs(size)
    ensures Divider(v) <= Divider(UnitOf(size))
  {
  }

  /** The unit depends on the magnitude only. */
  lemma UnitIgnoresSign(size: int)
    ensures UnitOf(-size) == UnitOf(size)
  {
  }

  // ---------------------------------------------------------------------
  // Conversions and arithmetic (lines 83-119)

  /** `kilo_bytes`: floor division by 1024 (towards minus infinity). */
  function KiloBytes(f: FileSize): (k: int)
    ensures Kilo * k <= f.size < Kilo * k + Kilo
  {
    f.size / Kilo
  }

  /** `mega_bytes`: the kilobytes, floor-divided by 1024 again. */
  function MegaBytes(f: FileSize): (m: int)
    ensures Kilo * m <= KiloBytes(f) < Kilo * m + Kilo
  {
    KiloBytes(f) / Kilo
  }

  /** Two floor divisions by 1024 are one floor division by 1024 squared. */
  lemma MegaBytesFloor(f: FileSize)
    ensures Mega * MegaBytes(f) <= f.size < Mega * MegaBytes(f) + Mega
  {
    var k := KiloBytes(f);
    var m := MegaBytes(f);
    assert Kilo * (Kilo * m) <= Kilo * k;
    assert Kilo * k + Kilo <= Kilo * (Kilo * m + Kilo);
  }

  /** The byte count of an operand of `+` and `-`, when it has one. */
  function Amount(v: Value): Option<int> {
    match v
    case OfSize(fs) => Some(fs.size)
    case OfInt(n) => Some(n)
    case _ => None
  }

  /** `self + other`: a size or an integer adds its byte count; any other
      operand, a text included, is a `TypeError`. */
  function Add(f: FileSize, v: Value): (r: Result<FileSize>)
    ensures r.Ok? <==> v.OfSize? || v.OfInt?
    ensures r.Err? ==> r.error == TypeError
    ensures r.Ok? ==> r.value.size - f.size == Amount(v).value
  {
    match Amount(v)
    case Some(n) => Ok(FileSize(f.size + n))
    case None => Err(TypeError)
  }

  /** `self - other`, with the same operands as `+`. */
  function Sub(f: FileSize, v: Value): (r: Result<FileSize>)
    ensures r.Ok? <==> v.OfSize? || v.OfInt?
    ensures r.Err? ==> r.error == TypeError
    ensures r.Ok? ==> f.size - r.value.size == Amount(v).value
  {
    match Amount(v)
    case Some(n) => Ok(FileSize(f.size - n))
    case None => Err(TypeError)
  }

  /** Subtracting what was added gives the size back. */
  lemma SubUndoesAdd(f: FileSize, v: Value)
    requires Add(f, v).Ok?
    ensures Sub(Add(f, v).value, v) == Ok(f)
  {
  }

  /** Adding sizes does not depend on their order. */
  lemma AddCommutes(f: FileSize, g: FileSize)
    ensures Add(f, OfSize(g)) == Add(g, OfSize(f))
  {
  }

  // ---------------------------------------------------------------------
  // Comparisons (lines 160-206)

  /** `self < other`, `<=`, `>`, `>=`: the other value is made a size first,
      so a text is parsed and `None` raises `TypeError`. */
  function Lt(f: FileSize, v: Value): (r: Result<bool>)
    ensures r.Ok? <==> Make(v).Ok?
    ensures r.Ok? ==> (r.value <==> f.size < Make(v).value.size)
  {
    var g :- Make(v);
    Ok(f.size < g.size)
  }

  function Le(f: FileSize, v: Value): (r: Result<bool>)
    ensures r.Ok? <==> Make(v).Ok?
    ensures r.Ok? ==> (r.value <==> f.size <= Make(v).value.size)
  {
    var g :- Make(v);
    Ok(f.size <= g.size)
  }

  function Gt(f: FileSize, v: Value): (r: Result<bool>)
    ensures r.Ok? <==> Make(v).Ok?
    ensures r.Ok? ==> (r.value <==> f.size > Make(v).value.size)
  {
    var g :- Make(v);
    Ok(f.size > g.size)
  }

  function Ge(f: FileSize, v: Value): (r: Result<bool>)
    ensures r.Ok? <==> Make(v).Ok?
    ensures r.Ok? ==> (r.value <==> f.size >= Make(v).value.size)
  {
    var g :- Make(v);
    Ok(f.size >= g.size)
  }

  /** `self == other`: never raises; false for `None`, for texts and for
      values of other types, and otherwise a comparison of byte counts. */
  function Eq(f: FileSize, v: Value): (r: bool)
    ensures r ==> v.OfSize? || v.OfInt?
    ensures v.OfSize? || v.OfInt? ==> (r <==> f.size == Make(v).value.size)
  {
    match v
    case OfSize(g) => f.size == g.size
    case OfInt(n) => f.size == n
    case _ => false
  }

  function Ne(f: FileSize, v: Value): (r: bool)
    ensures r <==> !Eq(f, v)
  {
    !Eq(f, v)
  }

  /** For a size or an integer, exactly one of `<`, `==`, `>` holds, and
      `<=` and `>=` are `<` or `==` and `>` or `==`. */
  lemma Trichotomy(f: FileSize, v: Value)
    requires v.OfSize? || v.OfInt?
    ensures Lt(f, v).Ok? && Gt(f, v).Ok? && Le(f, v).Ok? && Ge(f, v).Ok?
    ensures (if Lt(f, v).value then 1 else 0) + (if Eq(f, v) then 1 else 0) + (if Gt(f, v).value then 1 else 0) == 1
    ensures Le(f, v).value <==> Lt(f, v).value || Eq(f, v)
    ensures Ge(f, v).value <==> Gt(f, v).value || Eq(f, v)
  {
  }

  /** Swapping the sides of `<` gives `>`. */
  lemma LtSwaps(f: FileSize, v: Value)
    requires Make(v).Ok?
    ensures Lt(f, v).value <==> Gt(Make(v).value, OfSize(f)).value
  {
  }

  // ---------------------------------------------------------------------
  // Display (lines 208-235)

  /** The writes of `pretty_print`, given the formatted number (`'%.1f'` of
      the size in its unit, which is floating point and not modelled): the
      unit left-padded to `minUnitWidth`, leading spaces only when
      `minWidth` exceeds the total length, then the number, a space, the
      unit's colour and the unit. */
  function PrettyPrint(f: FileSize, minWidth: int, minUnitWidth: int, sizeString: string): (writes: seq<string>)
    ensures var u := UnitOf(f.size);
            var unit := RightAlign(UnitName(u), minUnitWidth);
            && |writes| >= 1
            && writes[|writes| - 1] == sizeString + " " + ColorCode(UnitColor(u)) + unit
            && (|writes| == 2 <==> minWidth > |sizeString| + 1 + |unit|)
            && |writes| <= 2
            && (|writes| == 2 ==> writes[0] == Spaces(minWidth - (|sizeString| + 1 + |unit|)))
  {
    var u := UnitOf(f.size);
    var unit := Spaces(minUnitWidth - |UnitName(u)|) + UnitName(u);
    var total := |sizeString| + 1 + |unit|;
    var spaces := minWidth - total;
    (if spaces > 0 then [Spaces(spaces)] else []) + [sizeString + " " + ColorCode(UnitColor(u)) + unit]
  }

  /** The printed width, colour code aside, is the larger of `minWidth` and
      the natural width, and the unit takes at least `minUnitWidth` columns,
      ending the line. */
  lemma PrettyPrintWidth(f: FileSize, minWidth: int, minUnitWidth: int, sizeString: string)
    ensures var writes := PrettyPrint(f, minWidth, minUnitWidth, sizeString);
            var name := UnitName(UnitOf(f.size));
            var natural := |sizeString| + 1 + (if |name| < minUnitWidth then minUnitWidth else |name|);
            && |Flatten(writes)| - ColorLength == (if minWidth > natural then minWidth else natural)
            && EndsWith(Flatten(writes), name)
  {
    var writes := PrettyPrint(f, minWidth, minUnitWidth, sizeString);
    var u := UnitOf(f.size);
    var unit := RightAlign(UnitName(u), minUnitWidth);
    var last := writes[|writes| - 1];
    assert EndsWith(last, UnitName(u)) && |last| == |sizeString| + 1 + ColorLength + |unit| by {
      assert last == (sizeString + " " + ColorCode(UnitColor(u))) + unit;
      EndsWithAfter(sizeString + " " + ColorCode(UnitColor(u)), unit, UnitName(u));
    }
    if |writes| == 2 {
      assert EndsWith(Flatten(writes), UnitName(u)) && |Flatten(writes)| == |writes[0]| + |last| by {
        FlattenPair(writes[0], last);
        assert writes == [writes[0], last];
        EndsWithAfter(writes[0], last, UnitName(u));
      }
    } else {
      assert Flatten(writes) == last by {
        FlattenOne(last);
        assert writes == [last];
      }
    }
  }

  lemma EndsWithAfter(prefix: string, s: string, suffix: string)
    requires EndsWith(s, suffix)
    ensures EndsWith(prefix + s, suffix)
  {
    assert (prefix + s)[|prefix + s| - |suffix|..] == s[|s| - |suffix|..];
  }

  lemma FlattenOne(a: string)
    ensures Flatten([a]) == a
  {
    assert [a][1..] == [];
  }

  lemma FlattenPair(a: string, b: string)
    ensures Flatten([a, b]) == a + b
  {
    assert [a, b][1..] == [b];
    FlattenOne(b);
  }

  // ---------------------------------------------------------------------
  // Worked examples and round trips

  /** No upper-case letters: lower-casing changes nothing. */
  predicate NoUpper(s: string) {
    forall i :: 0 <= i < |s| ==> !('A' <= s[i] <= 'Z')
  }

  lemma LowerKeeps(s: string)
    requires NoUpper(s)
    ensures Lower(s) == s
  {
  }

  /** A printed integer starts and ends without white space. */
  lemma PrintedEnds(n: int)
    ensures var p := IntToString(n);
            && !IsSpace(p[0]) && IsDigit(p[|p| - 1]) && NoUpper(p) && ',' !in p
  {
    var p := IntToString(n);
    if n < 0 {
      var q := NatToString(-n);
      assert p == "-" + q;
      assert p[|p| - 1] == q[|q| - 1];
      assert forall i :: 1 <= i < |p| ==> p[i] == q[i - 1];
    }
  }

  /** A text without white space at either end is its own strip, with or
      without one trailing space. */
  lemma TrimKeeps(p: string)
    requires |p| > 0 && !IsSpace(p[0]) && !IsSpace(p[|p| - 1])
    ensures Trim(p) == p && Trim(p + " ") == p
  {
    var q := p + " ";
    assert q[0] == p[0];
    assert q[..|q| - 1] == p;
  }

  /** A stripped run of digits, with or without a minus sign, reads as its value. */
  lemma ParseDigits(t: string)
    requires |t| > 0 && Trim(t) == t && AllDigits(t)
    ensures ParseNumeral(t) == Some(DigitsValue(t) as int)
  {
    assert IsDigit(t[0]);
  }

  lemma ParseNegative(t: string)
    requires |t| > 1 && Trim(t) == t && t[0] == '-' && AllDigits(t[1..])
    ensures ParseNumeral(t) == Some(-(DigitsValue(t[1..]) as int))
  {
  }

  lemma NumeralValue(n: int)
    ensures ParseNumeral(IntToString(n)) == Some(n)
  {
    var p := IntToString(n);
    assert Trim(p) == p by {
      PrintedEnds(n);
      TrimKeeps(p);
    }
    if n < 0 {
      var q := NatToString(-n);
      assert p[0] == '-' && p[1..] == q by {
        assert p == "-" + q;
      }
      ParseNegative(p);
      NatToStringRoundTrip(-n);
    } else {
      assert p == NatToString(n);
      ParseDigits(p);
      NatToStringRoundTrip(n);
    }
  }

  /** `float` ignores surrounding white space. */
  lemma NumeralSameTrim(a: string, b: string)
    requires Trim(a) == Trim(b)
    ensures ParseNumeral(a) == ParseNumeral(b)
  {
  }

  /** Reading back a printed integer, with or without a trailing space,
      gives the integer. */
  lemma NumeralRoundTrip(n: int)
    ensures ParseNumeral(IntToString(n)) == Some(n)
    ensures ParseNumeral(IntToString(n) + " ") == Some(n)
  {
    var p := IntToString(n);
    NumeralValue(n);
    assert Trim(p + " ") == Trim(p) by {
      PrintedEnds(n);
      TrimKeeps(p);
    }
    NumeralSameTrim(p + " ", p);
  }

  /** Without commas and capitals, the text goes to `ParseClean` as it is. */
  lemma CleanText(s: string)
    requires ',' !in s && NoUpper(s)
    ensures ParseSize(s) == ParseClean(s)
  {
    WithoutCommasKeeps(s);
    LowerKeeps(s);
  }

  /** The cleaned text `str(n) + ' ' + suffix` reads back as `n` times the
      suffix's multiplier: only the suffix's own entry matches, the earlier
      two-letter suffixes differing from it in their first letter and from
      `' b'` in the space. */
  lemma CleanRoundTrip(n: int, k: nat)
    requires k < |Multipliers|
    ensures ParseClean(IntToString(n) + " " + Multipliers[k].0) == Ok(n * Multipliers[k].1)
  {
    var p := IntToString(n);
    var suffix := Multipliers[k].0;
    var s := p + " " + suffix;
    assert FirstSuffix(s, Multipliers) == Some(k) by {
      assert s[|s| - |suffix|..] == suffix;
      if k == 4 {
        assert s[|s| - 2] == ' ';
        forall j | 0 <= j < 4
          ensures !EndsWith(s, Multipliers[j].0)
        {
          assert Multipliers[j].0[0] != ' ';
          assert s[|s| - 2..][0] == ' ';
        }
      }
    }
    assert s[..|s| - |suffix|] == p + " ";
    NumeralRoundTrip(n);
    WithSuffix(s, Multipliers, k);
  }

  /** `ParseWith` once the suffix search has answered. */
  lemma WithSuffix(s: string, ms: seq<(string, nat)>, k: nat)
    requires k < |ms| && FirstSuffix(s, ms) == Some(k)
    requires ParseNumeral(s[..|s| - |ms[k].0|]).Some?
    ensures ParseWith(s, ms) == Ok(ParseNumeral(s[..|s| - |ms[k].0|]).value * ms[k].1)
  {
  }

  lemma WithoutSuffix(s: string, ms: seq<(string, nat)>)
    requires FirstSuffix(s, ms) == None && ParseNumeral(s).Some?
    ensures ParseWith(s, ms) == Ok(ParseNumeral(s).value)
  {
  }

  /** `FileSize(str(n) + ' ' + suffix)` is `n` times the suffix's
      multiplier, for every suffix in `MULTIPLIERS`. */
  lemma ParseRoundTrip(n: int, k: nat)
    requires k < |Multipliers|
    ensures ParseSize(IntToString(n) + " " + Multipliers[k].0) == Ok(n * Multipliers[k].1)
  {
    var s := IntToString(n) + " " + Multipliers[k].0;
    assert ParseSize(s) == ParseClean(s) by {
      PrintedEnds(n);
      SuffixesClean(k);
      JoinClean(IntToString(n), Multipliers[k].0);
      CleanText(s);
    }
    CleanRoundTrip(n, k);
  }

  lemma SuffixesClean(k: nat)
    requires k < |Multipliers|
    ensures ',' !in Multipliers[k].0 && NoUpper(Multipliers[k].0)
  {
  }

  /** Joining two texts with a space keeps them free of commas and
      upper-case letters. */
  lemma JoinClean(p: string, suffix: string)
    requires ',' !in p && NoUpper(p) && ',' !in suffix && NoUpper(suffix)
    ensures ',' !in p + " " + suffix && NoUpper(p + " " + suffix)
  {
    var s := p + " " + suffix;
    forall i | 0 <= i < |s|
      ensures !('A' <= s[i] <= 'Z') && s[i] != ','
    {
      if i < |p| {
        assert s[i] == p[i];
      } else if i > |p| {
        assert s[i] == suffix[i - |p| - 1];
      }
    }
  }

  /** Every unit suffix ends in `b`. */
  lemma SuffixesEndInB()
    ensures forall j :: 0 <= j < |Multipliers| ==> var m := Multipliers[j].0; |m| > 0 && m[|m| - 1] == 'b'
  {
  }

  /** A text whose last character is not `b` has no unit suffix. */
  lemma {:induction false} NoSuffixWithoutB(p: string, ms: seq<(string, nat)>)
    requires |p| > 0 && p[|p| - 1] != 'b'
    requires forall j :: 0 <= j < |ms| ==> var m := ms[j].0; |m| > 0 && m[|m| - 1] == 'b'
    ensures FirstSuffix(p, ms) == None
    decreases |ms|
  {
    if |ms| > 0 {
      var m := ms[0].0;
      if |m| <= |p| {
        assert p[|p| - |m|..][|m| - 1] == p[|p| - 1];
      }
      NoSuffixWithoutB(p, ms[1..]);
    }
  }

  /** A bare printed integer is that many bytes. */
  lemma ParseBareRoundTrip(n: int)
    ensures ParseSize(IntToString(n)) == Ok(n)
  {
    var p := IntToString(n);
    assert ParseSize(p) == ParseClean(p) by {
      PrintedEnds(n);
      CleanText(p);
    }
    assert FirstSuffix(p, Multipliers) == None by {
      PrintedEnds(n);
      SuffixesEndInB();
      NoSuffixWithoutB(p, Multipliers);
    }
    NumeralValue(n);
    WithoutSuffix(p, Multipliers);
  }

  /** Where a unit's suffix sits in `MULTIPLIERS`. */
  function UnitIndex(u: Unit): (k: nat)
    ensures k < |Multipliers| && Multipliers[k].1 == Divider(u)
  {
    match u
    case KB => 0
    case MB => 1
    case GB => 2
    case TB => 3
    case B => 4
  }

  /** The displayed unit names are the suffixes, in upper case. */
  lemma LowerName(u: Unit)
    ensures Lower(UnitName(u)) == Multipliers[UnitIndex(u)].0
  {
    var l := Lower(UnitName(u));
    assert l[|l| - 1] == 'b';
    if u != B {
      assert l[0] == Multipliers[UnitIndex(u)].0[0];
    }
  }

  lemma LowerConcat(a: string, b: string)
    ensures Lower(a + b) == Lower(a) + Lower(b)
  {
  }

  lemma {:induction false} WithoutCommasConcat(a: string, b: string)
    ensures WithoutCommas(a + b) == WithoutCommas(a) + WithoutCommas(b)
  {
    if |a| == 0 {
      assert a + b == b;
      assert WithoutCommas(a) == [];
    } else {
      var c := a + b;
      var h := if a[0] == ',' then [] else [a[0]];
      var x, y := WithoutCommas(a[1..]), WithoutCommas(b);
      assert c[0] == a[0];
      assert c[1..] == a[1..] + b;
      assert WithoutCommas(c) == h + WithoutCommas(c[1..]);
      WithoutCommasConcat(a[1..], b);
      assert WithoutCommas(a) == h + x;
      assert h + (x + y) == (h + x) + y;
    }
  }

  /** What `pretty_print` shows as a unit reads back as that unit:
      `FileSize(str(n) + ' ' + name)` is `n` times the unit's divider. */
  lemma ParseUnitRoundTrip(n: int, u: Unit)
    ensures ParseSize(IntToString(n) + " " + UnitName(u)) == Ok(n * Divider(u))
  {
    var k := UnitIndex(u);
    ShownClean(n, u);
    CleanRoundTrip(n, k);
  }

  /** A printed size has no commas and, once lower-cased, ends in a table suffix. */
  lemma ShownClean(n: int, u: Unit)
    ensures Lower(WithoutCommas(IntToString(n) + " " + UnitName(u)))
            == IntToString(n) + " " + Multipliers[UnitIndex(u)].0
  {
    ShownNoCommas(n, u);
    ShownLower(n, u);
    LowerName(u);
  }

  lemma ShownNoCommas(n: int, u: Unit)
    ensures WithoutCommas(IntToString(n) + " " + UnitName(u)) == IntToString(n) + " " + UnitName(u)
  {
    var t := IntToString(n) + " " + UnitName(u);
    PrintedEnds(n);
    assert ',' !in t;
    WithoutCommasKeeps(t);
  }

  lemma ShownLower(n: int, u: Unit)
    ensures Lower(IntToString(n) + " " + UnitName(u)) == IntToString(n) + " " + Lower(UnitName(u))
  {
    var p := IntToString(n) + " ";
    PrintedEnds(n);
    LowerConcat(p, UnitName(u));
    LowerKeeps(p);
  }

  /** Thousands separators are ignored: `'1,600 KB'` is `'1600 KB'`. */
  lemma CommaIgnored(a: string, b: string)
    ensures ParseSize(a + "," + b) == ParseSize(a + b)
  {
    WithoutCommasConcat(a + ",", b);
    WithoutCommasConcat(a, ",");
    WithoutCommasConcat(a, b);
    assert WithoutCommas(",") == [];
    assert WithoutCommas(a) + [] == WithoutCommas(a);
  }

  /** The docstring example: `'1,600 KB'` is 1600 kilobytes. */
  lemma ParseExample()
    ensures ParseSize("1,600 KB") == Ok(1600 * 1024)
  {
    ExampleShown();
    ExampleSplit();
    CommaIgnored("1", "600 KB");
    ParseUnitRoundTrip(1600, KB);
  }

  lemma ExampleShown()
    ensures IntToString(1600) + " " + UnitName(KB) == "1600 KB"
  {
    Print1600();
  }

  lemma ExampleSplit()
    ensures "1" + "," + "600 KB" == "1,600 KB"
    ensures "1" + "600 KB" == "1600 KB"
  {
  }

  lemma Print1600()
    ensures IntToString(1600) == "1600"
  {
    assert NatToString(1) == "1";
    assert NatToString(16) == "16";
    assert NatToString(160) == "160";
  }

  /** A text and a size compare but are never equal: `FileSize(5) <= '5'`
      holds while `FileSize(5) == '5'` does not. */
  lemma TextComparesButNeverEquals()
    ensures Le(FileSize(5), OfText("5")) == Ok(true)
    ensures !Eq(FileSize(5), OfText("5"))
  {
    assert IntToString(5) == "5";
    ParseBareRoundTrip(5);
  }
}

=== FILE: outcomes.dfy ===
/** Python's exceptions, as values. An operation of the modelled library that
    can raise returns a `Result`; the error names the exception class. */
module Outcomes {

  datatype PyError =
    | TypeError          // an operand of the wrong type
    | ValueError         // a malformed numeral, a missing column
    | IndexError         // indexing an empty list, a format slot out of range
    | AttributeError     // `__dict__` of an object that has none
    | ZeroDivisionError  // integer floor division by zero

  datatype Result<+T> = Ok(value: T) | Err(error: PyError) {

    predicate IsFailure() {
      Err?
    }

    function PropagateFailure<U>(): Result<U>
      requires Err?
    {
      Err(error)
    }

    function Extract(): T
      requires Ok?
    {
      value
    }
  }

  datatype Option<+T> = None | Some(value: T)
}

=== FILE: progress_meters.dfy ===
/** The integer progress meters of pyprinter/progress_bar.py: `Bar` and
    `Percentage`, the `Composite` that joins meters through a format, and
    the `ProgressBar` that picks its meters and clamps its input. The
    clock-driven `Timing` meter and the floating-point `Animated` meter
    are not computed: their texts are inputs (`readings`). */
module ProgressMeters {
  import opened Outcomes
  import opened TextUtil
  import Writer

  /** Python's `a // b`: the floor of the quotient, for either sign of `b`. */
  function FloorDiv(a: int, b: int): (r: Result<int>)
    ensures r.Err? <==> b == 0
    ensures r.Err? ==> r.error == ZeroDivisionError
    ensures b > 0 ==> b * r.value <= a < b * r.value + b
    ensures b < 0 ==> b * r.value + b < a <= b * r.value
  {
    if b == 0 then Err(ZeroDivisionError)
    else if b > 0 then Ok(a / b)
    else Ok((-a) / (-b))
  }

  function Min(a: int, b: int): int {
    if a < b then a else b
  }

  // ---------------------------------------------------------------------
  // Bar (lines 65-78)

  datatype Bar = Bar(total: int, width: int, before: string, after: string)

  /** `Bar(total)` with its defaults. */
  function NewBar(total: int): Bar {
    Bar(total, 20, "-", "#")
  }

  /** The number of `after` marks: the floor of `current * width / total`,
      capped at `width`. */
  function Filled(b: Bar, current: int): (r: Result<int>)
    ensures r.Err? <==> b.total == 0
    ensures r.Ok? ==> r.value <= b.width
    ensures r.Ok? && b.total > 0 && r.value < b.width ==>
              b.total * r.value <= current * b.width < b.total * (r.value + 1)
    ensures r.Ok? && b.total > 0 && r.value == b.width ==> b.total * b.width <= current * b.width
  {
    var q :- FloorDiv(current * b.width, b.total);
    Ok(Min(q, b.width))
  }

  /** `Bar.eval`: the `after` marks, then `before` marks up to `width`. */
  function BarEval(b: Bar, current: int): (r: Result<string>)
    ensures r.Err? <==> b.total == 0
    ensures r.Ok? ==> StartsWith(r.value, Repeat(b.after, Filled(b, current).value))
  {
    var n :- Filled(b, current);
    Ok(Repeat(b.after, n) + Repeat(b.before, b.width - n))
  }

  /** A positive total and a non-negative `current` fill at least nothing. */
  lemma FilledNonNegative(b: Bar, current: int)
    requires b.total > 0 && b.width >= 0 && current >= 0
    ensures Filled(b, current).Ok? && Filled(b, current).value >= 0
  {
    assert current * b.width >= 0;
  }

  /** The bar holds `Filled` copies of `after` and then `width - Filled`
      copies of `before`, whatever the marks; with one-character marks it
      is exactly `width` long, the first `Filled` places `after`, the rest
      `before`. */
  lemma BarShape(b: Bar, current: int)
    requires b.total > 0 && b.width >= 0 && current >= 0
    ensures var r := BarEval(b, current).value;
            var n := Filled(b, current).value;
            && 0 <= n <= b.width
            && |r| == n * |b.after| + (b.width - n) * |b.before|
            && StartsWith(r, Repeat(b.after, n))
            && EndsWith(r, Repeat(b.before, b.width - n))
            && (|b.after| == 1 && |b.before| == 1 ==>
                  && |r| == b.width
                  && (forall i :: 0 <= i < n ==> r[i] == b.after[0])
                  && (forall i :: n <= i < b.width ==> r[i] == b.before[0]))
  {
    FilledNonNegative(b, current);
  }

  /** Multiplying by a non-negative factor keeps an order. */
  lemma MulMono(t: int, x: int, y: int)
    requires t >= 0 && x <= y
    ensures t * x <= t * y
  {
    assert t * y - t * x == t * (y - x);
  }

  /** Floor division by a positive number keeps an order. */
  lemma DivMono(a: int, c: int, t: int)
    requires t > 0 && a <= c
    ensures a / t <= c / t
  {
    if c / t < a / t {
      MulMono(t, c / t + 1, a / t);
      assert false;
    }
  }

  /** `t * w <= a` gives `a // t >= w`. */
  lemma DivAtLeast(a: int, t: int, w: int)
    requires t > 0 && t * w <= a
    ensures a / t >= w
  {
    if a / t < w {
      MulMono(t, a / t + 1, w);
      assert false;
    }
  }

  /** Once `current` reaches `total` the bar is all `after` marks. */
  lemma BarFull(b: Bar, current: int)
    requires b.total > 0 && b.width >= 0 && current >= b.total
    ensures Filled(b, current) == Ok(b.width)
    ensures BarEval(b, current) == Ok(Repeat(b.after, b.width))
  {
    var a := current * b.width;
    assert FloorDiv(a, b.total) == Ok(a / b.total);
    MulMono(b.width, b.total, current);
    DivAtLeast(a, b.total, b.width);
    assert Filled(b, current) == Ok(b.width);
    assert Repeat(b.before, 0) == [];
    assert BarEval(b, current) == Ok(Repeat(b.after, b.width) + Repeat(b.before, 0));
    assert Repeat(b.after, b.width) + [] == Repeat(b.after, b.width);
  }

  /** The number of marks never decreases as `current` grows. */
  lemma BarMonotone(b: Bar, c1: int, c2: int)
    requires b.total > 0 && b.width >= 0 && c1 <= c2
    ensures Filled(b, c1).value <= Filled(b, c2).value
  {
    assert FloorDiv(c1 * b.width, b.total) == Ok((c1 * b.width) / b.total);
    assert FloorDiv(c2 * b.width, b.total) == Ok((c2 * b.width) / b.total);
    MulMono(b.width, c1, c2);
    DivMono(c1 * b.width, c2 * b.width, b.total);
  }

  // ---------------------------------------------------------------------
  // Percentage (lines 81-87)

  /** `Percentage.eval`: `'%'` and the floored percentage, right-aligned to
      four columns and never cut. */
  function PercentageEval(total: int, current: int): (r: Result<string>)
    ensures r.Err? <==> total == 0
    ensures r.Ok? ==> EndsWith(r.value, "%" + IntToString(FloorDiv(current * 100, total).value))
    ensures r.Ok? ==> |r.value| >= 4
  {
    var percent :- FloorDiv(current * 100, total);
    Ok(RightAlign("%" + IntToString(percent), 4))
  }

  function DropSpaces(s: string): (r: string)
    ensures |r| <= |s|
  {
    if |s| > 0 && s[0] == ' ' then DropSpaces(s[1..]) else s
  }

  /** Reads a shown percentage back: leading spaces, `'%'`, digits. */
  function ReadPercent(s: string): Option<nat> {
    var t := DropSpaces(s);
    if |t| > 1 && t[0] == '%' && AllDigits(t[1..]) then Some(DigitsValue(t[1..])) else None
  }

  lemma DropPadding(n: nat, s: string)
    requires |s| > 0 && s[0] != ' '
    ensures DropSpaces(Spaces(n) + s) == s
  {
    if n > 0 {
      assert (Spaces(n) + s)[1..] == Spaces(n - 1) + s;
      DropPadding(n - 1, s);
    } else {
      assert Spaces(n) + s == s;
    }
  }

  /** The shown percentage reads back as the floored percentage. */
  lemma PercentageReadsBack(total: int, current: int)
    requires total > 0 && current >= 0
    ensures ReadPercent(PercentageEval(total, current).value) == Some(current * 100 / total)
  {
    var p := current * 100 / total;
    var digits := NatToString(p);
    var s := "%" + digits;
    assert IntToString(p) == digits;
    DropPadding(if |s| < 4 then 4 - |s| else 0, s);
    assert s[1..] == digits;
    NatToStringRoundTrip(p);
  }

  lemma ShortNumeral(p: nat)
    requires p <= 100
    ensures |NatToString(p)| <= 3
  {
    if p >= 10 {
      assert |NatToString(p / 10)| <= 2 by {
        if p / 10 >= 10 {
          assert |NatToString(p / 100)| == 1;
        }
      }
    }
  }

  /** For `0 <= current <= total` the percentage lies in 0..100 and the
      meter keeps its four columns. */
  lemma PercentageFixedWidth(total: int, current: int)
    requires 0 <= current <= total && total > 0
    ensures 0 <= current * 100 / total <= 100
    ensures |PercentageEval(total, current).value| == 4
  {
    var p := current * 100 / total;
    DivMono(current * 100, total * 100, total);
    assert (total * 100) / total == 100;
    DivMono(0, current * 100, total);
    ShortNumeral(p);
  }

  // ---------------------------------------------------------------------
  // Formats and the composite meter (lines 150-167)

  /** A `str.format` template: literal text and numbered slots `{i}`. */
  datatype Part = Text(text: string) | Slot(index: nat)

  /** The template as the text `str.format` receives. */
  function PartText(p: Part): string {
    match p
    case Text(t) => t
    case Slot(i) => "{" + IntToString(i) + "}"
  }

  function FormatText(parts: seq<Part>): string {
    if |parts| == 0 then [] else FormatText(parts[..|parts| - 1]) + PartText(parts[|parts| - 1])
  }

  predicate SlotsIn(parts: seq<Part>, n: nat) {
    forall i :: 0 <= i < |parts| ==> parts[i].Slot? ==> parts[i].index < n
  }

  /** What one part of a template contributes. */
  function PartValue(p: Part, args: seq<string>): string
    requires p.Slot? ==> p.index < |args|
  {
    if p.Text? then p.text else args[p.index]
  }

  /** `template.format(*args)`: a slot past the arguments is an `IndexError`. */
  function Fill(parts: seq<Part>, args: seq<string>): (r: Result<string>)
    ensures r.Ok? <==> SlotsIn(parts, |args|)
    ensures r.Err? ==> r.error == IndexError
  {
    if |parts| == 0 then Ok([])
    else
      var init :- Fill(parts[..|parts| - 1], args);
      match parts[|parts| - 1]
      case Text(t) => Ok(init + t)
      case Slot(i) => if i < |args| then Ok(init + args[i]) else Err(IndexError)
  }

  /** The meter slots of the default template: `{0} {1} ... {k-1}`. */
  function Slots(k: nat): (r: seq<Part>)
    ensures SlotsIn(r, k)
  {
    if k == 0 then []
    else if k == 1 then [Slot(0)]
    else Slots(k - 1) + [Text(" "), Slot(k - 1)]
  }

  /** The default template for `n` meters: the meter slots, then the
      message slot with no space before it. */
  function DefaultFormat(n: nat): (r: seq<Part>)
    ensures SlotsIn(r, n + 1)
  {
    Slots(n) + [Slot(n)]
  }

  /** The template text as `Composite.__init__` builds it: `'{i} '` for each
      meter, the last character dropped, then `'{n}'`. */
  function Built(k: nat): string {
    if k == 0 then [] else Built(k - 1) + "{" + IntToString(k - 1) + "} "
  }

  function DefaultFormatText(n: nat): string {
    SliceTo(Built(n), -1) + ("{" + IntToString(n) + "}")
  }

  lemma FormatTextSnoc(parts: seq<Part>, p: Part)
    ensures FormatText(parts + [p]) == FormatText(parts) + PartText(p)
  {
    assert (parts + [p])[..|parts|] == parts;
  }

  /** One more meter adds its slot text and a space. */
  lemma BuiltStep(k: nat)
    requires k >= 1
    ensures Built(k) == Built(k - 1) + PartText(Slot(k - 1)) + " "
  {
    var b, x := Built(k - 1), IntToString(k - 1);
    assert b + "{" + x + "} " == b + ("{" + x + "}") + " ";
  }

  /** The default template's meter slots: one more slot adds a space and
      the slot. */
  lemma SlotsStep(k: nat)
    requires k >= 2
    ensures Slots(k) == Slots(k - 1) + [Text(" ")] + [Slot(k - 1)]
  {
    var xs := Slots(k - 1);
    assert xs + [Text(" "), Slot(k - 1)] == xs + [Text(" ")] + [Slot(k - 1)];
  }

  lemma {:induction false} BuiltSlots(k: nat)
    requires k >= 1
    ensures Built(k) == FormatText(Slots(k)) + " "
  {
    BuiltStep(k);
    var p := PartText(Slot(k - 1));
    if k == 1 {
      assert Slots(1) == [] + [Slot(0)];
      FormatTextSnoc([], Slot(0));
      assert FormatText(Slots(1)) == p;
      assert Built(0) + p == p;
    } else {
      BuiltSlots(k - 1);
      var xs := Slots(k - 1);
      var f := FormatText(xs);
      SlotsStep(k);
      FormatTextSnoc(xs + [Text(" ")], Slot(k - 1));
      FormatTextSnoc(xs, Text(" "));
      assert FormatText(Slots(k)) == f + " " + p;
      assert Built(k) == (f + " ") + p + " ";
    }
  }

  /** The string the constructor builds is the text of `DefaultFormat`. */
  lemma DefaultFormatTextMatches(n: nat)
    ensures DefaultFormatText(n) == FormatText(DefaultFormat(n))
  {
    DefaultFormatSnoc(n);
    BuiltTrimmed(n);
  }

  lemma DefaultFormatSnoc(n: nat)
    ensures FormatText(DefaultFormat(n)) == FormatText(Slots(n)) + PartText(Slot(n))
  {
    FormatTextSnoc(Slots(n), Slot(n));
  }

  /** Dropping the constructor's last character removes the trailing space. */
  lemma BuiltTrimmed(n: nat)
    ensures SliceTo(Built(n), -1) == FormatText(Slots(n))
  {
    if n >= 1 {
      BuiltSlots(n);
      var t := FormatText(Slots(n));
      assert SliceTo(t + " ", -1) == t;
    }
  }

  lemma FillSnoc(parts: seq<Part>, p: Part, args: seq<string>)
    requires SlotsIn(parts, |args|) && (p.Slot? ==> p.index < |args|)
    ensures Fill(parts + [p], args) == Ok(Fill(parts, args).value + PartValue(p, args))
  {
    assert (parts + [p])[..|parts|] == parts;
  }

  /** What each part of a template stands for once the arguments are in:
      a text part itself, a slot its argument. */
  function Values(parts: seq<Part>, args: seq<string>): (r: seq<string>)
    requires SlotsIn(parts, |args|)
    ensures |r| == |parts|
    ensures forall i :: 0 <= i < |parts| ==> r[i] == PartValue(parts[i], args)
  {
    seq(|parts|, i requires 0 <= i < |parts| => PartValue(parts[i], args))
  }

  /** Filling a template whose slots all have arguments gives the parts'
      values one after another. */
  lemma {:induction false} FillReference(parts: seq<Part>, args: seq<string>)
    requires SlotsIn(parts, |args|)
    ensures Fill(parts, args) == Ok(Flatten(Values(parts, args)))
    decreases |parts|
  {
    if |parts| > 0 {
      var n := |parts| - 1;
      var init := parts[..n];
      assert parts == init + [parts[n]];
      FillReference(init, args);
      FillSnoc(init, parts[n], args);
      var vs := Values(parts, args);
      assert vs == Values(init, args) + [PartValue(parts[n], args)];
      FlattenAppend(Values(init, args), [PartValue(parts[n], args)]);
      var v := PartValue(parts[n], args);
      assert [v][1..] == [];
      assert Flatten([v]) == v;
    }
  }

  lemma FillOne(args: seq<string>)
    requires |args| >= 1
    ensures Fill(Slots(1), args) == Ok(Join(args[..1], " "))
  {
    assert Fill(Slots(1), args) == Ok(args[0]) by {
      var parts := [Slot(0)];
      assert Slots(1) == parts;
      assert parts[..0] == [];
      assert Fill(parts[..0], args) == Ok([]);
      assert [] + args[0] == args[0];
    }
    assert Join(args[..1], " ") == args[0] by {
      assert |args[..1]| == 1;
    }
  }

  lemma {:induction false} FillSlots(k: nat, args: seq<string>)
    requires k <= |args|
    ensures Fill(Slots(k), args) == Ok(Join(args[..k], " "))
  {
    if k == 0 {
      assert args[..0] == [];
      assert Fill(Slots(0), args) == Ok([]);
    } else if k == 1 {
      FillOne(args);
    } else {
      FillSlots(k - 1, args);
      var xs := Slots(k - 1);
      var j := Join(args[..k - 1], " ");
      SlotsStep(k);
      FillSnoc(xs + [Text(" ")], Slot(k - 1), args);
      FillSnoc(xs, Text(" "), args);
      assert Fill(Slots(k), args) == Ok(j + " " + args[k - 1]);
      assert args[..k] == args[..k - 1] + [args[k - 1]];
      JoinSnoc(args[..k - 1], args[k - 1], " ");
    }
  }

  /** The default template separates the meters by single spaces and puts
      the message right after the last one. */
  lemma DefaultFormatJoins(n: nat, args: seq<string>)
    requires |args| == n + 1
    ensures Fill(DefaultFormat(n), args) == Ok(Join(args[..n], " ") + args[n])
  {
    FillSlots(n, args);
    FillSnoc(Slots(n), Slot(n), args);
  }

  /** The meters a composite can hold. */
  datatype Meter = BarMeter(bar: Bar) | PercentageMeter(total: int) | AnimatedMeter | TimingMeter(expected: Option<int>)

  /** One meter's text; `reading` stands for what the clock-driven and
      floating-point meters show. */
  function MeterEval(m: Meter, current: int, reading: string): (r: Result<string>)
    ensures r.Err? ==> r.error == ZeroDivisionError
    ensures m.AnimatedMeter? || m.TimingMeter? ==> r == Ok(reading)
  {
    match m
    case BarMeter(b) => BarEval(b, current)
    case PercentageMeter(total) => PercentageEval(total, current)
    case AnimatedMeter => Ok(reading)
    case TimingMeter(_) => Ok(reading)
  }

  /** The outcome of a list comprehension whose items may raise: the
      values when every item succeeds, else the first item's error. */
  function Collect(rs: seq<Result<string>>): (r: Result<seq<string>>)
    ensures r.Ok? <==> forall i :: 0 <= i < |rs| ==> rs[i].Ok?
    ensures r.Ok? ==> |r.value| == |rs| && forall i :: 0 <= i < |rs| ==> r.value[i] == rs[i].value
    ensures r.Err? ==> exists i :: 0 <= i < |rs| && rs[i] == Err(r.error) && forall j :: 0 <= j < i ==> rs[j].Ok?
  {
    if |rs| == 0 then Ok([])
    else if rs[0].Err? then Err(rs[0].error)
    else
      var rest := Collect(rs[1..]);
      if rest.Err? then
        var i :| 0 <= i < |rs[1..]| && rs[1..][i] == Err(rest.error) && forall j :: 0 <= j < i ==> rs[1..][j].Ok?;
        assert rs[i + 1] == Err(rest.error);
        Err(rest.error)
      else Ok([rs[0].value] + rest.value)
  }

  /** Each meter's outcome on its own. */
  function MeterResults(meters: seq<Meter>, current: int, readings: seq<string>): seq<Result<string>>
    requires |readings| == |meters|
  {
    seq(|meters|, i requires 0 <= i < |meters| => MeterEval(meters[i], current, readings[i]))
  }

  /** `[x.eval(current) for x in meters]`. */
  function EvalAll(meters: seq<Meter>, current: int, readings: seq<string>): Result<seq<string>>
    requires |readings| == |meters|
  {
    Collect(MeterResults(meters, current, readings))
  }

  datatype Composite = Composite(meters: seq<Meter>, format: seq<Part>)

  /** `Composite(meters, print_format)`: without a template, the default. */
  function NewComposite(meters: seq<Meter>, format: Option<seq<Part>>): (c: Composite)
    ensures c.meters == meters
    ensures format.Some? ==> c.format == format.value
    ensures format.None? ==> FormatText(c.format) == DefaultFormatText(|meters|)
  {
    DefaultFormatTextMatches(|meters|);
    Composite(meters, if format.Some? then format.value else DefaultFormat(|meters|))
  }

  /** `Composite.eval`: the meters' texts, then the message, into the template. */
  function CompositeEval(c: Composite, current: int, message: string, readings: seq<string>): (r: Result<string>)
    requires |readings| == |c.meters|
    ensures EvalAll(c.meters, current, readings).Ok? && SlotsIn(c.format, |c.meters| + 1) ==> r.Ok?
    ensures EvalAll(c.meters, current, readings).Err? ==> r == Err(EvalAll(c.meters, current, readings).error)
  {
    var shown :- EvalAll(c.meters, current, readings);
    Fill(c.format, shown + [message])
  }

  /** For any format: the meters' texts and the message fill the slots,
      text parts are kept as written, and a slot past them is an
      `IndexError`. */
  lemma CompositeReference(c: Composite, current: int, message: string, readings: seq<string>)
    requires |readings| == |c.meters|
    ensures var s := EvalAll(c.meters, current, readings);
            var r := CompositeEval(c, current, message, readings);
            && (s.Ok? && SlotsIn(c.format, |c.meters| + 1) ==> r == Ok(Flatten(Values(c.format, s.value + [message]))))
            && (s.Ok? && !SlotsIn(c.format, |c.meters| + 1) ==> r == Err(IndexError))
  {
    var s := EvalAll(c.meters, current, readings);
    if s.Ok? && SlotsIn(c.format, |c.meters| + 1) {
      FillReference(c.format, s.value + [message]);
    }
  }

  /** The default composite prints the meters' texts in order, separated by
      single spaces, then the message; the first failing meter's error is
      what comes back. */
  lemma {:induction false} DefaultCompositeEval(meters: seq<Meter>, current: int, message: string, readings: seq<string>)
    requires |readings| == |meters|
    ensures var s := EvalAll(meters, current, readings);
            var r := CompositeEval(NewComposite(meters, None), current, message, readings);
            && (s.Ok? ==> r == Ok(Join(s.value, " ") + message))
            && (s.Err? ==> r == Err(s.error))
  {
    var s := EvalAll(meters, current, readings);
    if s.Ok? {
      var args := s.value + [message];
      DefaultFormatJoins(|meters|, args);
      assert args[..|meters|] == s.value;
    }
  }

  // ---------------------------------------------------------------------
  // ProgressBar (lines 170-221)

  /** The columns the default meters take. */
  const MetersLen := 55

  datatype ProgressBar = ProgressBar(total: Option<int>, width: int, isLying: bool, composite: Composite)

  /** `ProgressBar(total, is_lying=...)` on a console `query` columns wide. */
  function NewProgressBar(total: Option<int>, isLying: bool, query: int): (p: ProgressBar)
    ensures p.width == Writer.ConsoleWidth(query) - MetersLen
    ensures p.composite.format == DefaultFormat(|p.composite.meters|)
    ensures total.Some? && total.value > 0 ==>
              p.composite.meters == [BarMeter(NewBar(total.value)), PercentageMeter(total.value), TimingMeter(total)]
    ensures !(total.Some? && total.value > 0) ==> p.composite.meters == [AnimatedMeter, TimingMeter(total)]
  {
    var meters := if total.Some? && total.value > 0
                  then [BarMeter(NewBar(total.value)), PercentageMeter(total.value)]
                  else [AnimatedMeter];
    ProgressBar(total, Writer.ConsoleWidth(query) - MetersLen, isLying, NewComposite(meters + [TimingMeter(total)], None))
  }

  /** The comforting note: the caller's message in parentheses, else a
      canned one chosen by the seconds elapsed, else the lying warning. */
  function Comfort(message: string, elapsed: real, isLying: bool): string {
    if |message| > 0 then " (" + message + ")"
    else if elapsed > 180.0 then " (When will it end?)"
    else if elapsed > 90.0 then " (Enough already!!) "
    else if elapsed > 30.0 then " (Still here?)      "
    else if isLying then " (It's lying!!!)   "
    else message
  }

  /** The canned notes never get shorter as time passes, so writing the
      next one over the previous with a carriage return leaves no stale
      characters behind. */
  lemma ComfortNeverShrinks(e1: real, e2: real, isLying: bool)
    requires e1 <= e2
    ensures |Comfort("", e1, isLying)| <= |Comfort("", e2, isLying)|
    ensures |Comfort("", e2, isLying)| <= 20
  {
  }

  /** The message as shown: the note cut to the free width (a negative
      width counts from the end, as Python's slices do). */
  function ShownMessage(p: ProgressBar, message: string, elapsed: real): (r: string)
    ensures StartsWith(Comfort(message, elapsed, p.isLying), r)
    ensures p.width >= 0 ==> |r| <= p.width
  {
    SliceTo(Comfort(message, elapsed, p.isLying), p.width)
  }

  /** `ProgressBar.eval`: `current` clamped to `total`, then the composite.
      Comparing with a missing total is a `TypeError`. */
  function ProgressEval(p: ProgressBar, current: int, message: string, elapsed: real, readings: seq<string>): (r: Result<string>)
    requires |readings| == |p.composite.meters|
    ensures p.total.None? ==> r == Err(TypeError)
  {
    match p.total
    case None => Err(TypeError)
    case Some(t) =>
      var clamped := if current > t then t else current;
      CompositeEval(p.composite, clamped, ShownMessage(p, message, elapsed), readings)
  }

  /** Any `current` past the total shows what the total shows. */
  lemma ProgressClamps(p: ProgressBar, current: int, message: string, elapsed: real, readings: seq<string>)
    requires |readings| == |p.composite.meters|
    requires p.total.Some? && current >= p.total.value
    ensures ProgressEval(p, current, message, elapsed, readings) == ProgressEval(p, p.total.value, message, elapsed, readings)
  {
  }

  lemma Print100()
    ensures IntToString(100) == "100"
  {
    assert NatToString(1) == "1";
    assert NatToString(10) == "10";
  }

  lemma HundredShown()
    ensures RightAlign("%" + IntToString(100), 4) == "%100"
  {
    Print100();
    assert "%" + IntToString(100) == "%100";
    assert Spaces(0) == [];
    assert [] + "%100" == "%100";
  }

  lemma HundredPercent(total: int)
    requires total > 0
    ensures FloorDiv(total * 100, total) == Ok(100)
  {
    var q := FloorDiv(total * 100, total).value;
    if q < 100 {
      MulMono(total, q + 1, 100);
      assert false;
    }
    if q > 100 {
      MulMono(total, 101, q);
      assert false;
    }
  }

  lemma PercentageFull(total: int)
    requires total > 0
    ensures PercentageEval(total, total) == Ok("%100")
  {
    HundredPercent(total);
    HundredShown();
  }

  /** The default meters at the total: a full bar, `%100`, the timing text. */
  lemma MetersFinished(total: int, readings: seq<string>)
    requires total > 0 && |readings| == 3
    ensures EvalAll([BarMeter(NewBar(total)), PercentageMeter(total), TimingMeter(Some(total))], total, readings)
            == Ok([Repeat("#", 20), "%100", readings[2]])
  {
    var meters := [BarMeter(NewBar(total)), PercentageMeter(total), TimingMeter(Some(total))];
    BarFull(NewBar(total), total);
    PercentageFull(total);
    var rs := MeterResults(meters, total, readings);
    assert rs[0] == Ok(Repeat("#", 20));
    assert rs[1] == Ok("%100");
    assert rs[2] == Ok(readings[2]);
    CollectThree(rs);
  }

  /** Three outcomes that all succeed collect into the list of their values. */
  lemma CollectThree(rs: seq<Result<string>>)
    requires |rs| == 3 && rs[0].Ok? && rs[1].Ok? && rs[2].Ok?
    ensures Collect(rs) == Ok([rs[0].value, rs[1].value, rs[2].value])
  {
    var v := Collect(rs).value;
    assert |v| == 3 && v[0] == rs[0].value && v[1] == rs[1].value && v[2] == rs[2].value;
    assert v == [rs[0].value, rs[1].value, rs[2].value];
  }

  lemma JoinThree(a: string, b: string, c: string)
    ensures Join([a, b, c], " ") == a + " " + b + " " + c
  {
    assert [a, b, c][1..] == [b, c];
    assert [b, c][1..] == [c];
    assert Join([b, c], " ") == b + " " + c;
    assert a + " " + (b + " " + c) == a + " " + b + " " + c;
  }

  /** A default progress bar at or past its total shows twenty `#`, then
      `%100`, then the timing text and the message, separated as the
      default template says. */
  lemma ProgressFinished(total: int, isLying: bool, query: int, current: int, message: string, elapsed: real, readings: seq<string>)
    requires total > 0 && current >= total && |readings| == 3
    ensures var p := NewProgressBar(Some(total), isLying, query);
            ProgressEval(p, current, message, elapsed, readings)
            == Ok(Repeat("#", 20) + " " + "%100" + " " + readings[2] + ShownMessage(p, message, elapsed))
  {
    var p := NewProgressBar(Some(total), isLying, query);
    ProgressClamps(p, current, message, elapsed, readings);
    FinishedComposite(p.composite, total, ShownMessage(p, message, elapsed), readings);
  }

  /** The default meters at their total, filled into the default template. */
  lemma FinishedComposite(c: Composite, total: int, msg: string, readings: seq<string>)
    requires total > 0 && |readings| == 3
    requires c.meters == [BarMeter(NewBar(total)), PercentageMeter(total), TimingMeter(Some(total))]
    requires c.format == DefaultFormat(3)
    ensures CompositeEval(c, total, msg, readings) == Ok(Repeat("#", 20) + " " + "%100" + " " + readings[2] + msg)
  {
    var shown := [Repeat("#", 20), "%100", readings[2]];
    MetersFinished(total, readings);
    var args := shown + [msg];
    assert args[..3] == shown && args[3] == msg;
    DefaultFormatJoins(3, args);
    JoinThree(shown[0], shown[1], shown[2]);
  }
}

=== FILE: tables.dfy ===
/** The bookkeeping of `Table` (pyprinter/table.py): the ordered map from
    column names to size limits, the header row taken from the data when
    no columns are given, the projection of rows onto the columns, the
    per-column limit setter, and the title line of `pretty_print`. The
    grid itself is drawn by a third-party library; its text is an input. */
module Tables {
  import opened Outcomes
  import opened TextUtil
  import opened Ansi

  /** A cell or a column name: Python's `None`, or a value shown as text. */
  type Cell = Option<string>

  /** One entry of the `OrderedDict` of columns: a name and its size limit
      (which may be `None` in a dictionary the caller passes in). */
  datatype Entry = Entry(key: Cell, limit: Option<int>)

  const ColumnSizeLimit: int := 40
  const AlignCenter: int := 0
  const AlignLeft: int := 1
  const AlignRight: int := 2

  // ---------------------------------------------------------------------
  // The ordered column map

  function Keys(cols: seq<Entry>): (r: seq<Cell>)
    ensures |r| == |cols|
    ensures forall i :: 0 <= i < |cols| ==> r[i] == cols[i].key
  {
    seq(|cols|, i requires 0 <= i < |cols| => cols[i].key)
  }

  predicate Distinct(xs: seq<Cell>) {
    forall i, j :: 0 <= i < j < |xs| ==> xs[i] != xs[j]
  }

  /** Where a key sits in the map. */
  function IndexOf(cols: seq<Entry>, key: Cell): (r: Option<nat>)
    ensures r.Some? ==> r.value < |cols| && cols[r.value].key == key
    ensures r.None? <==> key !in Keys(cols)
  {
    if |cols| == 0 then None
    else if cols[|cols| - 1].key == key then Some(|cols| - 1)
    else
      var r := IndexOf(cols[..|cols| - 1], key);
      assert Keys(cols) == Keys(cols[..|cols| - 1]) + [cols[|cols| - 1].key];
      r
  }

  /** `od[key] = limit`: an existing key keeps its place, a new one goes last. */
  function Put(cols: seq<Entry>, key: Cell, limit: Option<int>): (r: seq<Entry>)
    ensures key in Keys(r)
    ensures key in Keys(cols) ==> Keys(r) == Keys(cols)
    ensures key !in Keys(cols) ==> Keys(r) == Keys(cols) + [key]
    ensures Distinct(Keys(cols)) ==>
              forall i :: 0 <= i < |r| ==> r[i].limit == (if r[i].key == key then limit else cols[i].limit)
  {
    var k := IndexOf(cols, key);
    if k.Some? then
      var r := cols[k.value := Entry(key, limit)];
      assert Keys(r) == Keys(cols);
      r
    else
      var r := cols + [Entry(key, limit)];
      assert Keys(r) == Keys(cols) + [key];
      r
  }

  /** `od.get(key)`: `None` for a missing key and for a `None` limit alike. */
  function Get(cols: seq<Entry>, key: Cell): (r: Option<int>)
    ensures r.Some? ==> key in Keys(cols)
  {
    var k := IndexOf(cols, key);
    if k.Some? then cols[k.value].limit else None
  }

  /** The constructor's loop over a list of column names (lines 42-45). */
  function FromList(names: seq<Cell>, limit: int): seq<Entry> {
    if |names| == 0 then []
    else Put(FromList(names[..|names| - 1], limit), names[|names| - 1], Some(limit))
  }

  /** The index of the first occurrence of `x`. */
  function First(xs: seq<Cell>, x: Cell): (i: nat)
    requires x in xs
    ensures i < |xs| && xs[i] == x && x !in xs[..i]
  {
    if xs[0] == x then 0
    else
      var i := First(xs[1..], x) + 1;
      assert xs[..i] == [xs[0]] + xs[1..][..i - 1];
      i
  }

  /** The facts the loop keeps about the map it builds. */
  ghost predicate ListMap(cols: seq<Entry>, names: seq<Cell>, limit: int) {
    && Distinct(Keys(cols))
    && (forall x :: x in names <==> x in Keys(cols))
    && (forall i :: 0 <= i < |cols| ==> cols[i].limit == Some(limit))
    && (forall i :: 0 <= i < |cols| ==> cols[i].key in names)
    && (forall i, j :: 0 <= i < j < |cols| ==> First(names, cols[i].key) < First(names, cols[j].key))
  }

  lemma FirstPrefix(names: seq<Cell>, x: Cell, y: Cell)
    requires |names| > 0 && x in names[..|names| - 1] && y == names[|names| - 1]
    ensures First(names, x) == First(names[..|names| - 1], x)
  {
    var init := names[..|names| - 1];
    var i := First(init, x);
    var j := First(names, x);
    assert names[..i] == init[..i];
    if j > i {
      assert false;
    }
  }

  lemma FirstLast(names: seq<Cell>)
    requires |names| > 0 && names[|names| - 1] !in names[..|names| - 1]
    ensures First(names, names[|names| - 1]) == |names| - 1
  {
    var k := First(names, names[|names| - 1]);
    if k < |names| - 1 {
      assert false;
    }
  }

  /** Keys keep their first positions when a name is appended. */
  lemma FirstKept(names: seq<Cell>, prev: seq<Entry>)
    requires |names| > 0
    requires forall i :: 0 <= i < |prev| ==> prev[i].key in names[..|names| - 1]
    ensures forall i :: 0 <= i < |prev| ==> First(names, prev[i].key) == First(names[..|names| - 1], prev[i].key)
  {
    forall i | 0 <= i < |prev|
      ensures First(names, prev[i].key) == First(names[..|names| - 1], prev[i].key)
    {
      FirstPrefix(names, prev[i].key, names[|names| - 1]);
    }
  }

  /** A repeated name leaves the map as it is. */
  lemma PutSame(cols: seq<Entry>, key: Cell, limit: int)
    requires Distinct(Keys(cols)) && key in Keys(cols)
    requires forall i :: 0 <= i < |cols| ==> cols[i].limit == Some(limit)
    ensures Put(cols, key, Some(limit)) == cols
  {
    var r := Put(cols, key, Some(limit));
    assert Keys(r) == Keys(cols);
    forall i | 0 <= i < |cols| ensures r[i] == cols[i] {
      assert r[i].key == Keys(r)[i] == Keys(cols)[i] == cols[i].key;
    }
  }

  lemma ListMapSame(names: seq<Cell>, limit: int, prev: seq<Entry>)
    requires |names| > 0 && names[|names| - 1] in Keys(prev)
    requires ListMap(prev, names[..|names| - 1], limit)
    ensures ListMap(prev, names, limit)
  {
    var init := names[..|names| - 1];
    assert names == init + [names[|names| - 1]];
    FirstKept(names, prev);
  }

  lemma ListMapGrow(names: seq<Cell>, limit: int, prev: seq<Entry>)
    requires |names| > 0 && names[|names| - 1] !in Keys(prev)
    requires ListMap(prev, names[..|names| - 1], limit)
    ensures ListMap(prev + [Entry(names[|names| - 1], Some(limit))], names, limit)
  {
    var init := names[..|names| - 1];
    var y := names[|names| - 1];
    var cols := prev + [Entry(y, Some(limit))];
    assert names == init + [y];
    assert y !in init;
    assert Keys(cols) == Keys(prev) + [y];
    FirstKept(names, prev);
    FirstLast(names);
    forall i | 0 <= i < |prev| ensures First(names, cols[i].key) < First(names, y) {
      assert cols[i] == prev[i];
    }
    forall i, j | 0 <= i < j < |cols| ensures First(names, cols[i].key) < First(names, cols[j].key) {
      if j < |prev| {
        assert cols[i] == prev[i] && cols[j] == prev[j];
      }
    }
  }

  lemma ListMapStep(names: seq<Cell>, limit: int)
    requires |names| > 0
    requires ListMap(FromList(names[..|names| - 1], limit), names[..|names| - 1], limit)
    ensures ListMap(FromList(names, limit), names, limit)
  {
    var prev := FromList(names[..|names| - 1], limit);
    var y := names[|names| - 1];
    if y in Keys(prev) {
      PutSame(prev, y, limit);
      ListMapSame(names, limit, prev);
    } else {
      assert Put(prev, y, Some(limit)) == prev + [Entry(y, Some(limit))];
      ListMapGrow(names, limit, prev);
    }
  }

  /** A list of names becomes a map with one entry per distinct name, in
      the order the names first appear, every limit the default. */
  lemma {:induction false} ColumnsFromList(names: seq<Cell>, limit: int)
    ensures ListMap(FromList(names, limit), names, limit)
  {
    if |names| > 0 {
      ColumnsFromList(names[..|names| - 1], limit);
      ListMapStep(names, limit);
    }
  }

  // ---------------------------------------------------------------------
  // The table (lines 22-47, 74-126)

  datatype ColumnsArg = NoColumns | ColumnList(names: seq<Cell>) | ColumnDict(entries: seq<Entry>)

  /** A row: a list of cells, or a dictionary from column names to cells. */
  datatype Row = ListRow(cells: seq<Cell>) | DictRow(fields: map<Cell, Cell>)

  datatype Table = Table(name: string, rows: seq<Row>, columns: seq<Entry>, sizeLimit: int, titleAlign: int)

  /** `Table(name, rows, columns, column_size_limit, title_align=...)`. */
  function NewTable(name: string, rows: seq<Row>, columns: ColumnsArg, sizeLimit: int, titleAlign: int): (t: Table)
    ensures t.name == name && t.rows == rows && t.sizeLimit == sizeLimit && t.titleAlign == titleAlign
    ensures columns.NoColumns? ==> t.columns == []
    ensures columns.ColumnDict? ==> t.columns == columns.entries
    ensures columns.ColumnList? ==> ListMap(t.columns, columns.names, sizeLimit)
  {
    match columns
    case NoColumns => Table(name, rows, [], sizeLimit, titleAlign)
    case ColumnList(names) =>
      ColumnsFromList(names, sizeLimit);
      Table(name, rows, FromList(names, sizeLimit), sizeLimit, titleAlign)
    case ColumnDict(entries) => Table(name, rows, entries, sizeLimit, titleAlign)
  }

  /** `rows`: without columns the first row is the header and is skipped. */
  function Rows(t: Table): (r: seq<Row>)
    ensures |t.columns| > 0 ==> r == t.rows
    ensures |t.columns| == 0 && |t.rows| > 0 ==> [t.rows[0]] + r == t.rows
    ensures |t.rows| == 0 ==> r == []
  {
    if |t.columns| == 0 then (if |t.rows| == 0 then [] else t.rows[1..]) else t.rows
  }

  /** `columns`: the map's keys, else the header row. A missing first row
      is an `IndexError`; a dictionary has no `__dict__`, an
      `AttributeError`. */
  function Columns(t: Table): (r: Result<seq<Cell>>)
    ensures |t.columns| > 0 ==> r == Ok(Keys(t.columns))
    ensures |t.columns| == 0 ==> (r.Ok? <==> |t.rows| > 0 && t.rows[0].ListRow?)
    ensures |t.columns| == 0 && |t.rows| == 0 ==> r == Err(IndexError)
    ensures |t.columns| == 0 && |t.rows| > 0 && t.rows[0].DictRow? ==> r == Err(AttributeError)
  {
    if |t.columns| > 0 then Ok(Keys(t.columns))
    else if |t.rows| == 0 then Err(IndexError)
    else match t.rows[0]
      case ListRow(cells) => Ok(cells)
      case DictRow(_) => Err(AttributeError)
  }

  /** Without columns, the header and the remaining rows make up the data. */
  lemma HeaderSplit(t: Table)
    requires |t.columns| == 0 && Columns(t).Ok?
    ensures [ListRow(Columns(t).value)] + Rows(t) == t.rows
  {
  }

  /** One row as a list: a dictionary is read column by column, `None`
      where it lacks the column; a list passes through. */
  function Project(row: Row, columns: seq<Cell>): (r: seq<Cell>)
    ensures row.ListRow? ==> r == row.cells
    ensures row.DictRow? ==> |r| == |columns|
    ensures row.DictRow? ==> forall j :: 0 <= j < |columns| ==>
              r[j] == (if columns[j] in row.fields then row.fields[columns[j]] else None)
  {
    match row
    case ListRow(cells) => cells
    case DictRow(fields) =>
      seq(|columns|, j requires 0 <= j < |columns| => if columns[j] in fields then fields[columns[j]] else None)
  }

  /** `rows_list`: every row projected onto the columns. */
  function RowsList(t: Table): (r: Result<seq<seq<Cell>>>)
    ensures r.Ok? <==> Columns(t).Ok?
    ensures r.Err? ==> r == Err(Columns(t).error)
    ensures r.Ok? ==> |r.value| == |Rows(t)|
    ensures r.Ok? ==> forall i :: 0 <= i < |Rows(t)| ==> r.value[i] == Project(Rows(t)[i], Columns(t).value)
  {
    var rows := Rows(t);
    var columns :- Columns(t);
    Ok(seq(|rows|, i requires 0 <= i < |rows| => Project(rows[i], columns)))
  }

  /** The dictionary of a list of values under distinct column names. */
  function Zip(columns: seq<Cell>, values: seq<Cell>): (m: map<Cell, Cell>)
    requires |columns| == |values|
    ensures forall c :: c in m <==> c in columns
  {
    if |columns| == 0 then map[]
    else
      var n := |columns| - 1;
      Zip(columns[..n], values[..n])[columns[n] := values[n]]
  }

  lemma {:induction false} ZipAt(columns: seq<Cell>, values: seq<Cell>, j: nat)
    requires |columns| == |values| && Distinct(columns) && j < |columns|
    ensures Zip(columns, values)[columns[j]] == values[j]
  {
    var n := |columns| - 1;
    if j < n {
      assert Distinct(columns[..n]) by {
        forall a, b | 0 <= a < b < n ensures columns[..n][a] != columns[..n][b] {
          assert columns[a] != columns[b];
        }
      }
      assert columns[j] != columns[n];
      ZipAt(columns[..n], values[..n], j);
    }
  }

  /** A row given as a dictionary over the columns reads back as the list
      of its values. */
  lemma DictRowRoundTrip(columns: seq<Cell>, values: seq<Cell>)
    requires |columns| == |values| && Distinct(columns)
    ensures Project(DictRow(Zip(columns, values)), columns) == values
  {
    var r := Project(DictRow(Zip(columns, values)), columns);
    forall j | 0 <= j < |columns| ensures r[j] == values[j] {
      ZipAt(columns, values, j);
    }
  }

  /** `set_column_size_limit`: an error without columns or for a column
      whose limit is missing or `None`; otherwise that limit is replaced. */
  function SetColumnSizeLimit(t: Table, column: Cell, sizeLimit: Option<int>): (r: Result<Table>)
    ensures r.Ok? <==> |t.columns| > 0 && Get(t.columns, column).Some?
    ensures r.Err? ==> r.error == ValueError
    ensures r.Ok? ==> r.value == t.(columns := r.value.columns)
    ensures r.Ok? ==> Keys(r.value.columns) == Keys(t.columns)
    ensures r.Ok? && Distinct(Keys(t.columns)) ==> forall i :: 0 <= i < |t.columns| ==>
              r.value.columns[i].limit == (if t.columns[i].key == column then sizeLimit else t.columns[i].limit)
  {
    if |t.columns| == 0 then Err(ValueError)
    else if Get(t.columns, column).Some? then Ok(t.(columns := Put(t.columns, column, sizeLimit)))
    else Err(ValueError)
  }

  /** Putting back the old limit restores the table. */
  lemma SetLimitRoundTrip(t: Table, column: Cell, sizeLimit: int)
    requires SetColumnSizeLimit(t, column, Some(sizeLimit)).Ok?
    ensures var prior := Get(t.columns, column);
            var changed := SetColumnSizeLimit(t, column, Some(sizeLimit)).value;
            && Get(changed.columns, column) == Some(sizeLimit)
            && SetColumnSizeLimit(changed, column, prior) == Ok(t)
  {
    var prior := Get(t.columns, column);
    var changed := SetColumnSizeLimit(t, column, Some(sizeLimit)).value;
    var k := IndexOf(t.columns, column).value;
    assert IndexOf(changed.columns, column) == IndexOf(t.columns, column) by {
      IndexOfKeys(changed.columns, t.columns, column);
    }
    var back := SetColumnSizeLimit(changed, column, prior).value;
    assert back.columns[k] == t.columns[k];
    forall i | 0 <= i < |t.columns| ensures back.columns[i] == t.columns[i] {
      assert back.columns[i].key == t.columns[i].key;
      if t.columns[i].key == column {
        assert IndexOf(t.columns, column).Some?;
        KeyUnique(t.columns, i, column);
      }
    }
    assert back.columns == t.columns;
  }

  /** Maps with the same keys place a key at the same index. */
  lemma {:induction false} IndexOfKeys(a: seq<Entry>, b: seq<Entry>, key: Cell)
    requires Keys(a) == Keys(b)
    ensures IndexOf(a, key) == IndexOf(b, key)
  {
    if |a| > 0 {
      var n := |a| - 1;
      assert a[n].key == b[n].key by {
        assert Keys(a)[n] == Keys(b)[n];
      }
      assert Keys(a[..n]) == Keys(b[..n]) by {
        KeysPrefix(a, n);
        KeysPrefix(b, n);
      }
      IndexOfKeys(a[..n], b[..n], key);
    }
  }

  lemma KeysPrefix(a: seq<Entry>, n: nat)
    requires n <= |a|
    ensures Keys(a[..n]) == Keys(a)[..n]
  {
  }

  /** The index `IndexOf` reports is the last entry carrying the key. */
  lemma {:induction false} KeyUnique(cols: seq<Entry>, i: nat, key: Cell)
    requires i < |cols| && cols[i].key == key
    ensures IndexOf(cols, key).Some? && i <= IndexOf(cols, key).value
  {
    var n := |cols| - 1;
    if cols[n].key != key {
      assert i < n;
      KeyUnique(cols[..n], i, key);
    }
  }

  // ---------------------------------------------------------------------
  // The title line of `pretty_print` (lines 57-72)

  /** The first line of the drawn table, without its terminator. */
  function FirstLine(s: string): (r: string)
    ensures StartsWith(s, r) && '\n' !in r
    ensures |r| < |s| ==> s[|r|] == '\n'
  {
    if |s| == 0 || s[0] == '\n' then []
    else [s[0]] + FirstLine(s[1..])
  }

  /** The first line's width on screen: seven columns fewer per code
      `findall` finds. */
  function VisibleLength(line: string): int {
    |line| - |FindAll(line)| * ColorLength
  }

  /** The title: centred by halving both widths, flush left, or (for any
      other alignment value) flush right. */
  function Title(name: string, width: int, align: int): (r: string)
    ensures EndsWith(r, name)
    ensures forall i :: 0 <= i < |r| - |name| ==> r[i] == ' '
    ensures align == AlignLeft ==> r == name
  {
    if align == AlignCenter then Spaces(width / 2 - |name| / 2) + name
    else if align == AlignLeft then name
    else Spaces(width - |name|) + name
  }

  /** The lines `pretty_print` hands to `write_line`: the yellow title and
      the table; nothing for an empty table. Drawing the table reads
      `rows_list` first (line 141), so a table whose columns cannot be
      found raises before anything is written. */
  function PrettyPrint(t: Table, tableText: string): (r: Result<seq<string>>)
    ensures r.Err? <==> RowsList(t).Err?
    ensures r.Err? ==> r.error == Columns(t).error
    ensures r.Ok? ==> (|tableText| == 0 <==> r.value == [])
    ensures r.Ok? && |tableText| > 0 ==>
      var title := r.value[0];
      var width := VisibleLength(FirstLine(tableText));
      && |r.value| == 2 && r.value[1] == tableText
      && StartsWith(title, ColorCode(Yellow)) && EndsWith(title, t.name)
      && (forall i :: ColorLength <= i < |title| - |t.name| ==> title[i] == ' ')
      && (t.titleAlign == AlignLeft ==> title == ColorCode(Yellow) + t.name)
      && (t.titleAlign != AlignCenter && t.titleAlign != AlignLeft && width >= |t.name| ==>
            |title| == ColorLength + width)
  {
    var _ :- RowsList(t);
    if tableText == [] then Ok([])
    else
      var width := VisibleLength(FirstLine(tableText));
      var title := Title(t.name, width, t.titleAlign);
      Ok([ColorCode(Yellow) + title, tableText])
  }

  /** A table with neither columns nor rows cannot be drawn: `columns`
      reads `rows[0]` of an empty list. */
  lemma PrettyPrintEmptyRaises(name: string, tableText: string)
    ensures PrettyPrint(NewTable(name, [], NoColumns, ColumnSizeLimit, AlignCenter), tableText) == Err(IndexError)
  {
  }

  /** A right-aligned title ends at the table's right edge, when it fits. */
  lemma TitleRight(name: string, width: int, align: int)
    requires align != AlignCenter && align != AlignLeft && width >= |name|
    ensures |Title(name, width, align)| == width
  {
  }

  /** A centred title leaves as much room on its left as on its right, up
      to one column, when it fits. */
  lemma TitleCentered(name: string, width: int)
    requires width >= |name|
    ensures var left := |Title(name, width, AlignCenter)| - |name|;
            var right := width - left - |name|;
            -1 <= left - right <= 1
  {
    var left := width / 2 - |name| / 2;
    assert width / 2 >= |name| / 2;
  }

  /** A header line coloured once (a code between plain texts) is as wide
      on screen as its plain text. */
  lemma HeaderVisibleLength(c: Color, a: string, b: string)
    requires Plain(a) && Plain(b)
    ensures VisibleLength(a + ColorCode(c) + b) == |a| + |b|
  {
    var m := Match(if IsLight(c) then LightCode else DarkCode, NatToString(ColorNumber(c)));
    var rest := ColorCode(c) + b;
    assert a + ColorCode(c) + b == a + rest;
    FindAllAfterPlain(a, rest);
    ColorCodeMatch(c, b);
    assert MatchLength(m) == |MatchText(m)| == ColorLength;
    assert rest[ColorLength..] == b;
    FindAllPlain(b);
    assert FindAll(rest) == [m];
  }
}

=== FILE: text_util.dfy ===
/** String helpers shared by the model: Python's `str * n`, `endswith`,
    slicing with a possibly negative stop, and decimal numerals. */
module TextUtil {

  /** Python's `s * n`: `n` copies of `s`, and the empty string when `n <= 0`. */
  function Repeat(s: string, n: int): (r: string)
    ensures n <= 0 ==> r == []
    ensures n > 0 ==> |r| == n * |s|
    ensures |s| == 1 ==> forall i :: 0 <= i < |r| ==> r[i] == s[0]
    decreases n
  {
    if n <= 0 then [] else s + Repeat(s, n - 1)
  }

  /** `' ' * n`. */
  function Spaces(n: int): (r: string)
    ensures |r| == (if n <= 0 then 0 else n)
    ensures forall i :: 0 <= i < |r| ==> r[i] == ' '
  {
    Repeat(" ", n)
  }

  predicate StartsWith(s: string, prefix: string) {
    |prefix| <= |s| && s[..|prefix|] == prefix
  }

  predicate EndsWith(s: string, suffix: string) {
    |suffix| <= |s| && s[|s| - |suffix|..] == suffix
  }

  /** Python's `s[:k]`: a negative `k` counts from the end. */
  function SliceTo(s: string, k: int): (r: string)
    ensures StartsWith(s, r)
    ensures k >= 0 ==> |r| == (if k < |s| then k else |s|)
    ensures k < 0 ==> |r| == (if |s| + k > 0 then |s| + k else 0)
  {
    if k >= 0 then (if k < |s| then s[..k] else s)
    else if |s| + k > 0 then s[..|s| + k] else []
  }

  function Sum(xs: seq<int>): int {
    if |xs| == 0 then 0 else Sum(xs[..|xs| - 1]) + xs[|xs| - 1]
  }

  function Flatten(xs: seq<string>): string {
    if |xs| == 0 then [] else xs[0] + Flatten(xs[1..])
  }

  lemma FlattenAppend(xs: seq<string>, ys: seq<string>)
    ensures Flatten(xs + ys) == Flatten(xs) + Flatten(ys)
  {
    if |xs| == 0 {
      assert xs + ys == ys;
    } else {
      assert (xs + ys)[1..] == xs[1..] + ys;
      FlattenAppend(xs[1..], ys);
    }
  }

  /** `sep.join(xs)`. */
  function Join(xs: seq<string>, sep: string): string {
    if |xs| == 0 then []
    else if |xs| == 1 then xs[0]
    else xs[0] + sep + Join(xs[1..], sep)
  }

  /** Joining one more piece adds the separator and the piece. */
  lemma {:induction false} JoinSnoc(xs: seq<string>, x: string, sep: string)
    requires |xs| >= 1
    ensures Join(xs + [x], sep) == Join(xs, sep) + sep + x
  {
    var ys := xs + [x];
    assert ys[0] == xs[0];
    if |xs| == 1 {
      assert ys[1..] == [x];
    } else {
      assert ys[1..] == xs[1..] + [x];
      JoinSnoc(xs[1..], x, sep);
    }
  }

  /** `'{:>w}'.format(s)`: left-padded with spaces to at least `w`, never cut. */
  function RightAlign(s: string, w: int): (r: string)
    ensures EndsWith(r, s)
    ensures |r| == (if |s| < w then w else |s|)
    ensures forall i :: 0 <= i < |r| - |s| ==> r[i] == ' '
  {
    Spaces(w - |s|) + s
  }

  predicate IsDigit(c: char) {
    '0' <= c <= '9'
  }

  predicate AllDigits(s: string) {
    forall i :: 0 <= i < |s| ==> IsDigit(s[i])
  }

  function DigitChar(d: nat): (c: char)
    requires d < 10
    ensures IsDigit(c)
  {
    ['0', '1', '2', '3', '4', '5', '6', '7', '8', '9'][d]
  }

  function DigitValue(c: char): (d: nat)
    requires IsDigit(c)
    ensures d < 10 && DigitChar(d) == c
  {
    (c as int - '0' as int) as nat
  }

  /** Python's `str(n)` for a natural number. */
  function NatToString(n: nat): (r: string)
    ensures |r| > 0 && AllDigits(r)
    ensures |r| > 1 ==> r[0] != '0'
  {
    if n < 10 then [DigitChar(n)] else NatToString(n / 10) + [DigitChar(n % 10)]
  }

  /** Python's `int(s)` on a run of ASCII digits. */
  function DigitsValue(s: string): nat
    requires AllDigits(s)
  {
    if |s| == 0 then 0 else 10 * DigitsValue(s[..|s| - 1]) + DigitValue(s[|s| - 1])
  }

  /** Python's `str(i)`. */
  function IntToString(i: int): (r: string)
    ensures |r| > 0
    ensures i >= 0 <==> AllDigits(r)
  {
    if i < 0 then
      var r := "-" + NatToString(-i);
      assert !IsDigit(r[0]);
      r
    else NatToString(i)
  }

  /** Reading back a printed natural number gives the number. */
  lemma {:induction false} NatToStringRoundTrip(n: nat)
    ensures DigitsValue(NatToString(n)) == n
  {
    var s := NatToString(n);
    if n < 10 {
      DigitRoundTrip(n);
      assert s[..|s| - 1] == [];
    } else {
      var q, d := n / 10, n % 10;
      assert s[..|s| - 1] == NatToString(q) && s[|s| - 1] == DigitChar(d);
      NatToStringRoundTrip(q);
      DigitRoundTrip(d);
      assert DigitsValue(s) == 10 * q + d;
    }
  }

  lemma DigitRoundTrip(d: nat)
    requires d < 10
    ensures DigitValue(DigitChar(d)) == d
  {
  }

  /** The end of the line starting at `s[i]`: just past its '\n', or the end of `s`. */
  function LineEnd(s: string, i: nat): (j: nat)
    requires i < |s|
    ensures i < j <= |s|
    ensures forall t :: i <= t < j - 1 ==> s[t] != '\n'
    ensures j < |s| ==> s[j - 1] == '\n'
    decreases |s| - i
  {
    if s[i] == '\n' || i + 1 == |s| then i + 1 else LineEnd(s, i + 1)
  }

  /** `text.splitlines(True)` with '\n' as the only terminator. */
  function SplitKeepEnds(text: string): (r: seq<string>)
    ensures |text| == 0 <==> |r| == 0
    decreases |text|
  {
    if |text| == 0 then []
    else
      var j := LineEnd(text, 0);
      [text[..j]] + SplitKeepEnds(text[j..])
  }

  /** The pieces are non-empty and keep their terminator: every piece but
      the last ends with one, and no piece holds one inside. */
  predicate Pieces(r: seq<string>) {
    && (forall k :: 0 <= k < |r| ==> |r[k]| > 0)
    && (forall k :: 0 <= k < |r| - 1 ==> EndsWith(r[k], "\n"))
    && (forall k, t :: 0 <= k < |r| && 0 <= t < |r[k]| - 1 ==> r[k][t] != '\n')
  }

  lemma {:induction false} SplitKeepEndsPieces(text: string)
    ensures Pieces(SplitKeepEnds(text))
    decreases |text|
  {
    if |text| > 0 {
      var j := LineEnd(text, 0);
      SplitKeepEndsPieces(text[j..]);
      assert j < |text| ==> EndsWith(text[..j], "\n");
      PiecesCons(text[..j], SplitKeepEnds(text[j..]));
    }
  }

  /** The piece properties carry over to one more piece in front. */
  lemma PiecesCons(p: string, rest: seq<string>)
    requires |p| > 0 && forall t :: 0 <= t < |p| - 1 ==> p[t] != '\n'
    requires |rest| > 0 ==> EndsWith(p, "\n")
    requires Pieces(rest)
    ensures Pieces([p] + rest)
  {
    var r := [p] + rest;
    forall k | 0 <= k < |r| ensures r[k] == if k == 0 then p else rest[k - 1] {
    }
  }

  /** Joining the pieces gives the text back. */
  lemma {:induction false} SplitKeepEndsJoin(text: string)
    ensures Flatten(SplitKeepEnds(text)) == text
    decreases |text|
  {
    if |text| > 0 {
      var j := LineEnd(text, 0);
      SplitKeepEndsJoin(text[j..]);
      assert text == text[..j] + text[j..];
    }
  }
}

=== FILE: wrap.dfy ===
/** The width- and colour-aware line splitter `Printer._split_lines`
    (pyprinter/printer.py, lines 122-179).

    The splitter copies the input character by character into a pending line.
    Its output is modelled as lines of tokens, so that what the splitter
    wrote and what it read can both be recovered from one value:
      - `Ch(c)`   an input character copied on its own; it counts towards the limit;
      - `Code(w)` a 7-character window the recogniser accepted, copied whole, zero width;
      - `Brk`     the '\n' a forced break appends to a line that lacks one;
      - `Gone(c)` an input character that the lone-window merge deleted again
                  (`lines[-1][:-1]`); nothing is written for it.
    `Render` gives the string the source returns for a line, `Source` the
    input characters it was made of. */
module Wrap {
  import opened TextUtil
  import opened Ansi

  datatype Token = Ch(c: char) | Code(text: string) | Brk | Gone(c: char)

  /** What a token contributes to the returned line. */
  function Out(t: Token): string {
    match t
    case Ch(c) => [c]
    case Code(w) => w
    case Brk => "\n"
    case Gone(_) => []
  }

  /** What a token consumed from the input. */
  function In(t: Token): string {
    match t
    case Ch(c) => [c]
    case Code(w) => w
    case Brk => []
    case Gone(c) => [c]
  }

  function Render(ts: seq<Token>): string
    decreases |ts|
  {
    if |ts| == 0 then [] else Render(ts[..|ts| - 1]) + Out(ts[|ts| - 1])
  }

  function Source(ts: seq<Token>): string
    decreases |ts|
  {
    if |ts| == 0 then [] else Source(ts[..|ts| - 1]) + In(ts[|ts| - 1])
  }

  /** The number of counted characters of a line. */
  function CountCh(ts: seq<Token>): nat
    decreases |ts|
  {
    if |ts| == 0 then 0 else CountCh(ts[..|ts| - 1]) + (if ts[|ts| - 1].Ch? then 1 else 0)
  }

  function RenderAll(lines: seq<seq<Token>>): (r: seq<string>)
    ensures |r| == |lines|
    ensures forall k :: 0 <= k < |lines| ==> r[k] == Render(lines[k])
  {
    seq(|lines|, k requires 0 <= k < |lines| => Render(lines[k]))
  }

  /** The input characters behind a list of lines, in order. */
  function SourceAll(lines: seq<seq<Token>>): string
    decreases |lines|
  {
    if |lines| == 0 then [] else SourceAll(lines[..|lines| - 1]) + Source(lines[|lines| - 1])
  }

  /** `lines[-1][:-1]` on tokens: the last character written is deleted.
      A dropped input character stays behind as `Gone`; a dropped synthetic
      break disappears; a window loses its last character. */
  function DropLastChar(ts: seq<Token>): seq<Token>
    decreases |ts|
  {
    if |ts| == 0 then [] else
      var n := |ts| - 1;
      match ts[n]
      case Ch(c) => ts[..n] + [Gone(c)]
      case Brk => ts[..n]
      case Code(w) =>
        if |w| == 0 then DropLastChar(ts[..n]) + [ts[n]]
        else ts[..n] + [Code(w[..|w| - 1]), Gone(w[|w| - 1])]
      case Gone(_) => DropLastChar(ts[..n]) + [ts[n]]
  }

  /** The splitter's state between characters: the finished lines, the
      pending line `fixed_line`, `colors_counter`, `max_line_length`, and
      whether a forced break has happened (which resets the printer's
      position and first-line flag). */
  datatype Scan = Scan(done: seq<seq<Token>>, fixed: seq<Token>, colors: nat, limit: int, broke: bool)

  /** Does a recognised colour window start at `line[i]`? (lines 143-147) */
  predicate WindowAt(line: string, i: nat, useColors: bool)
    requires i <= |line|
  {
    && useColors
    && i < |line| && line[i] == Esc
    && |line| >= i + ColorLength
    && MatchPrefix(line[i..i + ColorLength]).Some?
  }

  /** Where the scan resumes, and its state there. */
  datatype Next = Next(at: nat, scan: Scan)

  /** One pass of the inner `while` loop (lines 140-169): a recognised window
      is copied whole and not counted; any other character is copied and
      counted, and once the count reaches the limit the pending line is
      closed, unless the next input character is a line break. */
  function Step(line: string, i: nat, useColors: bool, breakLimit: int, s: Scan): (n: Next)
    requires i < |line|
    ensures i < n.at <= |line|
  {
    if WindowAt(line, i, useColors) then
      Next(i + ColorLength, s.(fixed := s.fixed + [Code(line[i..i + ColorLength])], colors := s.colors + 1))
    else
      var fixed := s.fixed + [Ch(line[i])];
      if |Render(fixed)| >= s.limit + s.colors * ColorLength then
        if |line| > i + 1 && line[i + 1] == '\n' then
          // no break right before a line break
          Next(i + 1, s.(fixed := fixed))
        else
          var closed := if EndsWith(Render(fixed), "\n") then fixed else fixed + [Brk];
          Next(i + 1, Scan(s.done + [closed], [], 0, breakLimit, true))
      else
        Next(i + 1, s.(fixed := fixed))
  }

  /** The inner `while` loop over one input line (lines 139-169). */
  function ScanLine(line: string, i: nat, useColors: bool, breakLimit: int, s: Scan): Scan
    requires i <= |line|
    decreases |line| - i
  {
    if i == |line| then s
    else
      var n := Step(line, i, useColors, breakLimit, s);
      ScanLine(line, n.at, useColors, breakLimit, n.scan)
  }

  /** The end of one input line (lines 171-178): a non-empty pending line is
      emitted, unless it is exactly one colour window and a line exists
      already, in which case it replaces the last character of that line.
      The colours flag is not consulted here. */
  function Flush(done: seq<seq<Token>>, fixed: seq<Token>): seq<seq<Token>> {
    var text := Render(fixed);
    if |text| == 0 then done
    else if |text| == ColorLength && MatchPrefix(text).Some? && |done| > 0 then
      done[..|done| - 1] + [DropLastChar(done[|done| - 1]) + fixed]
    else done + [fixed]
  }

  /** The outer `for` loop over the input lines; `max_line_length` and the
      emitted lines carry over from one input line to the next. */
  function ScanAll(pieces: seq<string>, useColors: bool, breakLimit: int, s: Scan): Scan
    decreases |pieces|
  {
    if |pieces| == 0 then s
    else ScanAll(pieces[1..], useColors, breakLimit, NextLine(pieces[0], useColors, breakLimit, s))
  }

  /** One pass of the outer loop: the input line scanned from an empty
      pending line, then flushed into the emitted lines. */
  function NextLine(line: string, useColors: bool, breakLimit: int, s: Scan): Scan {
    var t := ScanLine(line, 0, useColors, breakLimit, s.(fixed := [], colors := 0));
    t.(done := Flush(t.done, t.fixed), fixed := [], colors := 0)
  }

  /** `max_line_length` before the first break (lines 131-132): the console
      width less the reserved column, the cursor position and the margin
      the first line still needs. */
  function FirstLimit(width: int, position: int, margin: int): int {
    width - 1 - position - margin
  }

  /** `max_line_length` after a forced break (line 168): the cursor is at
      column 0 and the whole indentation applies. */
  function BreakLimit(width: int, indentsSum: int): int {
    width - 1 - indentsSum
  }

  datatype Split = Split(lines: seq<seq<Token>>, broke: bool)

  /** `_split_lines(original_lines)`. `margin` is `indents_sum`, or
      `indents_sum - _indents[-1]` while the first-line flag is set. */
  function SplitLines(width: int, position: int, margin: int, indentsSum: int,
                      useColors: bool, pieces: seq<string>): Split
  {
    var r := ScanAll(pieces, useColors, BreakLimit(width, indentsSum),
                     Scan([], [], 0, FirstLimit(width, position, margin), false));
    Split(r.done, r.broke)
  }
}

=== FILE: wrap_bound.dfy ===
/** The width bound of `Printer._split_lines` (pyprinter/printer.py,
    lines 131-178), with colours on. A line's counted characters are those
    outside recognised colour windows, not counting its own line break.
    The lines fall into two bands. The leading band is never empty once a
    forced break happened, and is every line when none did; its lines hold
    at most `max(first, 1)` of them, where `first` is the `max_line_length`
    the call starts with. Every later line holds at most `max(after, 1)`,
    where `after` is the `max_line_length` a forced break installs. */
module WrapBound {
  import opened TextUtil
  import opened Ansi
  import opened Wrap
  import opened WrapProofs
  import opened WrapScan

  /** The most counted characters a line may take under `limit`: a line
      always takes at least one character, even when the limit is not
      positive. */
  function Bound(limit: int): nat {
    if limit < 1 then 1 else limit
  }

  function Max(a: int, b: int): int {
    if a < b then b else a
  }

  /** The counted characters of a line, without its own final line break. */
  function Visible(ts: seq<Token>): nat {
    if |ts| > 0 && ts[|ts| - 1] == Ch('\n') then CountCh(ts) - 1 else CountCh(ts)
  }

  /** An input line of `splitlines(True)`: a line break only at its end. */
  predicate NoInnerBreak(line: string) {
    forall t :: 0 <= t < |line| - 1 ==> line[t] != '\n'
  }

  // ---------------------------------------------------------------------
  // The invariant of the scan

  /** The pending line is the input read since it was started, and it
      starts with a counted character only where no window starts. */
  predicate Pending(line: string, i: nat, fixed: seq<Token>, useColors: bool)
    requires i <= |line|
  {
    var k := |Render(fixed)|;
    && k <= i
    && Render(fixed) == line[i - k..i]
    && (|fixed| > 0 && fixed[0].Ch? ==> !WindowAt(line, i - k, useColors))
  }

  /** The pending line is below its bound, or exactly at it with the line
      break it waits for coming next. */
  predicate Room(line: string, i: nat, s: Scan)
    requires i <= |line|
  {
    || CountCh(s.fixed) < Bound(s.limit)
    || (CountCh(s.fixed) == Bound(s.limit) && i < |line| && line[i] == '\n')
  }

  /** The finished lines fall into two bands at `b`: the lines up to and
      including the one the first forced break closed are bounded by the
      first limit, the lines after it by the break limit. Without a forced
      break every line is in the first band. */
  predicate Banded(done: seq<seq<Token>>, first: int, after: int, broke: bool, b: nat) {
    && b <= |done|
    && (!broke ==> b == |done|)
    && (broke ==> b > 0)
    && (forall k :: 0 <= k < b ==> Visible(done[k]) <= Bound(first))
    && (forall k :: b <= k < |done| ==> Visible(done[k]) <= Bound(after))
  }

  predicate DoneOk(done: seq<seq<Token>>, first: int, after: int, broke: bool) {
    exists b: nat :: b <= |done| && Banded(done, first, after, broke, b)
  }

  /** The limit rule: the first limit until a forced break, the break limit after. */
  predicate LimitOk(s: Scan, first: int, after: int) {
    s.limit == (if s.broke then after else first)
  }

  predicate Inv(line: string, i: nat, useColors: bool, first: int, after: int, s: Scan)
    requires i <= |line|
  {
    && ScanOk(s)
    && Pending(line, i, s.fixed, useColors)
    && Room(line, i, s)
    && LimitOk(s, first, after)
    && DoneOk(s.done, first, after, s.broke)
  }

  /** Adding a line no longer than the current bound keeps the lines bounded,
      whether or not the line was closed by a forced break. */
  lemma DoneSnoc(done: seq<seq<Token>>, line: seq<Token>, first: int, after: int, broke: bool, limit: int)
    requires DoneOk(done, first, after, broke)
    requires limit == (if broke then after else first)
    requires Visible(line) <= Bound(limit)
    ensures DoneOk(done + [line], first, after, broke)
    ensures DoneOk(done + [line], first, after, true)
  {
    var b: nat :| b <= |done| && Banded(done, first, after, broke, b);
    var all := done + [line];
    var b' := if broke then b else |all|;
    forall k | 0 <= k < |all|
      ensures k < b' ==> Visible(all[k]) <= Bound(first)
      ensures b' <= k ==> Visible(all[k]) <= Bound(after)
    {
      if k < |done| {
        assert all[k] == done[k];
      } else {
        assert all[k] == line;
      }
    }
    assert Banded(all, first, after, broke, b');
    assert Banded(all, first, after, true, b');
  }

  /** Reading on from the pending text keeps it a slice of the input. */
  lemma SliceOn(line: string, a: nat, i: nat, j: nat)
    requires a <= i <= j <= |line|
    ensures line[a..i] + line[i..j] == line[a..j]
  {
  }

  // ---------------------------------------------------------------------
  // One step

  lemma StepWindowKeeps(line: string, i: nat, useColors: bool, first: int, after: int, s: Scan)
    requires i < |line|
    requires WindowAt(line, i, useColors)
    requires Inv(line, i, useColors, first, after, s)
    ensures var n := Step(line, i, useColors, after, s); Inv(line, n.at, useColors, first, after, n.scan)
  {
    var w := line[i..i + ColorLength];
    var fixed := s.fixed + [Code(w)];
    StepWindowShape(line, i, useColors, after, s);
    Snoc(s.fixed, Code(w));
    var k := |Render(s.fixed)|;
    SliceOn(line, i - k, i, i + ColorLength);
    assert |fixed| > 0 && fixed[0].Ch? ==> fixed[0] == s.fixed[0];
    assert PendingTokens(fixed) by {
      forall j | 0 <= j < |fixed|
        ensures fixed[j].Ch? || (fixed[j].Code? && |fixed[j].text| == ColorLength)
      {
        if j < |s.fixed| {
          assert fixed[j] == s.fixed[j];
        }
      }
    }
  }

  lemma StepBreakKeeps(line: string, i: nat, useColors: bool, first: int, after: int, s: Scan)
    requires i < |line|
    requires NoInnerBreak(line)
    requires !WindowAt(line, i, useColors)
    requires |Render(s.fixed + [Ch(line[i])])| >= s.limit + s.colors * ColorLength
    requires !(|line| > i + 1 && line[i + 1] == '\n')
    requires Inv(line, i, useColors, first, after, s)
    ensures var n := Step(line, i, useColors, after, s); Inv(line, n.at, useColors, first, after, n.scan)
  {
    var fixed := s.fixed + [Ch(line[i])];
    var closed := if EndsWith(Render(fixed), "\n") then fixed else fixed + [Brk];
    StepBreakShape(line, i, useColors, after, s);
    assert Visible(closed) <= Bound(s.limit) by {
      ClosedVisible(line, i, s, fixed, closed);
    }
    DoneSnoc(s.done, closed, first, after, s.broke, s.limit);
    assert Render([]) == [] && line[i + 1..i + 1] == [];
  }

  lemma ClosedVisible(line: string, i: nat, s: Scan, fixed: seq<Token>, closed: seq<Token>)
    requires i < |line|
    requires ScanOk(s) && Room(line, i, s)
    requires fixed == s.fixed + [Ch(line[i])]
    requires |Render(fixed)| >= s.limit + s.colors * ColorLength
    requires closed == (if EndsWith(Render(fixed), "\n") then fixed else fixed + [Brk])
    ensures Visible(closed) <= Bound(s.limit)
  {
    Snoc(s.fixed, Ch(line[i]));
    PendingRenderLength(s.fixed);
    Snoc(fixed, Brk);
    var r := Render(fixed);
    assert r[|r| - 1] == line[i];
    assert EndsWith(r, "\n") <==> line[i] == '\n' by {
      assert EndsWith(r, "\n") <==> r[|r| - 1..] == "\n";
      assert r[|r| - 1..] == [line[i]];
    }
    assert closed == fixed ==> closed[|closed| - 1] == Ch('\n');
  }

  /** The room left on the pending line after a counted character. */
  lemma StepCharRoom(line: string, i: nat, s: Scan)
    requires i < |line|
    requires NoInnerBreak(line)
    requires ScanOk(s) && Room(line, i, s)
    requires !(|Render(s.fixed + [Ch(line[i])])| >= s.limit + s.colors * ColorLength
               && !(|line| > i + 1 && line[i + 1] == '\n'))
    ensures Room(line, i + 1, s.(fixed := s.fixed + [Ch(line[i])]))
  {
    Snoc(s.fixed, Ch(line[i]));
    PendingRenderLength(s.fixed);
    assert line[i] == '\n' ==> i + 1 == |line|;
  }

  /** The pending line after a counted character is still the input read. */
  lemma StepCharPending(line: string, i: nat, useColors: bool, s: Scan)
    requires i < |line|
    requires !WindowAt(line, i, useColors)
    requires ScanOk(s) && Pending(line, i, s.fixed, useColors)
    ensures var fixed := s.fixed + [Ch(line[i])];
            ScanOk(s.(fixed := fixed)) && Pending(line, i + 1, fixed, useColors)
  {
    var fixed := s.fixed + [Ch(line[i])];
    Snoc(s.fixed, Ch(line[i]));
    var k := |Render(s.fixed)|;
    SliceOn(line, i - k, i, i + 1);
    assert line[i..i + 1] == [line[i]];
    assert |fixed| > 0 && fixed[0].Ch? ==> (if |s.fixed| == 0 then i - k == i else fixed[0] == s.fixed[0]);
    assert PendingTokens(fixed) by {
      forall j | 0 <= j < |fixed|
        ensures fixed[j].Ch? || (fixed[j].Code? && |fixed[j].text| == ColorLength)
      {
        if j < |s.fixed| {
          assert fixed[j] == s.fixed[j];
        }
      }
    }
  }

  lemma StepCharKeeps(line: string, i: nat, useColors: bool, first: int, after: int, s: Scan)
    requires i < |line|
    requires NoInnerBreak(line)
    requires !WindowAt(line, i, useColors)
    requires !(|Render(s.fixed + [Ch(line[i])])| >= s.limit + s.colors * ColorLength
               && !(|line| > i + 1 && line[i + 1] == '\n'))
    requires Inv(line, i, useColors, first, after, s)
    ensures var n := Step(line, i, useColors, after, s); Inv(line, n.at, useColors, first, after, n.scan)
  {
    StepCharShape(line, i, useColors, after, s);
    StepCharRoom(line, i, s);
    StepCharPending(line, i, useColors, s);
  }

  lemma StepKeeps(line: string, i: nat, useColors: bool, first: int, after: int, s: Scan)
    requires i < |line|
    requires NoInnerBreak(line)
    requires Inv(line, i, useColors, first, after, s)
    ensures var n := Step(line, i, useColors, after, s); Inv(line, n.at, useColors, first, after, n.scan)
  {
    if WindowAt(line, i, useColors) {
      StepWindowKeeps(line, i, useColors, first, after, s);
    } else if |Render(s.fixed + [Ch(line[i])])| >= s.limit + s.colors * ColorLength
              && !(|line| > i + 1 && line[i + 1] == '\n') {
      StepBreakKeeps(line, i, useColors, first, after, s);
    } else {
      StepCharKeeps(line, i, useColors, first, after, s);
    }
  }

  lemma {:induction false} ScanLineKeeps(line: string, i: nat, useColors: bool, first: int, after: int, s: Scan)
    requires i <= |line|
    requires NoInnerBreak(line)
    requires Inv(line, i, useColors, first, after, s)
    ensures Inv(line, |line|, useColors, first, after, ScanLine(line, i, useColors, after, s))
    decreases |line| - i
  {
    if i < |line| {
      var n := Step(line, i, useColors, after, s);
      StepKeeps(line, i, useColors, first, after, s);
      ScanLineKeeps(line, n.at, useColors, first, after, n.scan);
    }
  }

  // ---------------------------------------------------------------------
  // The end of an input line

  /** Deleting the last written character never adds a counted one. */
  lemma {:induction false} DropCount(ts: seq<Token>)
    ensures CountCh(DropLastChar(ts)) <= CountCh(ts)
    decreases |ts|
  {
    if |ts| > 0 {
      var n := |ts| - 1;
      var pre := ts[..n];
      match ts[n]
      case Ch(c) =>
        Snoc(pre, Gone(c));
      case Brk =>
      case Code(w) =>
        if |w| == 0 {
          DropCount(pre);
          Snoc(DropLastChar(pre), ts[n]);
        } else {
          Snoc(pre, Code(w[..|w| - 1]));
          Snoc(pre + [Code(w[..|w| - 1])], Gone(w[|w| - 1]));
          assert pre + [Code(w[..|w| - 1])] + [Gone(w[|w| - 1])] == pre + [Code(w[..|w| - 1]), Gone(w[|w| - 1])];
        }
      case Gone(_) =>
        DropCount(pre);
        Snoc(DropLastChar(pre), ts[n]);
    }
  }

  /** With colours on, a pending line of exactly one window's length that
      the recogniser accepts is one whole window. */
  lemma LoneWindow(line: string, fixed: seq<Token>, colors: nat)
    requires ScanOk(Scan([], fixed, colors, 0, false))
    requires Pending(line, |line|, fixed, true)
    requires |Render(fixed)| == ColorLength && MatchPrefix(Render(fixed)).Some?
    ensures CountCh(fixed) == 0
  {
    var text := Render(fixed);
    var j := |line| - ColorLength;
    PendingRenderLength(fixed);
    assert text[0] == Esc by {
      assert StartsWith(text, MatchText(MatchPrefix(text).value));
      assert MatchText(MatchPrefix(text).value)[0] == Esc;
    }
    assert WindowAt(line, j, true) by {
      assert line[j..j + ColorLength] == text;
      assert line[j] == text[0];
    }
    assert fixed[0].Code?;
    assert CodeCount(fixed) >= 1 by {
      CodeCountFirst(fixed);
    }
  }

  lemma CodeCountFirst(ts: seq<Token>)
    requires |ts| > 0 && ts[0].Code?
    ensures CodeCount(ts) >= 1
  {
    CodeCountSplit([ts[0]], ts[1..]);
    assert [ts[0]] + ts[1..] == ts;
    assert [ts[0]][..0] == [];
  }

  lemma {:induction false} CodeCountSplit(a: seq<Token>, b: seq<Token>)
    ensures CodeCount(a + b) >= CodeCount(a)
    decreases |b|
  {
    if |b| > 0 {
      assert (a + b)[..|a + b| - 1] == a + b[..|b| - 1];
      CodeCountSplit(a, b[..|b| - 1]);
    } else {
      assert a + b == a;
    }
  }

  /** The end of an input line keeps the finished lines bounded. */
  lemma FlushKeeps(line: string, first: int, after: int, s: Scan)
    requires Inv(line, |line|, true, first, after, s)
    ensures DoneOk(Flush(s.done, s.fixed), first, after, s.broke)
  {
    var text := Render(s.fixed);
    if |text| == 0 {
    } else if |text| == ColorLength && MatchPrefix(text).Some? && |s.done| > 0 {
      FlushMergeKeeps(line, first, after, s);
    } else {
      FlushAppendKeeps(line, first, after, s);
    }
  }

  lemma FlushMergeKeeps(line: string, first: int, after: int, s: Scan)
    requires Inv(line, |line|, true, first, after, s)
    requires |Render(s.fixed)| == ColorLength && MatchPrefix(Render(s.fixed)).Some? && |s.done| > 0
    ensures DoneOk(Flush(s.done, s.fixed), first, after, s.broke)
  {
    LoneWindow(line, s.fixed, s.colors);
    MergeKeeps(s.done, s.fixed, first, after, s.broke);
  }

  lemma FlushAppendKeeps(line: string, first: int, after: int, s: Scan)
    requires Inv(line, |line|, true, first, after, s)
    requires |Render(s.fixed)| > 0
    requires !(|Render(s.fixed)| == ColorLength && MatchPrefix(Render(s.fixed)).Some? && |s.done| > 0)
    ensures DoneOk(Flush(s.done, s.fixed), first, after, s.broke)
  {
    assert Flush(s.done, s.fixed) == s.done + [s.fixed];
    assert Visible(s.fixed) <= CountCh(s.fixed) < Bound(s.limit);
    DoneSnoc(s.done, s.fixed, first, after, s.broke, s.limit);
  }

  lemma MergeKeeps(done: seq<seq<Token>>, fixed: seq<Token>, first: int, after: int, broke: bool)
    requires |done| > 0 && CountCh(fixed) == 0
    requires DoneOk(done, first, after, broke)
    ensures DoneOk(done[..|done| - 1] + [DropLastChar(done[|done| - 1]) + fixed], first, after, broke)
  {
    var b: nat :| b <= |done| && Banded(done, first, after, broke, b);
    var n := |done| - 1;
    var merged := DropLastChar(done[n]) + fixed;
    assert Visible(merged) <= Visible(done[n]) by {
      MergedVisible(done[n], fixed);
    }
    var all := done[..n] + [merged];
    forall k | 0 <= k < |all|
      ensures k < b ==> Visible(all[k]) <= Bound(first)
      ensures b <= k ==> Visible(all[k]) <= Bound(after)
    {
      if k < n {
        assert all[k] == done[k];
      }
    }
    assert Banded(all, first, after, broke, b);
  }

  lemma MergedVisible(prev: seq<Token>, fixed: seq<Token>)
    requires CountCh(fixed) == 0
    ensures Visible(DropLastChar(prev) + fixed) <= Visible(prev)
  {
    CountChConcat(DropLastChar(prev), fixed);
    if |prev| > 0 {
      var n := |prev| - 1;
      if prev[n].Ch? {
        assert DropLastChar(prev) == prev[..n] + [Gone(prev[n].c)];
        Snoc(prev[..n], Gone(prev[n].c));
      } else {
        DropCount(prev);
      }
    }
  }

  // ---------------------------------------------------------------------
  // All input lines

  /** One input line keeps the limit rule and the bound on emitted lines. */
  lemma NextLineKeeps(line: string, first: int, after: int, s: Scan)
    requires NoInnerBreak(line)
    requires LimitOk(s, first, after) && DoneOk(s.done, first, after, s.broke)
    ensures var u := NextLine(line, true, after, s);
            LimitOk(u, first, after) && DoneOk(u.done, first, after, u.broke)
  {
    var s0 := s.(fixed := [], colors := 0);
    assert Inv(line, 0, true, first, after, s0) by {
      assert Render([]) == [] && line[0..0] == [];
    }
    ScanLineKeeps(line, 0, true, first, after, s0);
    FlushKeeps(line, first, after, ScanLine(line, 0, true, after, s0));
  }

  lemma {:induction false} ScanAllKeeps(pieces: seq<string>, first: int, after: int, s: Scan)
    requires forall k :: 0 <= k < |pieces| ==> NoInnerBreak(pieces[k])
    requires LimitOk(s, first, after) && DoneOk(s.done, first, after, s.broke)
    ensures var r := ScanAll(pieces, true, after, s);
            LimitOk(r, first, after) && DoneOk(r.done, first, after, r.broke)
    decreases |pieces|
  {
    if |pieces| > 0 {
      NextLineKeeps(pieces[0], first, after, s);
      assert forall k :: 0 <= k < |pieces[1..]| ==> NoInnerBreak(pieces[1..][k]) by {
        forall k | 0 <= k < |pieces[1..]| ensures NoInnerBreak(pieces[1..][k]) {
          assert pieces[1..][k] == pieces[k + 1];
        }
      }
      ScanAllKeeps(pieces[1..], first, after, NextLine(pieces[0], true, after, s));
    }
  }

  /** The width bound of the splitter with colours on. The returned lines
      split at some `b`: every line before it holds at most `Bound(first)`
      counted characters and every later line at most `Bound(after)`; `b`
      is positive once a forced break happened, and without one all lines
      are in the first band. */
  lemma SplitLinesBound(width: int, position: int, margin: int, indentsSum: int, pieces: seq<string>)
    requires forall k :: 0 <= k < |pieces| ==> NoInnerBreak(pieces[k])
    ensures var r := SplitLines(width, position, margin, indentsSum, true, pieces);
            var first := FirstLimit(width, position, margin);
            var after := BreakLimit(width, indentsSum);
            exists b :: Banded(r.lines, first, after, r.broke, b)
    ensures var r := SplitLines(width, position, margin, indentsSum, true, pieces);
            var first := FirstLimit(width, position, margin);
            var after := BreakLimit(width, indentsSum);
            && (forall k :: 0 <= k < |r.lines| ==> Visible(r.lines[k]) <= Max(Bound(first), Bound(after)))
            && (|r.lines| > 0 ==> Visible(r.lines[0]) <= Bound(first))
  {
    var first := FirstLimit(width, position, margin);
    var after := BreakLimit(width, indentsSum);
    assert Banded([], first, after, false, 0);
    ScanAllKeeps(pieces, first, after, Scan([], [], 0, first, false));
    var r := SplitLines(width, position, margin, indentsSum, true, pieces);
    var b: nat :| b <= |r.lines| && Banded(r.lines, first, after, r.broke, b);
    forall k | 0 <= k < |r.lines|
      ensures Visible(r.lines[k]) <= Max(Bound(first), Bound(after))
    {
      if k < b {
        assert Visible(r.lines[k]) <= Bound(first);
      } else {
        assert Visible(r.lines[k]) <= Bound(after);
      }
    }
  }
}

=== FILE: wrap_chunks.dfy ===
/** How `Printer._split_lines` (pyprinter/printer.py, lines 131-178) cuts
    a line of plain text: into pieces of exactly `max(limit, 1)` characters
    followed by a break, the remainder keeping the input's line break. The
    worked examples are the ones the repository's printer tests use, on an
    80-column console. */
module WrapChunks {
  import opened TextUtil
  import opened Ansi
  import opened Wrap
  import opened WrapProofs
  import opened WrapScan
  import opened WrapBound

  /** Each character of `s` written and counted. */
  function Chars(s: string): (r: seq<Token>)
    ensures |r| == |s|
    decreases |s|
  {
    if |s| == 0 then [] else Chars(s[..|s| - 1]) + [Ch(s[|s| - 1])]
  }

  /** Text with neither a line break nor an escape character. */
  predicate PlainText(s: string) {
    forall k :: 0 <= k < |s| ==> s[k] != '\n' && s[k] != Esc
  }

  /** An input line of plain text ended by a line break. */
  predicate PlainLine(line: string) {
    |line| > 0 && line[|line| - 1] == '\n' && PlainText(line[..|line| - 1])
  }

  /** The reference cut of plain `text` followed by a line break: the first
      `max(limit, 1)` characters and a break, then the rest cut under the
      break limit; what fits stays on one line with the line break. */
  function PlainChunks(text: string, limit: int, after: int): seq<seq<Token>>
    decreases |text|
  {
    if |text| <= Bound(limit) then [Chars(text) + [Ch('\n')]]
    else [Chars(text[..Bound(limit)]) + [Brk]] + PlainChunks(text[Bound(limit)..], after, after)
  }

  /** The cuts of several plain input lines under one limit. */
  function ChunksAll(pieces: seq<string>, limit: int): seq<seq<Token>>
    requires forall k :: 0 <= k < |pieces| ==> PlainLine(pieces[k])
  {
    if |pieces| == 0 then []
    else
      assert PlainLine(pieces[0]);
      PlainChunks(pieces[0][..|pieces[0]| - 1], limit, limit) + ChunksAll(pieces[1..], limit)
  }

  lemma {:induction false} CharsRender(s: string)
    ensures Render(Chars(s)) == s
    ensures CountCh(Chars(s)) == |s| && CodeCount(Chars(s)) == 0
    decreases |s|
  {
    if |s| > 0 {
      var n := |s| - 1;
      CharsRender(s[..n]);
      Snoc(Chars(s[..n]), Ch(s[n]));
      assert s[..n] + [s[n]] == s;
    }
  }

  /** A character of a plain input line before its line break. */
  lemma PlainAt(line: string, i: nat)
    requires PlainLine(line) && i < |line|
    ensures line[i] != Esc
    ensures line[i] == '\n' <==> i == |line| - 1
  {
    if i < |line| - 1 {
      assert line[i] == line[..|line| - 1][i];
    }
  }

  /** The pending line after one more plain character. */
  lemma PlainPending(line: string, i0: nat, i: nat, fixed: seq<Token>)
    requires i0 <= i < |line|
    requires fixed == Chars(line[i0..i])
    ensures Chars(line[i0..i + 1]) == fixed + [Ch(line[i])]
    ensures |Render(fixed + [Ch(line[i])])| == i - i0 + 1
    ensures Render(fixed + [Ch(line[i])]) == line[i0..i + 1]
  {
    var seg := line[i0..i + 1];
    assert seg[..|seg| - 1] == line[i0..i] && seg[|seg| - 1] == line[i];
    assert Chars(seg) == fixed + [Ch(line[i])];
    CharsRender(seg);
  }

  /** What the scan of a plain line keeps true: the pending line holds the
      characters read since the last break, and the lines emitted so far
      followed by the reference cut of the rest make up `goal`; once the
      line is read, the end of the line yields `goal`. */
  predicate Cutting(line: string, first: int, after: int, i: nat, s: Scan, goal: seq<seq<Token>>)
    requires i <= |line|
  {
    && (s.limit == first || s.limit == after)
    && if i == |line| then Flush(s.done, s.fixed) == goal
       else
         var k := |s.fixed|;
         && k <= i && s.fixed == Chars(line[i - k..i]) && s.colors == 0
         && (k < Bound(s.limit) || (k == Bound(s.limit) && i == |line| - 1))
         && goal == s.done + PlainChunks(line[i - k..|line| - 1], s.limit, after)
  }

  /** The line break ends the scan of a plain line with the reference's
      last line. */
  lemma StepEnd(line: string, first: int, after: int, i: nat, useColors: bool, s: Scan, goal: seq<seq<Token>>)
    requires PlainLine(line) && i == |line| - 1
    requires Cutting(line, first, after, i, s, goal)
    ensures var n := Step(line, i, useColors, after, s);
            n.at == |line| && Cutting(line, first, after, n.at, n.scan, goal)
  {
    var i0 := i - |s.fixed|;
    PlainAt(line, i);
    PlainPending(line, i0, i, s.fixed);
    EndChunk(line, i0, i, s.fixed, s.limit, after);
    if i - i0 + 1 >= s.limit {
      EndBreak(line, first, after, i, useColors, s, goal);
    } else {
      EndChar(line, first, after, i, useColors, s, goal);
    }
  }

  /** The last piece of the reference cut: what is pending and the break. */
  lemma EndChunk(line: string, i0: nat, i: nat, fixed: seq<Token>, limit: int, after: int)
    requires i0 <= i < |line| && fixed == Chars(line[i0..i]) && i - i0 <= Bound(limit)
    ensures PlainChunks(line[i0..i], limit, after) == [Chars(line[i0..i]) + [Ch('\n')]]
  {
  }

  lemma EndBreak(line: string, first: int, after: int, i: nat, useColors: bool, s: Scan, goal: seq<seq<Token>>)
    requires PlainLine(line) && i == |line| - 1 && line[i] == '\n'
    requires |s.fixed| <= i && s.fixed == Chars(line[i - |s.fixed|..i]) && s.colors == 0
    requires Render(s.fixed + [Ch(line[i])]) == line[i - |s.fixed|..i + 1]
    requires goal == s.done + [s.fixed + [Ch('\n')]]
    requires |s.fixed| + 1 >= s.limit
    ensures var n := Step(line, i, useColors, after, s);
            n.at == |line| && Cutting(line, first, after, n.at, n.scan, goal)
  {
    var fixed := s.fixed + [Ch(line[i])];
    var r := Render(fixed);
    assert EndsWith(r, "\n") by {
      assert r[|r| - 1..] == [line[i]];
    }
    StepBreakShape(line, i, useColors, after, s);
    assert Render([]) == [];
  }

  lemma EndChar(line: string, first: int, after: int, i: nat, useColors: bool, s: Scan, goal: seq<seq<Token>>)
    requires PlainLine(line) && i == |line| - 1 && line[i] == '\n'
    requires |s.fixed| <= i && s.fixed == Chars(line[i - |s.fixed|..i]) && s.colors == 0
    requires s.limit == first || s.limit == after
    requires Render(s.fixed + [Ch(line[i])]) == line[i - |s.fixed|..i + 1]
    requires goal == s.done + [s.fixed + [Ch('\n')]]
    requires |s.fixed| + 1 < s.limit
    ensures var n := Step(line, i, useColors, after, s);
            n.at == |line| && Cutting(line, first, after, n.at, n.scan, goal)
  {
    var i0 := i - |s.fixed|;
    var r := Render(s.fixed + [Ch(line[i])]);
    StepCharShape(line, i, useColors, after, s);
    assert r[0] == line[i0];
    PlainAt(line, i0);
  }

  /** A full pending line before more plain text is closed with a break. */
  lemma StepCutShape(line: string, i: nat, useColors: bool, after: int, s: Scan)
    requires PlainLine(line) && i + 1 < |line| - 1
    requires |s.fixed| <= i && s.fixed == Chars(line[i - |s.fixed|..i]) && s.colors == 0
    requires |s.fixed| + 1 >= s.limit
    ensures Step(line, i, useColors, after, s)
            == Next(i + 1, Scan(s.done + [Chars(line[i - |s.fixed|..i + 1]) + [Brk]], [], 0, after, true))
  {
    var i0 := i - |s.fixed|;
    var fixed := s.fixed + [Ch(line[i])];
    PlainAt(line, i);
    PlainAt(line, i + 1);
    PlainPending(line, i0, i, s.fixed);
    var r := Render(fixed);
    assert !EndsWith(r, "\n") by {
      assert r[|r| - 1..] == [line[i]];
    }
    StepBreakShape(line, i, useColors, after, s);
  }

  /** The lines before a break and the reference cut after it. */
  lemma JoinCut(goal: seq<seq<Token>>, done: seq<seq<Token>>, closed: seq<Token>,
                rest: seq<seq<Token>>, whole: seq<seq<Token>>)
    requires goal == done + whole
    requires whole == [closed] + rest
    ensures goal == (done + [closed]) + rest
  {
  }

  lemma CutKeeps(line: string, first: int, after: int, i: nat, s: Scan, goal: seq<seq<Token>>)
    requires PlainLine(line) && i + 1 < |line| - 1
    requires Cutting(line, first, after, i, s, goal)
    requires |s.fixed| + 1 >= s.limit
    ensures Cutting(line, first, after, i + 1,
                    Scan(s.done + [Chars(line[i - |s.fixed|..i + 1]) + [Brk]], [], 0, after, true), goal)
  {
    var i0 := i - |s.fixed|;
    assert i + 1 - i0 == Bound(s.limit) && goal == s.done + PlainChunks(line[i0..|line| - 1], s.limit, after);
    CutNext(line, first, after, i0, i, s.limit, s.done, goal);
  }

  lemma CutNext(line: string, first: int, after: int, i0: nat, i: nat, limit: int,
                done: seq<seq<Token>>, goal: seq<seq<Token>>)
    requires i0 <= i && i + 1 < |line| - 1 && i + 1 - i0 == Bound(limit)
    requires goal == done + PlainChunks(line[i0..|line| - 1], limit, after)
    ensures Cutting(line, first, after, i + 1, Scan(done + [Chars(line[i0..i + 1]) + [Brk]], [], 0, after, true), goal)
  {
    var closed := Chars(line[i0..i + 1]) + [Brk];
    assert goal == (done + [closed]) + PlainChunks(line[i + 1..|line| - 1], after, after) by {
      CutSplits(line, i0, i + 1, |line| - 1, limit, after, done, goal);
    }
    CuttingFresh(line, first, after, i + 1, done, closed, goal);
  }

  /** The lines before a forced break and the reference cut of the rest. */
  lemma CutSplits(line: string, i0: nat, j: nat, n: nat, limit: int, after: int,
                  done: seq<seq<Token>>, goal: seq<seq<Token>>)
    requires i0 < j < n <= |line| && j - i0 == Bound(limit)
    requires goal == done + PlainChunks(line[i0..n], limit, after)
    ensures goal == (done + [Chars(line[i0..j]) + [Brk]]) + PlainChunks(line[j..n], after, after)
  {
    CutAt(line, i0, j, n, limit, after);
    JoinCut(goal, done, Chars(line[i0..j]) + [Brk], PlainChunks(line[j..n], after, after), PlainChunks(line[i0..n], limit, after));
  }

  /** Right after a break nothing is pending and the rest is still to cut. */
  lemma CuttingFresh(line: string, first: int, after: int, j: nat,
                      done: seq<seq<Token>>, closed: seq<Token>, goal: seq<seq<Token>>)
    requires j < |line|
    requires goal == (done + [closed]) + PlainChunks(line[j..|line| - 1], after, after)
    ensures Cutting(line, first, after, j, Scan(done + [closed], [], 0, after, true), goal)
  {
    assert Chars(line[j..j]) == [] by {
      assert line[j..j] == [];
    }
  }

  /** The reference cut of a slice that is longer than the first line. */
  lemma CutAt(line: string, i0: nat, j: nat, n: nat, limit: int, after: int)
    requires i0 < j < n <= |line| && j - i0 == Bound(limit)
    ensures PlainChunks(line[i0..n], limit, after)
            == [Chars(line[i0..j]) + [Brk]] + PlainChunks(line[j..n], after, after)
  {
    var text := line[i0..n];
    assert text[..Bound(limit)] == line[i0..j];
    assert text[Bound(limit)..] == line[j..n];
  }

  /** A plain character that does not fill the line is added to it. */
  lemma StepOnShape(line: string, i: nat, useColors: bool, after: int, s: Scan)
    requires PlainLine(line) && i < |line| - 1
    requires |s.fixed| <= i && s.fixed == Chars(line[i - |s.fixed|..i]) && s.colors == 0
    requires !(|s.fixed| + 1 >= s.limit && i + 1 < |line| - 1)
    ensures Step(line, i, useColors, after, s) == Next(i + 1, s.(fixed := s.fixed + [Ch(line[i])]))
  {
    PlainAt(line, i);
    PlainAt(line, i + 1);
    PlainPending(line, i - |s.fixed|, i, s.fixed);
    StepCharShape(line, i, useColors, after, s);
  }

  lemma OnKeeps(line: string, first: int, after: int, i: nat, s: Scan, goal: seq<seq<Token>>)
    requires PlainLine(line) && i < |line| - 1
    requires Cutting(line, first, after, i, s, goal)
    requires !(|s.fixed| + 1 >= s.limit && i + 1 < |line| - 1)
    ensures Cutting(line, first, after, i + 1, s.(fixed := s.fixed + [Ch(line[i])]), goal)
  {
    var i0 := i - |s.fixed|;
    PlainPending(line, i0, i, s.fixed);
  }

  lemma StepCutting(line: string, first: int, after: int, i: nat, useColors: bool, s: Scan, goal: seq<seq<Token>>)
    requires PlainLine(line) && i < |line|
    requires Cutting(line, first, after, i, s, goal)
    ensures var n := Step(line, i, useColors, after, s);
            n.at == i + 1 && Cutting(line, first, after, n.at, n.scan, goal)
  {
    if i == |line| - 1 {
      StepEnd(line, first, after, i, useColors, s, goal);
    } else if |s.fixed| + 1 >= s.limit && i + 1 < |line| - 1 {
      StepCutShape(line, i, useColors, after, s);
      CutKeeps(line, first, after, i, s, goal);
    } else {
      StepOnShape(line, i, useColors, after, s);
      OnKeeps(line, first, after, i, s, goal);
    }
  }

  /** The scan of a plain input line yields the reference cut. */
  lemma {:induction false} ScanCutting(line: string, first: int, after: int, i: nat, useColors: bool, s: Scan, goal: seq<seq<Token>>)
    requires PlainLine(line) && i <= |line|
    requires Cutting(line, first, after, i, s, goal)
    ensures Cutting(line, first, after, |line|, ScanLine(line, i, useColors, after, s), goal)
    decreases |line| - i
  {
    if i < |line| {
      var n := Step(line, i, useColors, after, s);
      StepCutting(line, first, after, i, useColors, s, goal);
      ScanCutting(line, first, after, n.at, useColors, n.scan, goal);
    }
  }

  /** The outer loop over one input line of plain text: the lines the
      scan so far emitted, followed by the reference cut. */
  lemma ScanAllOne(pieces: seq<string>, useColors: bool, after: int, s: Scan)
    requires |pieces| > 0 && PlainLine(pieces[0])
    ensures var t := NextLine(pieces[0], useColors, after, s);
            && ScanAll(pieces, useColors, after, s) == ScanAll(pieces[1..], useColors, after, t)
            && t.done == s.done + PlainChunks(pieces[0][..|pieces[0]| - 1], s.limit, after)
            && (t.limit == s.limit || t.limit == after)
  {
    NextLinePlain(pieces[0], useColors, after, s);
  }

  /** The scan of one plain input line appends the reference cut. */
  lemma NextLinePlain(line: string, useColors: bool, after: int, s: Scan)
    requires PlainLine(line)
    ensures var t := NextLine(line, useColors, after, s);
            && t.done == s.done + PlainChunks(line[..|line| - 1], s.limit, after)
            && (t.limit == s.limit || t.limit == after)
  {
    var s0 := s.(fixed := [], colors := 0);
    var goal := s.done + PlainChunks(line[..|line| - 1], s.limit, after);
    CuttingStart(line, after, s0, goal);
    ScanEnds(line, s.limit, after, useColors, s0, goal);
  }

  lemma CuttingStart(line: string, after: int, s0: Scan, goal: seq<seq<Token>>)
    requires PlainLine(line) && s0.fixed == [] && s0.colors == 0
    requires goal == s0.done + PlainChunks(line[..|line| - 1], s0.limit, after)
    ensures Cutting(line, s0.limit, after, 0, s0, goal)
  {
    assert line[0..0] == [];
    assert line[0..|line| - 1] == line[..|line| - 1];
  }

  /** Once the whole line is read, flushing the pending line yields `goal`. */
  lemma ScanEnds(line: string, first: int, after: int, useColors: bool, s0: Scan, goal: seq<seq<Token>>)
    requires PlainLine(line) && Cutting(line, first, after, 0, s0, goal)
    ensures var t := NextLine(line, useColors, after, s0);
            t.done == goal && (t.limit == first || t.limit == after)
  {
    var t := ScanLine(line, 0, useColors, after, s0.(fixed := [], colors := 0));
    assert s0.(fixed := [], colors := 0) == s0;
    ScanCutting(line, first, after, 0, useColors, s0, goal);
    assert Cutting(line, first, after, |line|, t, goal);
  }

  /** The splitter's cut of one plain input line is the reference cut, under
      the first limit and then the break limit. */
  lemma SplitPlainLine(width: int, position: int, margin: int, indentsSum: int, useColors: bool, text: string)
    requires PlainText(text)
    ensures SplitLines(width, position, margin, indentsSum, useColors, [text + "\n"]).lines
            == PlainChunks(text, FirstLimit(width, position, margin), BreakLimit(width, indentsSum))
  {
    var line := text + "\n";
    assert line[..|line| - 1] == text;
    var s := Scan([], [], 0, FirstLimit(width, position, margin), false);
    ScanAllOne([line], useColors, BreakLimit(width, indentsSum), s);
    assert [line][1..] == [];
  }

  lemma RestPlain(pieces: seq<string>)
    requires |pieces| > 0
    requires forall k :: 0 <= k < |pieces| ==> PlainLine(pieces[k])
    ensures PlainLine(pieces[0])
    ensures forall k :: 0 <= k < |pieces[1..]| ==> PlainLine(pieces[1..][k])
  {
    assert PlainLine(pieces[0]);
    forall k | 0 <= k < |pieces[1..]|
      ensures PlainLine(pieces[1..][k])
    {
      assert pieces[1..][k] == pieces[k + 1];
    }
  }

  lemma ChunksCons(pieces: seq<string>, limit: int)
    requires |pieces| > 0
    requires forall k :: 0 <= k < |pieces| ==> PlainLine(pieces[k])
    ensures PlainLine(pieces[0])
    ensures forall k :: 0 <= k < |pieces[1..]| ==> PlainLine(pieces[1..][k])
    ensures ChunksAll(pieces, limit)
            == PlainChunks(pieces[0][..|pieces[0]| - 1], limit, limit) + ChunksAll(pieces[1..], limit)
  {
    RestPlain(pieces);
  }

  lemma JoinAll(x: seq<seq<Token>>, done: seq<seq<Token>>, cut: seq<seq<Token>>,
                done': seq<seq<Token>>, rest: seq<seq<Token>>, whole: seq<seq<Token>>)
    requires done' == done + cut && x == done' + rest && whole == cut + rest
    ensures x == done + whole
  {
  }

  /** Several plain input lines in one call, when both limits agree: each
      is cut on its own, and the limit carries over unchanged. */
  lemma {:induction false} ScanAllPlain(pieces: seq<string>, useColors: bool, limit: int, s: Scan)
    requires forall k :: 0 <= k < |pieces| ==> PlainLine(pieces[k])
    requires s.limit == limit
    ensures ScanAll(pieces, useColors, limit, s).done == s.done + ChunksAll(pieces, limit)
    decreases |pieces|
  {
    if |pieces| > 0 {
      ChunksCons(pieces, limit);
      var line := pieces[0];
      var t' := NextLine(line, useColors, limit, s);
      ScanAllOne(pieces, useColors, limit, s);
      ScanAllPlain(pieces[1..], useColors, limit, t');
      JoinAll(ScanAll(pieces, useColors, limit, s).done, s.done, PlainChunks(line[..|line| - 1], limit, limit),
              t'.done, ChunksAll(pieces[1..], limit), ChunksAll(pieces, limit));
    }
  }

  lemma SplitPlainLines(width: int, indentsSum: int, useColors: bool, pieces: seq<string>)
    requires forall k :: 0 <= k < |pieces| ==> PlainLine(pieces[k])
    ensures SplitLines(width, 0, indentsSum, indentsSum, useColors, pieces).lines
            == ChunksAll(pieces, BreakLimit(width, indentsSum))
  {
    var limit := BreakLimit(width, indentsSum);
    var s0 := Scan([], [], 0, limit, false);
    assert Scan([], [], 0, FirstLimit(width, 0, indentsSum), false) == s0;
    assert ScanAll(pieces, useColors, limit, s0).done == ChunksAll(pieces, limit) by {
      ScanAllPlain(pieces, useColors, limit, s0);
    }
  }

  // ---------------------------------------------------------------------
  // Worked examples

  /** `n` copies of one plain character. */
  function Run(c: char, n: nat): (r: string)
    ensures |r| == n
    ensures forall k :: 0 <= k < n ==> r[k] == c
  {
    seq(n, k => c)
  }

  lemma RunSplit(c: char, n: nat, k: nat)
    requires k <= n
    ensures Run(c, n)[..k] == Run(c, k) && Run(c, n)[k..] == Run(c, n - k)
  {
  }

  lemma RunPlain(c: char, n: nat)
    requires c != '\n' && c != Esc
    ensures PlainText(Run(c, n))
  {
  }

  /** A full line and a broken one. */
  function Full(c: char, n: nat): seq<Token> {
    Chars(Run(c, n)) + [Brk]
  }

  /** The last line of a cut, with the input's line break. */
  function Last(c: char, n: nat): seq<Token> {
    Chars(Run(c, n)) + [Ch('\n')]
  }

  /** A run longer than the first line gives a full line and the rest. */
  lemma CutRun(c: char, n: nat, limit: int, after: int)
    requires n > Bound(limit)
    ensures PlainChunks(Run(c, n), limit, after) == [Full(c, Bound(limit))] + PlainChunks(Run(c, n - Bound(limit)), after, after)
  {
    RunSplit(c, n, Bound(limit));
  }

  /** A run that fits is the last line. */
  lemma LastRun(c: char, n: nat, limit: int, after: int)
    requires n <= Bound(limit)
    ensures PlainChunks(Run(c, n), limit, after) == [Last(c, n)]
  {
  }

  /** 79 characters fill an 80-column line and stay on one line; 80 do not
      (`test_write_line_long_line` cases on an unindented printer). */
  lemma WidthExamples(useColors: bool)
    ensures SplitLines(80, 0, 0, 0, useColors, [Run('A', 79) + "\n"]).lines == [Last('A', 79)]
    ensures SplitLines(80, 0, 0, 0, useColors, [Run('B', 80) + "\n"]).lines == [Full('B', 79), Last('B', 1)]
  {
    RunPlain('A', 79);
    SplitPlainLine(80, 0, 0, 0, useColors, Run('A', 79));
    LastRun('A', 79, 79, 79);
    RunPlain('B', 80);
    SplitPlainLine(80, 0, 0, 0, useColors, Run('B', 80));
    CutRun('B', 80, 79, 79);
    LastRun('B', 1, 79, 79);
  }

  lemma CutC()
    ensures PlainChunks(Run('C', 100), 79, 79) == [Full('C', 79), Last('C', 21)]
  {
    CutRun('C', 100, 79, 79);
    LastRun('C', 21, 79, 79);
  }

  lemma CutD()
    ensures PlainChunks(Run('D', 200), 79, 79) == [Full('D', 79), Full('D', 79), Last('D', 42)]
  {
    CutRun('D', 200, 79, 79);
    CutRun('D', 121, 79, 79);
    LastRun('D', 42, 79, 79);
  }

  /** Two long lines written in one call: 100 characters give 79 and 21,
      200 give 79, 79 and 42. */
  lemma TwoLinesExample(useColors: bool)
    ensures SplitLines(80, 0, 0, 0, useColors, [Run('C', 100) + "\n", Run('D', 200) + "\n"]).lines
            == [Full('C', 79), Last('C', 21), Full('D', 79), Full('D', 79), Last('D', 42)]
  {
    var pieces := [Run('C', 100) + "\n", Run('D', 200) + "\n"];
    RunPlain('C', 100);
    RunPlain('D', 200);
    assert pieces[0][..100] == Run('C', 100);
    assert pieces[1][..200] == Run('D', 200);
    assert PlainLine(pieces[0]) && PlainLine(pieces[1]);
    SplitPlainLines(80, 0, useColors, pieces);
    ChunksCons(pieces, 79);
    ChunksCons(pieces[1..], 79);
    assert pieces[1..][1..] == [];
    CutC();
    CutD();
  }

  /** Indentation shortens every line: 79 characters under an indentation
      of 10 give 69 and 10, under nested indentations of 10 and 5 give 64
      and 15. */
  lemma IndentExamples(useColors: bool)
    ensures SplitLines(80, 0, 10, 10, useColors, [Run('A', 79) + "\n"]).lines == [Full('A', 69), Last('A', 10)]
    ensures SplitLines(80, 0, 15, 15, useColors, [Run('A', 79) + "\n"]).lines == [Full('A', 64), Last('A', 15)]
  {
    RunPlain('A', 79);
    SplitPlainLine(80, 0, 10, 10, useColors, Run('A', 79));
    CutRun('A', 79, 69, 69);
    LastRun('A', 10, 69, 69);
    SplitPlainLine(80, 0, 15, 15, useColors, Run('A', 79));
    CutRun('A', 79, 64, 64);
    LastRun('A', 15, 64, 64);
  }
}

=== FILE: wrap_proofs.dfy ===
/** Properties of the line splitter `Printer._split_lines`
    (pyprinter/printer.py, lines 122-179), proved on the token model. */
module WrapProofs {
  import opened TextUtil
  import opened Ansi
  import opened Wrap

  // ---------------------------------------------------------------------
  // Token algebra

  lemma {:induction false} RenderConcat(a: seq<Token>, b: seq<Token>)
    ensures Render(a + b) == Render(a) + Render(b)
    decreases |b|
  {
    if |b| > 0 {
      assert (a + b)[..|a + b| - 1] == a + b[..|b| - 1];
      RenderConcat(a, b[..|b| - 1]);
    } else {
      assert a + b == a;
    }
  }

  lemma {:induction false} SourceConcat(a: seq<Token>, b: seq<Token>)
    ensures Source(a + b) == Source(a) + Source(b)
    decreases |b|
  {
    if |b| > 0 {
      assert (a + b)[..|a + b| - 1] == a + b[..|b| - 1];
      SourceConcat(a, b[..|b| - 1]);
    } else {
      assert a + b == a;
    }
  }

  lemma {:induction false} CountChConcat(a: seq<Token>, b: seq<Token>)
    ensures CountCh(a + b) == CountCh(a) + CountCh(b)
    decreases |b|
  {
    if |b| > 0 {
      assert (a + b)[..|a + b| - 1] == a + b[..|b| - 1];
      CountChConcat(a, b[..|b| - 1]);
    } else {
      assert a + b == a;
    }
  }

  lemma SnocAll(lines: seq<seq<Token>>, line: seq<Token>)
    ensures SourceAll(lines + [line]) == SourceAll(lines) + Source(line)
  {
    assert (lines + [line])[..|lines|] == lines;
  }

  /** Deleting the last written character never loses an input character. */
  lemma {:induction false} DropLastCharSource(ts: seq<Token>)
    ensures Source(DropLastChar(ts)) == Source(ts)
    decreases |ts|
  {
    if |ts| > 0 {
      var n := |ts| - 1;
      var pre := ts[..n];
      assert ts == pre + [ts[n]];
      match ts[n]
      case Ch(c) =>
        SourceConcat(pre, [Gone(c)]);
        SourceConcat(pre, [ts[n]]);
      case Brk =>
        SourceConcat(pre, [ts[n]]);
      case Code(w) =>
        if |w| == 0 {
          DropLastCharSource(pre);
          SourceConcat(DropLastChar(pre), [ts[n]]);
          SourceConcat(pre, [ts[n]]);
        } else {
          SourceConcat(pre, [Code(w[..|w| - 1]), Gone(w[|w| - 1])]);
          SourceConcat(pre, [ts[n]]);
          assert Source([Code(w[..|w| - 1]), Gone(w[|w| - 1])]) == w[..|w| - 1] + [w[|w| - 1]];
          assert w[..|w| - 1] + [w[|w| - 1]] == w;
        }
      case Gone(c) =>
        DropLastCharSource(pre);
        SourceConcat(DropLastChar(pre), [ts[n]]);
        SourceConcat(pre, [ts[n]]);
    }
  }

  lemma RenderPair(a: Token, b: Token)
    ensures Render([a, b]) == Out(a) + Out(b)
  {
    assert [a, b][..1] == [a];
    assert [a][..0] == [];
    assert Render([a]) == Render([]) + Out(a);
    assert Render([a, b]) == Render([a]) + Out(b);
  }

  /** On the written text, the token merge is `s[:-1]`. */
  lemma {:induction false} DropLastCharRender(ts: seq<Token>)
    requires |Render(ts)| > 0
    ensures Render(DropLastChar(ts)) == Render(ts)[..|Render(ts)| - 1]
    decreases |ts|
  {
    var t := ts[|ts| - 1];
    if t.Ch? {
      DropRenderChar(ts);
    } else if t.Brk? {
      DropRenderBreak(ts);
    } else if t.Code? && |t.text| > 0 {
      DropRenderCode(ts);
    } else {
      var pre := ts[..|ts| - 1];
      assert Render(ts) == Render(pre) + Out(t) && Out(t) == [];
      DropLastCharRender(pre);
      DropRenderSilent(ts);
    }
  }

  lemma DropRenderChar(ts: seq<Token>)
    requires |ts| > 0 && ts[|ts| - 1].Ch?
    ensures Render(DropLastChar(ts)) == Render(ts)[..|Render(ts)| - 1]
  {
    var n := |ts| - 1;
    var pre := ts[..n];
    var t := ts[n];
    assert Render(ts) == Render(pre) + Out(t);
    assert DropLastChar(ts) == pre + [Gone(t.c)];
    RenderConcat(pre, [Gone(t.c)]);
    assert Render([Gone(t.c)]) == [] by { assert [Gone(t.c)][..0] == []; }
  }

  lemma DropRenderBreak(ts: seq<Token>)
    requires |ts| > 0 && ts[|ts| - 1].Brk?
    ensures Render(DropLastChar(ts)) == Render(ts)[..|Render(ts)| - 1]
  {
    var n := |ts| - 1;
    assert Render(ts) == Render(ts[..n]) + Out(ts[n]);
    assert DropLastChar(ts) == ts[..n];
  }

  lemma DropRenderCode(ts: seq<Token>)
    requires |ts| > 0 && ts[|ts| - 1].Code? && |ts[|ts| - 1].text| > 0
    ensures Render(DropLastChar(ts)) == Render(ts)[..|Render(ts)| - 1]
  {
    var n := |ts| - 1;
    var pre := ts[..n];
    var w := ts[n].text;
    assert Render(ts) == Render(pre) + Out(ts[n]);
    assert DropLastChar(ts) == pre + [Code(w[..|w| - 1]), Gone(w[|w| - 1])];
    RenderConcat(pre, [Code(w[..|w| - 1]), Gone(w[|w| - 1])]);
    RenderPair(Code(w[..|w| - 1]), Gone(w[|w| - 1]));
  }

  /** A last token that shows nothing is kept, and the merge happens before it. */
  lemma DropRenderSilent(ts: seq<Token>)
    requires |ts| > 0 && Out(ts[|ts| - 1]) == []
    requires !ts[|ts| - 1].Ch? && !ts[|ts| - 1].Brk? && !(ts[|ts| - 1].Code? && |ts[|ts| - 1].text| > 0)
    requires var pre := ts[..|ts| - 1];
             |Render(pre)| > 0 && Render(DropLastChar(pre)) == Render(pre)[..|Render(pre)| - 1]
    ensures Render(DropLastChar(ts)) == Render(ts)[..|Render(ts)| - 1]
  {
    var n := |ts| - 1;
    var pre := ts[..n];
    var t := ts[n];
    assert Render(ts) == Render(pre) + Out(t);
    assert DropLastChar(ts) == DropLastChar(pre) + [t];
    RenderConcat(DropLastChar(pre), [t]);
    assert Render([t]) == [] by { assert [t][..0] == []; }
  }

  // ---------------------------------------------------------------------
  // Nothing is lost

  lemma FlushSource(done: seq<seq<Token>>, fixed: seq<Token>)
    requires PendingTokens(fixed)
    ensures SourceAll(Flush(done, fixed)) == SourceAll(done) + Source(fixed)
  {
    var text := Render(fixed);
    if |text| == 0 {
      PendingRenderLength(fixed);
      assert fixed == [];
      assert Flush(done, fixed) == done;
    } else if |text| == ColorLength && MatchPrefix(text).Some? && |done| > 0 {
      var n := |done| - 1;
      assert Flush(done, fixed) == done[..n] + [DropLastChar(done[n]) + fixed];
      MergeSource(done, fixed);
    } else {
      assert Flush(done, fixed) == done + [fixed];
      SnocAll(done, fixed);
    }
  }

  lemma MergeSource(done: seq<seq<Token>>, fixed: seq<Token>)
    requires |done| > 0
    ensures SourceAll(done[..|done| - 1] + [DropLastChar(done[|done| - 1]) + fixed]) == SourceAll(done) + Source(fixed)
  {
    var n := |done| - 1;
    var pre, last := done[..n], done[n];
    assert SourceAll(done) == SourceAll(pre) + Source(last);
    SnocAll(pre, DropLastChar(last) + fixed);
    SourceConcat(DropLastChar(last), fixed);
    DropLastCharSource(last);
    Regroup(SourceAll(pre), Source(last), Source(fixed));
  }

  /** Regrouping a concatenation of strings, kept out of larger proof contexts. */
  lemma Regroup(a: string, b: string, c: string)
    ensures a + (b + c) == (a + b) + c
  {
  }

  /** The pending line only ever holds counted characters and whole windows. */
  predicate PendingTokens(ts: seq<Token>) {
    forall j :: 0 <= j < |ts| ==> ts[j].Ch? || (ts[j].Code? && |ts[j].text| == ColorLength)
  }

  function CodeCount(ts: seq<Token>): nat
    decreases |ts|
  {
    if |ts| == 0 then 0 else CodeCount(ts[..|ts| - 1]) + (if ts[|ts| - 1].Code? then 1 else 0)
  }

  /** `len(fixed_line)` is the counted characters plus seven per window. */
  lemma {:induction false} PendingRenderLength(ts: seq<Token>)
    requires PendingTokens(ts)
    ensures |Render(ts)| == CountCh(ts) + ColorLength * CodeCount(ts)
    ensures |ts| == CountCh(ts) + CodeCount(ts)
    decreases |ts|
  {
    if |ts| > 0 {
      PendingRenderLength(ts[..|ts| - 1]);
    }
  }
}

module WrapScan {
  import opened TextUtil
  import opened Ansi
  import opened Wrap
  import opened WrapProofs

  lemma Snoc(ts: seq<Token>, t: Token)
    ensures Render(ts + [t]) == Render(ts) + Out(t)
    ensures Source(ts + [t]) == Source(ts) + In(t)
    ensures CountCh(ts + [t]) == CountCh(ts) + (if t.Ch? then 1 else 0)
    ensures CodeCount(ts + [t]) == CodeCount(ts) + (if t.Code? then 1 else 0)
  {
    assert (ts + [t])[..|ts|] == ts;
  }

  /** What the scan keeps true of its state between characters. */
  predicate ScanOk(s: Scan) {
    PendingTokens(s.fixed) && s.colors == CodeCount(s.fixed)
  }

  /** The state a step leaves, and what a step reads, in the three cases
      of the loop body. */
  predicate StepReads(line: string, i: nat, useColors: bool, breakLimit: int, s: Scan)
    requires i < |line|
  {
    var n := Step(line, i, useColors, breakLimit, s);
    && ScanOk(n.scan)
    && SourceAll(n.scan.done) + Source(n.scan.fixed) == SourceAll(s.done) + Source(s.fixed) + line[i..n.at]
  }

  /** The state after a step that copies a window. */
  lemma StepWindowShape(line: string, i: nat, useColors: bool, breakLimit: int, s: Scan)
    requires i < |line|
    requires WindowAt(line, i, useColors)
    ensures Step(line, i, useColors, breakLimit, s)
            == Next(i + ColorLength, s.(fixed := s.fixed + [Code(line[i..i + ColorLength])], colors := s.colors + 1))
  {
  }

  lemma StepWindowSource(line: string, i: nat, useColors: bool, breakLimit: int, s: Scan)
    requires i < |line|
    requires ScanOk(s)
    requires WindowAt(line, i, useColors)
    ensures StepReads(line, i, useColors, breakLimit, s)
  {
    var w := line[i..i + ColorLength];
    StepWindowShape(line, i, useColors, breakLimit, s);
    Snoc(s.fixed, Code(w));
    Regroup(SourceAll(s.done), Source(s.fixed), w);
  }

  /** A forced break closes the pending line, keeping or adding its '\n'. */
  lemma StepBreakShape(line: string, i: nat, useColors: bool, breakLimit: int, s: Scan)
    requires i < |line|
    requires !WindowAt(line, i, useColors)
    requires |Render(s.fixed + [Ch(line[i])])| >= s.limit + s.colors * ColorLength
    requires !(|line| > i + 1 && line[i + 1] == '\n')
    ensures var fixed := s.fixed + [Ch(line[i])];
      Step(line, i, useColors, breakLimit, s)
      == Next(i + 1, Scan(s.done + [if EndsWith(Render(fixed), "\n") then fixed else fixed + [Brk]], [], 0, breakLimit, true))
  {
  }

  lemma ClosedSource(done: seq<seq<Token>>, fixed: seq<Token>, closed: seq<Token>)
    requires closed == fixed || closed == fixed + [Brk]
    ensures SourceAll(done + [closed]) == SourceAll(done) + Source(fixed)
  {
    Snoc(fixed, Brk);
    SnocAll(done, closed);
  }

  lemma StepBreakSource(line: string, i: nat, useColors: bool, breakLimit: int, s: Scan)
    requires i < |line|
    requires ScanOk(s)
    requires !WindowAt(line, i, useColors)
    requires |Render(s.fixed + [Ch(line[i])])| >= s.limit + s.colors * ColorLength
    requires !(|line| > i + 1 && line[i + 1] == '\n')
    ensures StepReads(line, i, useColors, breakLimit, s)
  {
    var fixed := s.fixed + [Ch(line[i])];
    var closed := if EndsWith(Render(fixed), "\n") then fixed else fixed + [Brk];
    StepBreakShape(line, i, useColors, breakLimit, s);
    ClosedSource(s.done, fixed, closed);
    Snoc(s.fixed, Ch(line[i]));
    assert line[i..i + 1] == [line[i]];
    Regroup(SourceAll(s.done), Source(s.fixed), [line[i]]);
  }

  /** Any other character is appended to the pending line. */
  lemma StepCharShape(line: string, i: nat, useColors: bool, breakLimit: int, s: Scan)
    requires i < |line|
    requires !WindowAt(line, i, useColors)
    requires !(|Render(s.fixed + [Ch(line[i])])| >= s.limit + s.colors * ColorLength
               && !(|line| > i + 1 && line[i + 1] == '\n'))
    ensures Step(line, i, useColors, breakLimit, s) == Next(i + 1, s.(fixed := s.fixed + [Ch(line[i])]))
  {
  }

  lemma StepCharSource(line: string, i: nat, useColors: bool, breakLimit: int, s: Scan)
    requires i < |line|
    requires ScanOk(s)
    requires !WindowAt(line, i, useColors)
    requires !(|Render(s.fixed + [Ch(line[i])])| >= s.limit + s.colors * ColorLength
               && !(|line| > i + 1 && line[i + 1] == '\n'))
    ensures StepReads(line, i, useColors, breakLimit, s)
  {
    StepCharShape(line, i, useColors, breakLimit, s);
    Snoc(s.fixed, Ch(line[i]));
    assert line[i..i + 1] == [line[i]];
    Regroup(SourceAll(s.done), Source(s.fixed), [line[i]]);
  }

  /** One step keeps the pending-line invariant and reads exactly the
      characters it steps over. */
  lemma StepSource(line: string, i: nat, useColors: bool, breakLimit: int, s: Scan)
    requires i < |line|
    requires ScanOk(s)
    ensures StepReads(line, i, useColors, breakLimit, s)
  {
    if WindowAt(line, i, useColors) {
      StepWindowSource(line, i, useColors, breakLimit, s);
    } else if |Render(s.fixed + [Ch(line[i])])| >= s.limit + s.colors * ColorLength
              && !(|line| > i + 1 && line[i + 1] == '\n') {
      StepBreakSource(line, i, useColors, breakLimit, s);
    } else {
      StepCharSource(line, i, useColors, breakLimit, s);
    }
  }

  /** Reading `line[i..j]` and then `line[j..]` reads `line[i..]`. */
  lemma ReadOn(line: string, i: nat, j: nat, before: string, mid: string, after: string)
    requires i <= j <= |line|
    requires mid == before + line[i..j]
    requires after == mid + line[j..]
    ensures after == before + line[i..]
  {
    assert line[i..] == line[i..j] + line[j..];
  }

  /** The scan of one input line reads every character of it exactly once. */
  lemma {:induction false} ScanLineSource(line: string, i: nat, useColors: bool, breakLimit: int, s: Scan)
    requires i <= |line|
    requires ScanOk(s)
    ensures ScanOk(ScanLine(line, i, useColors, breakLimit, s))
    ensures SourceAll(ScanLine(line, i, useColors, breakLimit, s).done)
              + Source(ScanLine(line, i, useColors, breakLimit, s).fixed)
            == SourceAll(s.done) + Source(s.fixed) + line[i..]
    decreases |line| - i
  {
    if i < |line| {
      var n := Step(line, i, useColors, breakLimit, s);
      var r := ScanLine(line, n.at, useColors, breakLimit, n.scan);
      StepSource(line, i, useColors, breakLimit, s);
      ScanLineSource(line, n.at, useColors, breakLimit, n.scan);
      ReadOn(line, i, n.at, SourceAll(s.done) + Source(s.fixed),
             SourceAll(n.scan.done) + Source(n.scan.fixed), SourceAll(r.done) + Source(r.fixed));
    }
  }

  /** One input line, scanned and flushed, adds exactly its characters. */
  lemma PieceSource(piece: string, useColors: bool, breakLimit: int, s: Scan)
    ensures var t := ScanLine(piece, 0, useColors, breakLimit, s.(fixed := [], colors := 0));
      SourceAll(Flush(t.done, t.fixed)) == SourceAll(s.done) + piece
  {
    var s0 := s.(fixed := [], colors := 0);
    var t := ScanLine(piece, 0, useColors, breakLimit, s0);
    ScanLineSource(piece, 0, useColors, breakLimit, s0);
    WholePiece(SourceAll(s.done), Source(s0.fixed), piece);
    FlushSourceEq(t.done, t.fixed, SourceAll(s.done) + piece);
  }

  lemma WholePiece(a: string, b: string, piece: string)
    requires b == []
    ensures a + b + piece[0..] == a + piece
  {
    assert piece[0..] == piece;
  }

  lemma FlushSourceEq(done: seq<seq<Token>>, fixed: seq<Token>, text: string)
    requires PendingTokens(fixed)
    requires SourceAll(done) + Source(fixed) == text
    ensures SourceAll(Flush(done, fixed)) == text
  {
    FlushSource(done, fixed);
  }

  /** Across input lines: the emitted lines read exactly the input. */
  lemma {:induction false} ScanAllSource(pieces: seq<string>, useColors: bool, breakLimit: int, s: Scan)
    ensures SourceAll(ScanAll(pieces, useColors, breakLimit, s).done) == SourceAll(s.done) + Flatten(pieces)
    decreases |pieces|
  {
    if |pieces| > 0 {
      var t := ScanLine(pieces[0], 0, useColors, breakLimit, s.(fixed := [], colors := 0));
      var u := t.(done := Flush(t.done, t.fixed), fixed := [], colors := 0);
      PieceSource(pieces[0], useColors, breakLimit, s);
      ScanAllSource(pieces[1..], useColors, breakLimit, u);
    }
  }

  /** Nothing lost: apart from the breaks it adds and the characters the
      lone-window merge deletes, the splitter's output is its input, in order. */
  lemma SplitLinesKeepsInput(width: int, position: int, margin: int, indentsSum: int,
                             useColors: bool, pieces: seq<string>)
    ensures SourceAll(SplitLines(width, position, margin, indentsSum, useColors, pieces).lines)
            == Flatten(pieces)
  {
    ScanAllSource(pieces, useColors, BreakLimit(width, indentsSum),
                  Scan([], [], 0, FirstLimit(width, position, margin), false));
  }

  /** A lone line break comes out as one line holding just that break. */
  lemma SplitNewline(width: int, position: int, margin: int, indentsSum: int, useColors: bool)
    ensures SplitLines(width, position, margin, indentsSum, useColors, ["\n"]).lines == [[Ch('\n')]]
  {
    var s0 := Scan([], [], 0, FirstLimit(width, position, margin), false);
    var b := BreakLimit(width, indentsSum);
    var t := ScanLine("\n", 0, useColors, b, s0);
    NewlineStep(useColors, b, s0);
    assert ScanLine("\n", 0, useColors, b, s0) == Step("\n", 0, useColors, b, s0).scan;
    FlushNewline(t.done, t.fixed);
    assert ["\n"][1..] == [];
  }

  lemma NewlineStep(useColors: bool, breakLimit: int, s: Scan)
    requires s.done == [] && s.fixed == []
    ensures Step("\n", 0, useColors, breakLimit, s).at == 1
    ensures var n := Step("\n", 0, useColors, breakLimit, s);
      || (n.scan.done == [[Ch('\n')]] && n.scan.fixed == [])
      || (n.scan.done == [] && n.scan.fixed == [Ch('\n')])
  {
    var one := [Ch('\n')];
    assert Render(one) == "\n" by { assert one[..0] == []; }
    assert !WindowAt("\n", 0, useColors);
    assert [] + one == one;
  }

  lemma FlushNewline(done: seq<seq<Token>>, fixed: seq<Token>)
    requires || (done == [[Ch('\n')]] && fixed == [])
             || (done == [] && fixed == [Ch('\n')])
    ensures Flush(done, fixed) == [[Ch('\n')]]
  {
    var one := [Ch('\n')];
    assert Render(one) == "\n" by { assert one[..0] == []; }
    assert Render([]) == [];
  }
}

=== FILE: writer.dfy ===
/** The printer's state machine (pyprinter/printer.py): `write`, `write_line`,
    the indentation groups `_TextGroup`, and the small compositions
    `write_title` and `write_aligned`.

    Everything `write` hands to its sink is collected, in order, in a
    sequence of strings; the printer's fields are an immutable record that
    each operation returns updated. The console width is the raw value the
    width query returned (`query`); only its fallback is modelled. */
module Writer {
  import opened Outcomes
  import opened TextUtil
  import opened Ansi
  import opened Wrap
  import opened WrapScan

  /** The fields of `Printer` that `write` and the groups read and update. */
  datatype Printer = Printer(
    colors: bool,
    widthLimit: bool,
    inLine: bool,
    lastPosition: nat,
    isFirstLine: bool,
    indents: seq<int>,
    indentsSum: int)

  /** What the class keeps true between calls: `indents_sum` is the sum of
      the open groups' units, and the first-line flag is only set inside a
      group (so `_indents[-1]` exists whenever it is read). */
  predicate Valid(p: Printer) {
    && p.indentsSum == Sum(p.indents)
    && (p.isFirstLine ==> |p.indents| > 0)
  }

  /** `Printer(writer, colors, width_limit)` (lines 95-112). */
  function NewPrinter(colors: bool, widthLimit: bool): (p: Printer)
    ensures Valid(p)
    ensures !p.inLine && p.lastPosition == 0 && |p.indents| == 0
  {
    Printer(colors, widthLimit, false, 0, false, [], 0)
  }

  /** `get_console_width()` after the query: a non-positive width falls back to 80. */
  function ConsoleWidth(query: int): (w: int)
    ensures w > 0
    ensures query > 0 ==> w == query
  {
    if query <= 0 then 80 else query
  }

  /** The indentation the first output line still needs (line 132): while
      the first-line flag is set, the innermost group's indent is not due. */
  function Margin(p: Printer): int
    requires p.isFirstLine ==> |p.indents| > 0
  {
    if p.isFirstLine then p.indentsSum - p.indents[|p.indents| - 1] else p.indentsSum
  }

  // ---------------------------------------------------------------------
  // The loop of `write` over the lines (lines 196-214)

  /** How a line is shown: with colours off its codes are stripped; with
      colours on, a line that does not start with a code gets the last
      colour in front of it. */
  function Shown(line: string, colors: bool, lastColor: Match): (r: string)
    requires ValidMatch(lastColor)
    ensures ShownFrom(line, r, colors)
  {
    if !colors then Strip(line)
    else if MatchPrefix(line).None? then
      RebuildRecognised(lastColor, line);
      Rebuild(lastColor) + line
    else line
  }

  /** The colour the next line inherits: the last code of the shown line. */
  function LastCode(shown: string): (m: Match)
    requires MatchPrefix(shown).Some?
    ensures ValidMatch(m)
  {
    var ms := FindAll(shown);
    ms[|ms| - 1]
  }

  /** The loop's state: what was sent to the sink, the shown lines, the
      in-line flag and the last colour. */
  datatype Pass = Pass(out: seq<string>, shown: seq<string>, inLine: bool, lastColor: Match)

  /** One turn of the loop: the margin (only at a line start), the shown
      line, then the in-line flag and the colour carried to the next line. */
  function EmitLine(st: Pass, line: string, colors: bool, indentsSum: int): (r: Pass)
    requires ValidMatch(st.lastColor)
    ensures ValidMatch(r.lastColor)
    ensures r.shown == st.shown + [Shown(line, colors, st.lastColor)]
    ensures r.inLine == !EndsWith(r.shown[|r.shown| - 1], "\n")
    ensures colors ==> MatchPrefix(r.shown[|r.shown| - 1]).Some? && r.lastColor == LastCode(r.shown[|r.shown| - 1])
    ensures |r.out| > |st.out|
  {
    var shown := Shown(line, colors, st.lastColor);
    var margin := if st.inLine then [] else [Spaces(indentsSum)];
    Pass(st.out + margin + [shown], st.shown + [shown], !EndsWith(shown, "\n"),
         if colors then LastCode(shown) else st.lastColor)
  }

  /** The whole loop, from the printer's in-line flag and the reset colour. */
  function Emit(lines: seq<string>, colors: bool, indentsSum: int, inLine: bool): (r: Pass)
    ensures ValidMatch(r.lastColor)
    ensures |r.shown| == |lines|
    ensures |lines| == 0 ==> r.inLine == inLine && r.out == []
    ensures |lines| > 0 ==> r.inLine == !EndsWith(r.shown[|lines| - 1], "\n")
    ensures |r.out| >= |lines|
    decreases |lines|
  {
    if |lines| == 0 then Pass([], [], inLine, NormalMatch)
    else
      var n := |lines| - 1;
      EmitLine(Emit(lines[..n], colors, indentsSum, inLine), lines[n], colors, indentsSum)
  }

  /** What `write` makes of one line: its codes stripped (colours off), or
      the line itself behind a recognised code (colours on). */
  predicate ShownFrom(line: string, shown: string, colors: bool) {
    if colors then MatchPrefix(shown).Some? && EndsWith(shown, line) else shown == Strip(line)
  }

  /** Every shown line is made from its input line. */
  lemma {:induction false} EmitShows(lines: seq<string>, colors: bool, indentsSum: int, inLine: bool)
    ensures forall k :: 0 <= k < |lines| ==> ShownFrom(lines[k], Emit(lines, colors, indentsSum, inLine).shown[k], colors)
    decreases |lines|
  {
    if |lines| > 0 {
      var n := |lines| - 1;
      var prev := Emit(lines[..n], colors, indentsSum, inLine);
      EmitShows(lines[..n], colors, indentsSum, inLine);
      var last := Shown(lines[n], colors, prev.lastColor);
      assert ShownFrom(lines[n], last, colors);
      assert Emit(lines, colors, indentsSum, inLine).shown == prev.shown + [last];
      ShownSnoc(lines, prev.shown, last, colors);
    }
  }

  lemma ShownSnoc(lines: seq<string>, shown: seq<string>, last: string, colors: bool)
    requires |lines| > 0 && |shown| == |lines| - 1
    requires forall k :: 0 <= k < |shown| ==> ShownFrom(lines[..|shown|][k], shown[k], colors)
    requires ShownFrom(lines[|shown|], last, colors)
    ensures forall k :: 0 <= k < |lines| ==> ShownFrom(lines[k], (shown + [last])[k], colors)
  {
    forall k | 0 <= k < |lines|
      ensures ShownFrom(lines[k], (shown + [last])[k], colors)
    {
      if k < |shown| {
        assert lines[..|shown|][k] == lines[k];
      }
    }
  }

  // ---------------------------------------------------------------------
  // `write`

  /** The lines `write` prints and the state after the split: the split
      lines when the width is limited (a forced break clears the cursor
      position and the first-line flag), the text's own lines otherwise. */
  datatype Layout = Layout(lines: seq<string>, printer: Printer)

  function LayOut(p: Printer, query: int, pieces: seq<string>): (r: Layout)
    requires p.isFirstLine ==> |p.indents| > 0
    ensures r.printer.indents == p.indents && r.printer.indentsSum == p.indentsSum
    ensures r.printer.inLine == p.inLine && r.printer.colors == p.colors
    ensures r.printer.isFirstLine ==> p.isFirstLine
    ensures !p.widthLimit ==> r == Layout(pieces, p)
  {
    if p.widthLimit then
      var split := SplitLines(ConsoleWidth(query), p.lastPosition, Margin(p), p.indentsSum, p.colors, pieces);
      Layout(RenderAll(split.lines),
             if split.broke then p.(lastPosition := 0, isFirstLine := false) else p)
    else Layout(pieces, p)
  }

  /** The cursor bookkeeping after the loop (lines 216-229). */
  function Settle(p: Printer, lines: seq<string>): (r: Printer)
    ensures r.indents == p.indents && r.indentsSum == p.indentsSum && r.colors == p.colors
    ensures r.widthLimit == p.widthLimit && r.inLine == p.inLine
    ensures r.isFirstLine ==> p.isFirstLine
    ensures |lines| == 0 ==> r.lastPosition == 0 && r.isFirstLine == p.isFirstLine
    ensures |lines| > 0 && EndsWith(lines[|lines| - 1], "\n") ==> r.lastPosition == 0 && !r.isFirstLine
    ensures |lines| > 0 && !EndsWith(lines[|lines| - 1], "\n") ==>
      var last := lines[|lines| - 1];
      && r.isFirstLine == p.isFirstLine
      && r.lastPosition == p.lastPosition + |if p.colors then Strip(last) else last|
  {
    if |lines| == 0 then p.(lastPosition := 0)
    else
      var last := lines[|lines| - 1];
      if EndsWith(last, "\n") then p.(lastPosition := 0, isFirstLine := false)
      else p.(lastPosition := p.lastPosition + |if p.colors then Strip(last) else last|)
  }

  /** What a call sends to the sink, and the printer afterwards. */
  datatype Written = Written(out: seq<string>, printer: Printer)

  /** `Printer.write(text)` (lines 181-233). The only demand on the state
      is the one `_indents[-1]` makes: the first-line flag is set only
      inside a group. */
  function Write(p: Printer, query: int, text: string): (r: Written)
    requires p.isFirstLine ==> |p.indents| > 0
    ensures Valid(p) ==> Valid(r.printer)
    ensures r.printer.indents == p.indents && r.printer.indentsSum == p.indentsSum
    ensures r.printer.colors == p.colors && r.printer.widthLimit == p.widthLimit
    ensures r.printer.isFirstLine ==> p.isFirstLine
  {
    var layout := LayOut(p, query, SplitKeepEnds(text));
    var e := Emit(layout.lines, p.colors, p.indentsSum, p.inLine);
    var after := Settle(layout.printer.(inLine := e.inLine), layout.lines);
    Written(e.out + (if p.colors && !EndsWith(text, Normal) then [Normal] else []), after)
  }

  /** `Printer.write_line(text)` (lines 235-242). */
  function WriteLine(p: Printer, query: int, text: string): (r: Written)
    requires p.isFirstLine ==> |p.indents| > 0
    ensures Valid(p) ==> Valid(r.printer)
    ensures r.printer.indents == p.indents && r.printer.indentsSum == p.indentsSum
  {
    Write(p, query, text + "\n")
  }

  // ---------------------------------------------------------------------
  // Indentation groups: `_TextGroup` (lines 31-55)

  /** `__enter__`: a group opened in the middle of a line makes the next
      line a first line; the unit is pushed and added to the sum. */
  function Enter(p: Printer, unit: int): (r: Printer)
    ensures Valid(p) ==> Valid(r)
    ensures r.indents == p.indents + [unit]
    ensures r.isFirstLine == (p.inLine || p.isFirstLine)
  {
    var r := p.(isFirstLine := p.inLine || p.isFirstLine,
                indents := p.indents + [unit], indentsSum := p.indentsSum + unit);
    assert r.indents[..|r.indents| - 1] == p.indents;
    r
  }

  /** `__exit__`: the first-line flag is cleared, the top unit is popped
      (an empty stack raises), the group's own unit is subtracted, and a
      line break is written iff the group asks for one and the cursor is
      inside a line. */
  function Exit(p: Printer, query: int, unit: int, addLine: bool): (r: Result<Written>)
    ensures |p.indents| == 0 <==> r.Err?
    ensures r.Err? ==> r.error == IndexError
    ensures r.Ok? ==> r.value.printer.indents == p.indents[..|p.indents| - 1]
    ensures r.Ok? ==> r.value.printer.indentsSum == p.indentsSum - unit
    ensures r.Ok? ==> !r.value.printer.isFirstLine
    ensures r.Ok? && !(addLine && p.inLine) ==> r.value.out == [] && r.value.printer.inLine == p.inLine
    ensures r.Ok? && addLine && p.inLine ==> r.value.printer.lastPosition == 0
    ensures r.Ok? && addLine ==> !r.value.printer.inLine
    ensures r.Ok? ==> (r.value.out != [] <==> addLine && p.inLine)
  {
    if |p.indents| == 0 then Err(IndexError)
    else
      var q := p.(isFirstLine := false, indents := p.indents[..|p.indents| - 1],
                  indentsSum := p.indentsSum - unit);
      if addLine && p.inLine then
        var w := WriteLine(q, query, "");
        NewlineSettles(q, query);
        Ok(w)
      else Ok(Written([], q))
  }

  lemma NewlinePieces()
    ensures SplitKeepEnds("\n") == ["\n"]
  {
    assert LineEnd("\n", 0) == 1;
    assert "\n"[1..] == [];
    assert "\n"[..1] == "\n";
  }

  /** A lone line break is laid out as itself, whatever the width. */
  lemma NewlineLaidOut(p: Printer, query: int)
    requires p.isFirstLine ==> |p.indents| > 0
    ensures LayOut(p, query, SplitKeepEnds("\n")).lines == ["\n"]
  {
    NewlinePieces();
    if p.widthLimit {
      var split := SplitLines(ConsoleWidth(query), p.lastPosition, Margin(p), p.indentsSum, p.colors, ["\n"]);
      SplitNewline(ConsoleWidth(query), p.lastPosition, Margin(p), p.indentsSum, p.colors);
      var one := [Ch('\n')];
      assert Render(one) == "\n" by { assert one[..0] == []; }
      assert RenderAll([one]) == ["\n"];
    }
  }

  /** A shown line break keeps its break, so the cursor leaves the line. */
  lemma NewlineEmitted(colors: bool, indentsSum: int, inLine: bool)
    ensures !Emit(["\n"], colors, indentsSum, inLine).inLine
  {
    var e := Emit(["\n"], colors, indentsSum, inLine);
    EmitShows(["\n"], colors, indentsSum, inLine);
    assert ShownFrom("\n", e.shown[0], colors);
    if !colors {
      FindAllPlain("\n");
    }
    assert EndsWith(e.shown[0], "\n");
  }

  /** `write_line()` ends the line: the cursor is back at column 0. */
  lemma NewlineSettles(p: Printer, query: int)
    requires p.isFirstLine ==> |p.indents| > 0
    ensures !WriteLine(p, query, "").printer.inLine
    ensures WriteLine(p, query, "").printer.lastPosition == 0
    ensures WriteLine(p, query, "").out != []
  {
    assert "" + "\n" == "\n";
    NewlineLaidOut(p, query);
    NewlineEmitted(p.colors, p.indentsSum, p.inLine);
    NewlineWrites(p, query);
  }

  lemma NewlineWrites(p: Printer, query: int)
    requires p.isFirstLine ==> |p.indents| > 0
    requires LayOut(p, query, SplitKeepEnds("\n")).lines == ["\n"]
    ensures WriteLine(p, query, "").out != []
  {
    assert "" + "\n" == "\n";
    var e := Emit(["\n"], p.colors, p.indentsSum, p.inLine);
    assert |e.out| >= 1;
  }

  // ---------------------------------------------------------------------
  // Scripts: a sequence of calls on one printer

  /** The printer calls the compositions are made of. */
  datatype Op =
    | Put(text: string)                    // write(text)
    | PutLine(text: string)                // write_line(text)
    | Open(unit: int)                      // entering `with printer.group(unit, ...)`
    | Close(unit: int, addLine: bool)      // leaving it

  function Apply(p: Printer, query: int, op: Op): (r: Result<Written>)
    requires p.isFirstLine ==> |p.indents| > 0
    ensures r.Ok? ==> (r.value.printer.isFirstLine ==> |r.value.printer.indents| > 0)
  {
    match op
    case Put(text) => Ok(Write(p, query, text))
    case PutLine(text) => Ok(WriteLine(p, query, text))
    case Open(unit) => Ok(Written([], Enter(p, unit)))
    case Close(unit, addLine) => Exit(p, query, unit, addLine)
  }

  /** Runs a script, collecting everything sent to the sink; an exception
      ends the run. */
  function Run(p: Printer, query: int, ops: seq<Op>): (r: Result<Written>)
    requires p.isFirstLine ==> |p.indents| > 0
    ensures r.Ok? ==> (r.value.printer.isFirstLine ==> |r.value.printer.indents| > 0)
    decreases |ops|
  {
    if |ops| == 0 then Ok(Written([], p))
    else
      var w :- Apply(p, query, ops[0]);
      var rest :- Run(w.printer, query, ops[1..]);
      Ok(Written(w.out + rest.out, rest.printer))
  }

  /** A group entered and left restores the indentation stack and its sum,
      and leaves the first-line flag cleared. */
  lemma EnterExitRestores(p: Printer, query: int, unit: int, addLine: bool)
    ensures Exit(Enter(p, unit), query, unit, addLine).Ok?
    ensures Exit(Enter(p, unit), query, unit, addLine).value.printer.indents == p.indents
    ensures Exit(Enter(p, unit), query, unit, addLine).value.printer.indentsSum == p.indentsSum
    ensures Valid(p) ==> Valid(Exit(Enter(p, unit), query, unit, addLine).value.printer)
  {
    var e := Enter(p, unit);
    assert e.indents[..|e.indents| - 1] == p.indents;
  }

  /** Leaving the innermost group with its own unit keeps the state valid. */
  lemma ExitKeepsValid(p: Printer, query: int, addLine: bool)
    requires Valid(p) && |p.indents| > 0
    ensures Valid(Exit(p, query, p.indents[|p.indents| - 1], addLine).value.printer)
  {
  }

  // ---------------------------------------------------------------------
  // Compositions (lines 244-292)

  /** `write_title(title, title_color, hyphen_line_color)`: the title, then
      a line of `=` three longer than the title. */
  function WriteTitle(title: string, titleColor: string, lineColor: string): (ops: seq<Op>)
    ensures |ops| == 2 && ops[0] == PutLine(titleColor + title)
    ensures ops[1].PutLine? && StartsWith(ops[1].text, lineColor)
    ensures |ops[1].text| == |lineColor| + |title| + 3
    ensures forall i :: |lineColor| <= i < |ops[1].text| ==> ops[1].text[i] == '='
  {
    [PutLine(titleColor + title), PutLine(lineColor + Repeat("=", |title| + 3))]
  }

  /** The value of an aligned pair: `None` (nothing is printed), a single
      value already converted with `str`, or a list. */
  datatype Value = Absent | Scalar(text: string) | Items(items: seq<string>)

  /** `align_size or min(32, get_console_width() // 2)`: a missing or zero
      size falls back to half the console, at most 32 columns. */
  function AlignSize(alignSize: Option<int>, query: int): (a: int)
    ensures alignSize.Some? && alignSize.value != 0 ==> a == alignSize.value
    ensures (alignSize.None? || alignSize.value == 0) ==>
      && 0 <= a <= 32 && 2 * a <= ConsoleWidth(query)
      && (a == 32 || ConsoleWidth(query) < 2 * a + 2)
  {
    if alignSize.Some? && alignSize.value != 0 then alignSize.value
    else
      var half := ConsoleWidth(query) / 2;
      if half < 32 then half else 32
  }

  function ValueLines(v: Value, color: string): (ops: seq<Op>)
    ensures v.Scalar? ==> ops == [PutLine(color + v.text)]
    ensures v.Items? ==> |ops| == |v.items|
    ensures v.Items? ==> forall i :: 0 <= i < |v.items| ==> ops[i] == PutLine(color + v.items[i])
    ensures v.Absent? ==> ops == []
    decreases if v.Items? then |v.items| else 0
  {
    match v
    case Absent => []
    case Scalar(t) => [PutLine(color + t)]
    case Items(xs) => if |xs| == 0 then [] else [PutLine(color + xs[0])] + ValueLines(Items(xs[1..]), color)
  }

  /** `write_aligned(key, value, ...)`: the key and separator in the key
      colour, spaces up to the alignment column, then the value lines in a
      group indented to that column; keys listed as not important use the
      dark colours. */
  function WriteAligned(key: string, value: Value, notImportant: seq<string>, align: int,
                        keyColor: string, valueColor: string, darkKeyColor: string,
                        darkValueColor: string, separator: string): (ops: seq<Op>)
    ensures value.Absent? ==> ops == []
    ensures !value.Absent? ==> 4 <= |ops| && ops[2] == Open(align) && ops[|ops| - 1] == Close(align, true)
    ensures !value.Absent? ==> ops[0].Put? && ops[1].Put?
    ensures !value.Absent? ==> EndsWith(ops[0].text, key + separator)
    ensures !value.Absent? && |separator| == 1 ==>
      |key + separator| + |ops[1].text| == (if align > |key| + 1 then align else |key| + 1)
    ensures !value.Absent? ==>
      ops[0].text == (if key in notImportant then darkKeyColor else keyColor) + key + separator
    ensures !value.Absent? ==>
      ops[3..|ops| - 1] == ValueLines(value, if key in notImportant then darkValueColor else valueColor)
  {
    if value.Absent? then []
    else
      var important := key !in notImportant;
      var kc := if important then keyColor else darkKeyColor;
      var vc := if important then valueColor else darkValueColor;
      [Put(kc + key + separator), Put(Spaces(align - |key| - 1)), Open(align)]
        + ValueLines(value, vc) + [Close(align, true)]
  }
}

=== FILE: writer_proofs.dfy ===
/** Properties of `write` and of the scripts the compositions run
    (pyprinter/printer.py, lines 181-292). */
module WriterProofs {
  import opened Outcomes
  import opened TextUtil
  import opened Ansi
  import opened Writer

  // ---------------------------------------------------------------------
  // Colour carry-over

  /** The colour a shown line passes on: the last code of the line before
      it, and the reset colour for the first line (with colours on every
      shown line starts with a code, so the fallback is never taken). */
  function Inherited(shown: seq<string>, k: nat): (m: Match)
    requires k <= |shown|
    ensures ValidMatch(m)
  {
    if k == 0 || MatchPrefix(shown[k - 1]).None? then NormalMatch else LastCode(shown[k - 1])
  }

  /** With colours on, the first line is shown with the reset colour and
      every later line with the last code of the line shown before it. */
  predicate Carried(lines: seq<string>, shown: seq<string>)
    requires |shown| == |lines|
  {
    forall k :: 0 <= k < |lines| ==> shown[k] == Shown(lines[k], true, Inherited(shown, k))
  }

  lemma {:induction false} EmitCarries(lines: seq<string>, indentsSum: int, inLine: bool)
    ensures Carried(lines, Emit(lines, true, indentsSum, inLine).shown)
    decreases |lines|
  {
    if |lines| > 0 {
      var n := |lines| - 1;
      var prev := Emit(lines[..n], true, indentsSum, inLine);
      EmitCarries(lines[..n], indentsSum, inLine);
      EmitPassesOn(lines[..n], indentsSum, inLine);
      EmitSnoc(lines, true, indentsSum, inLine);
      CarriedSnoc(lines, prev.shown, prev.lastColor);
    }
  }

  /** The colour the loop carries is the one `Inherited` names. */
  lemma EmitPassesOn(lines: seq<string>, indentsSum: int, inLine: bool)
    ensures var e := Emit(lines, true, indentsSum, inLine); e.lastColor == Inherited(e.shown, |lines|)
  {
  }

  /** One more line adds one shown line. */
  lemma EmitSnoc(lines: seq<string>, colors: bool, indentsSum: int, inLine: bool)
    requires |lines| > 0
    ensures var prev := Emit(lines[..|lines| - 1], colors, indentsSum, inLine);
            Emit(lines, colors, indentsSum, inLine).shown
              == prev.shown + [Shown(lines[|lines| - 1], colors, prev.lastColor)]
  {
  }

  lemma CarriedSnoc(lines: seq<string>, shown: seq<string>, lastColor: Match)
    requires |lines| > 0 && |shown| == |lines| - 1
    requires Carried(lines[..|shown|], shown)
    requires ValidMatch(lastColor) && lastColor == Inherited(shown, |shown|)
    ensures Carried(lines, shown + [Shown(lines[|shown|], true, lastColor)])
  {
    var x := Shown(lines[|shown|], true, lastColor);
    var all := shown + [x];
    forall k | 0 <= k < |lines|
      ensures all[k] == Shown(lines[k], true, Inherited(all, k))
    {
      InheritedSnoc(shown, x, k);
      if k < |shown| {
        CarriedAt(lines[..|shown|], shown, k);
        assert lines[..|shown|][k] == lines[k];
      }
    }
  }

  lemma InheritedSnoc(shown: seq<string>, x: string, k: nat)
    requires k <= |shown|
    ensures Inherited(shown + [x], k) == Inherited(shown, k)
    ensures k < |shown| ==> (shown + [x])[k] == shown[k]
    ensures (shown + [x])[|shown|] == x
  {
    assert k > 0 ==> (shown + [x])[k - 1] == shown[k - 1];
  }

  lemma CarriedAt(lines: seq<string>, shown: seq<string>, k: nat)
    requires |shown| == |lines| && k < |lines|
    requires Carried(lines, shown)
    ensures shown[k] == Shown(lines[k], true, Inherited(shown, k))
  {
  }

  // ---------------------------------------------------------------------
  // Margins

  /** The indentation written before a line: only at a line start. */
  function MarginFor(inLine: bool, indentsSum: int): seq<string> {
    if inLine then [] else [Spaces(indentsSum)]
  }

  /** The cursor state after some shown lines. */
  function InLineAfter(shown: seq<string>, inLine: bool): bool {
    if |shown| == 0 then inLine else !EndsWith(shown[|shown| - 1], "\n")
  }

  /** Reference reading of what the loop sends to the sink, front to back:
      each shown line, behind the margin exactly when the previous shown
      line ended with a line break (or, for the first, when the printer was
      not inside a line). */
  function Framed(shown: seq<string>, inLine: bool, indentsSum: int): seq<string>
    decreases |shown|
  {
    if |shown| == 0 then []
    else MarginFor(inLine, indentsSum) + [shown[0]] + Framed(shown[1..], !EndsWith(shown[0], "\n"), indentsSum)
  }

  lemma {:induction false} FramedSnoc(shown: seq<string>, x: string, inLine: bool, indentsSum: int)
    ensures Framed(shown + [x], inLine, indentsSum)
            == Framed(shown, inLine, indentsSum) + MarginFor(InLineAfter(shown, inLine), indentsSum) + [x]
    decreases |shown|
  {
    if |shown| == 0 {
      assert shown + [x] == [x];
      assert [x][1..] == [];
    } else {
      var rest := shown[1..];
      var next := !EndsWith(shown[0], "\n");
      var head := MarginFor(inLine, indentsSum) + [shown[0]];
      assert (shown + [x])[0] == shown[0];
      assert (shown + [x])[1..] == rest + [x];
      assert Framed(shown + [x], inLine, indentsSum) == head + Framed(rest + [x], next, indentsSum);
      assert Framed(shown, inLine, indentsSum) == head + Framed(rest, next, indentsSum);
      FramedSnoc(rest, x, next, indentsSum);
      assert InLineAfter(rest, next) == InLineAfter(shown, inLine);
      Regroup3(head, Framed(rest, next, indentsSum), MarginFor(InLineAfter(rest, next), indentsSum), [x]);
    }
  }

  lemma Regroup3<T>(a: seq<T>, b: seq<T>, c: seq<T>, d: seq<T>)
    ensures a + (b + c + d) == (a + b) + c + d
  {
  }

  /** The loop writes each shown line behind the margin it is due. */
  lemma {:induction false} EmitFramed(lines: seq<string>, colors: bool, indentsSum: int, inLine: bool)
    ensures Emit(lines, colors, indentsSum, inLine).out
            == Framed(Emit(lines, colors, indentsSum, inLine).shown, inLine, indentsSum)
    decreases |lines|
  {
    if |lines| > 0 {
      var n := |lines| - 1;
      var prev := Emit(lines[..n], colors, indentsSum, inLine);
      var e := Emit(lines, colors, indentsSum, inLine);
      assert prev.out == Framed(prev.shown, inLine, indentsSum) by {
        EmitFramed(lines[..n], colors, indentsSum, inLine);
      }
      assert e.shown == prev.shown + [e.shown[n]] by {
        EmitSnoc(lines, colors, indentsSum, inLine);
      }
      assert e.out == prev.out + MarginFor(prev.inLine, indentsSum) + [e.shown[n]] by {
        EmitSnoc(lines, colors, indentsSum, inLine);
        EmitOutSnoc(lines, colors, indentsSum, inLine);
      }
      FramedStep(prev.out, prev.shown, e.shown[n], inLine, prev.inLine, indentsSum, e.out, e.shown);
    }
  }

  lemma FramedStep(prevOut: seq<string>, prevShown: seq<string>, x: string, inLine: bool, prevInLine: bool,
                   indentsSum: int, out: seq<string>, shown: seq<string>)
    requires prevOut == Framed(prevShown, inLine, indentsSum)
    requires InLineAfter(prevShown, inLine) == prevInLine
    requires out == prevOut + MarginFor(prevInLine, indentsSum) + [x]
    requires shown == prevShown + [x]
    ensures out == Framed(shown, inLine, indentsSum)
  {
    FramedSnoc(prevShown, x, inLine, indentsSum);
  }

  lemma EmitOutSnoc(lines: seq<string>, colors: bool, indentsSum: int, inLine: bool)
    requires |lines| > 0
    ensures var prev := Emit(lines[..|lines| - 1], colors, indentsSum, inLine);
            Emit(lines, colors, indentsSum, inLine).out
              == prev.out + MarginFor(prev.inLine, indentsSum) + [Shown(lines[|lines| - 1], colors, prev.lastColor)]
  {
  }

  /** What `write` sends to the sink: the framed shown lines, then one reset
      code iff colours are on and the text does not already end with it. */
  lemma WriteOutput(p: Printer, query: int, text: string)
    requires p.isFirstLine ==> |p.indents| > 0
    ensures var lines := LayOut(p, query, SplitKeepEnds(text)).lines;
            var e := Emit(lines, p.colors, p.indentsSum, p.inLine);
            Write(p, query, text).out
              == Framed(e.shown, p.inLine, p.indentsSum) + (if p.colors && !EndsWith(text, Normal) then [Normal] else [])
  {
    var lines := LayOut(p, query, SplitKeepEnds(text)).lines;
    EmitFramed(lines, p.colors, p.indentsSum, p.inLine);
  }

  // ---------------------------------------------------------------------
  // Cursor bookkeeping

  /** How a shown line ends: colours on, it ends as its input line does. */
  lemma ShownNewline(line: string, colors: bool, lastColor: Match)
    requires ValidMatch(lastColor)
    ensures EndsWith(line, "\n") ==> EndsWith(Shown(line, colors, lastColor), "\n")
    ensures colors ==> (EndsWith(Shown(line, colors, lastColor), "\n") <==> EndsWith(line, "\n"))
  {
    var r := Shown(line, colors, lastColor);
    if !colors {
      if EndsWith(line, "\n") {
        StripKeepsNewline(line);
      }
    } else if MatchPrefix(line).None? {
      var code := Rebuild(lastColor);
      assert r == code + line;
      if |line| > 0 {
        assert r[|r| - 1] == line[|line| - 1];
        assert EndsWith(r, "\n") <==> r[|r| - 1] == '\n';
        assert EndsWith(line, "\n") <==> line[|line| - 1] == '\n';
      } else {
        assert r == code && r[|r| - 1] == 'm';
      }
    }
  }

  /** The cursor after `write`: the in-line flag follows the last line's
      break, and the position is 0 after a break or an empty text. */
  lemma WriteCursor(p: Printer, query: int, text: string)
    requires p.isFirstLine ==> |p.indents| > 0
    ensures var lines := LayOut(p, query, SplitKeepEnds(text)).lines;
            var r := Write(p, query, text).printer;
            && (|lines| == 0 ==> r.inLine == p.inLine && r.lastPosition == 0)
            && (|lines| > 0 && EndsWith(lines[|lines| - 1], "\n") ==>
                  !r.inLine && r.lastPosition == 0 && !r.isFirstLine)
            && (|lines| > 0 && p.colors ==> (r.inLine <==> !EndsWith(lines[|lines| - 1], "\n")))
  {
    var layout := LayOut(p, query, SplitKeepEnds(text));
    WriteSettles(p, query, text);
    EmitSettles(layout.printer, layout.lines);
  }

  /** The cursor facts of `EmitCursor`, carried through `Settle`. */
  lemma EmitSettles(q: Printer, lines: seq<string>)
    ensures var r := Settle(q.(inLine := Emit(lines, q.colors, q.indentsSum, q.inLine).inLine), lines);
            && (|lines| == 0 ==> r.inLine == q.inLine && r.lastPosition == 0)
            && (|lines| > 0 && EndsWith(lines[|lines| - 1], "\n") ==>
                  !r.inLine && r.lastPosition == 0 && !r.isFirstLine)
            && (|lines| > 0 && q.colors ==> (r.inLine <==> !EndsWith(lines[|lines| - 1], "\n")))
  {
    var e := Emit(lines, q.colors, q.indentsSum, q.inLine);
    EmitCursor(q, lines);
    SettleCursor(q, lines, if |lines| > 0 then e.shown[|lines| - 1] else [], e.inLine);
  }

  /** The last shown line ends with a break when its input line does, and
      (colours on) only then. */
  lemma EmitCursor(q: Printer, lines: seq<string>)
    ensures var e := Emit(lines, q.colors, q.indentsSum, q.inLine);
            var last := if |lines| > 0 then e.shown[|lines| - 1] else [];
            && (|lines| == 0 ==> e.inLine == q.inLine)
            && (|lines| > 0 ==> e.inLine == !EndsWith(last, "\n"))
            && (|lines| > 0 && EndsWith(lines[|lines| - 1], "\n") ==> EndsWith(last, "\n"))
            && (|lines| > 0 && q.colors ==> (EndsWith(last, "\n") <==> EndsWith(lines[|lines| - 1], "\n")))
  {
    if |lines| > 0 {
      EmitLastShown(lines, q.colors, q.indentsSum, q.inLine);
    }
  }

  lemma EmitLastShown(lines: seq<string>, colors: bool, indentsSum: int, inLine: bool)
    requires |lines| > 0
    ensures var last := Emit(lines, colors, indentsSum, inLine).shown[|lines| - 1];
            && (EndsWith(lines[|lines| - 1], "\n") ==> EndsWith(last, "\n"))
            && (colors ==> (EndsWith(last, "\n") <==> EndsWith(lines[|lines| - 1], "\n")))
  {
    var n := |lines| - 1;
    var prev := Emit(lines[..n], colors, indentsSum, inLine);
    EmitSnoc(lines, colors, indentsSum, inLine);
    assert Emit(lines, colors, indentsSum, inLine).shown[n] == Shown(lines[n], colors, prev.lastColor);
    ShownNewline(lines[n], colors, prev.lastColor);
  }

  lemma WriteSettles(p: Printer, query: int, text: string)
    requires p.isFirstLine ==> |p.indents| > 0
    ensures var layout := LayOut(p, query, SplitKeepEnds(text));
            var e := Emit(layout.lines, layout.printer.colors, layout.printer.indentsSum, layout.printer.inLine);
            Write(p, query, text).printer == Settle(layout.printer.(inLine := e.inLine), layout.lines)
  {
  }

  lemma SettleCursor(q: Printer, lines: seq<string>, shownLast: string, inLine: bool)
    requires |lines| == 0 ==> inLine == q.inLine
    requires |lines| > 0 ==> inLine == !EndsWith(shownLast, "\n")
    requires |lines| > 0 && EndsWith(lines[|lines| - 1], "\n") ==> EndsWith(shownLast, "\n")
    requires |lines| > 0 && q.colors ==> (EndsWith(shownLast, "\n") <==> EndsWith(lines[|lines| - 1], "\n"))
    ensures var r := Settle(q.(inLine := inLine), lines);
            && (|lines| == 0 ==> r.inLine == q.inLine && r.lastPosition == 0)
            && (|lines| > 0 && EndsWith(lines[|lines| - 1], "\n") ==>
                  !r.inLine && r.lastPosition == 0 && !r.isFirstLine)
            && (|lines| > 0 && q.colors ==> (r.inLine <==> !EndsWith(lines[|lines| - 1], "\n")))
  {
  }

  // ---------------------------------------------------------------------
  // Plain text

  lemma {:induction false} PlainPieces(xs: seq<string>)
    requires Plain(Flatten(xs))
    ensures forall k :: 0 <= k < |xs| ==> Plain(xs[k])
    decreases |xs|
  {
    if |xs| > 0 {
      assert forall i :: 0 <= i < |xs[0]| ==> xs[0][i] == Flatten(xs)[i];
      assert forall i :: 0 <= i < |Flatten(xs[1..])| ==> Flatten(xs[1..])[i] == Flatten(xs)[|xs[0]| + i];
      PlainPieces(xs[1..]);
      forall k | 1 <= k < |xs|
        ensures Plain(xs[k])
      {
        assert xs[k] == xs[1..][k - 1];
      }
    }
  }

  /** Without codes and without colours, every line is shown as it is. */
  lemma {:induction false} EmitPlain(lines: seq<string>, indentsSum: int, inLine: bool)
    requires forall k :: 0 <= k < |lines| ==> Plain(lines[k])
    ensures Emit(lines, false, indentsSum, inLine).shown == lines
    decreases |lines|
  {
    if |lines| > 0 {
      var n := |lines| - 1;
      var prev := Emit(lines[..n], false, indentsSum, inLine);
      assert forall k :: 0 <= k < n ==> lines[..n][k] == lines[k];
      EmitPlain(lines[..n], indentsSum, inLine);
      EmitSnoc(lines, false, indentsSum, inLine);
      ShownPlain(lines[n], prev.lastColor);
      SnocLast(lines);
    }
  }

  lemma ShownPlain(line: string, lastColor: Match)
    requires Plain(line) && ValidMatch(lastColor)
    ensures Shown(line, false, lastColor) == line
  {
    FindAllPlain(line);
  }

  lemma SnocLast(xs: seq<string>)
    requires |xs| > 0
    ensures xs[..|xs| - 1] + [xs[|xs| - 1]] == xs
  {
  }

  /** With no indentation the margins are empty. */
  lemma {:induction false} FramedFlat(shown: seq<string>, inLine: bool, indentsSum: int)
    requires indentsSum <= 0
    ensures Flatten(Framed(shown, inLine, indentsSum)) == Flatten(shown)
    decreases |shown|
  {
    if |shown| > 0 {
      var rest := Framed(shown[1..], !EndsWith(shown[0], "\n"), indentsSum);
      FramedFlat(shown[1..], !EndsWith(shown[0], "\n"), indentsSum);
      FlattenAppend(MarginFor(inLine, indentsSum) + [shown[0]], rest);
      FlattenAppend(MarginFor(inLine, indentsSum), [shown[0]]);
      assert Flatten([shown[0]]) == shown[0] by { assert [shown[0]][1..] == []; }
      if !inLine {
        assert Flatten([Spaces(indentsSum)]) == [] by { assert [Spaces(indentsSum)][1..] == []; }
      }
    }
  }

  /** Colours off, no width limit and no indentation: `write` prints plain
      text exactly as given. */
  lemma WritePlainText(p: Printer, query: int, text: string)
    requires p.isFirstLine ==> |p.indents| > 0
    requires !p.colors && !p.widthLimit && p.indentsSum <= 0 && Plain(text)
    ensures Flatten(Write(p, query, text).out) == text
  {
    var lines := SplitKeepEnds(text);
    SplitKeepEndsJoin(text);
    PlainPieces(lines);
    EmitPlain(lines, p.indentsSum, p.inLine);
    assert LayOut(p, query, lines).lines == lines;
    WriteOutput(p, query, text);
    var framed := Framed(lines, p.inLine, p.indentsSum);
    assert Write(p, query, text).out == framed + [];
    assert framed + [] == framed;
    FramedFlat(lines, p.inLine, p.indentsSum);
  }

  // ---------------------------------------------------------------------
  // Scripts

  /** A script of plain writes: no group is entered or left. */
  predicate Writes(ops: seq<Op>) {
    forall i :: 0 <= i < |ops| ==> ops[i].Put? || ops[i].PutLine?
  }

  /** The indentation stack one call expects, simulated without printing:
      entering a group pushes its unit, leaving one must pop the innermost
      unit; `None` when the unit left is not the innermost one. */
  function StackAfter(op: Op, stack: seq<int>): Option<seq<int>> {
    match op
    case Put(_) => Some(stack)
    case PutLine(_) => Some(stack)
    case Open(u) => Some(stack + [u])
    case Close(u, _) =>
      if |stack| > 0 && stack[|stack| - 1] == u then Some(stack[..|stack| - 1]) else None
  }

  /** The same for a whole script. */
  function Opened(ops: seq<Op>, stack: seq<int>): Option<seq<int>>
    decreases |ops|
  {
    if |ops| == 0 then Some(stack)
    else match StackAfter(ops[0], stack)
      case None => None
      case Some(next) => Opened(ops[1..], next)
  }

  lemma {:induction false} SumAppend(xs: seq<int>, ys: seq<int>)
    ensures Sum(xs + ys) == Sum(xs) + Sum(ys)
    decreases |ys|
  {
    if |ys| > 0 {
      var n := |ys| - 1;
      assert (xs + ys)[..|xs + ys| - 1] == xs + ys[..n];
      SumAppend(xs, ys[..n]);
    } else {
      assert xs + ys == xs;
    }
  }

  /** One call that nests properly succeeds and moves the printer's stack
      as simulated. */
  lemma ApplyFollowsStack(p: Printer, query: int, op: Op, base: seq<int>, stack: seq<int>)
    requires p.isFirstLine ==> |p.indents| > 0
    requires p.indents == base + stack && StackAfter(op, stack).Some?
    ensures var r := Apply(p, query, op);
            && r.Ok?
            && r.value.printer.indents == base + StackAfter(op, stack).value
            && r.value.printer.indentsSum - Sum(StackAfter(op, stack).value) == p.indentsSum - Sum(stack)
  {
    match op
    case Put(text) =>
      WriteKeepsStack(p, query, text, false);
    case PutLine(text) =>
      WriteKeepsStack(p, query, text, true);
    case Open(u) =>
      OpenFollowsStack(p, query, u, base, stack);
    case Close(u, addLine) =>
      CloseFollowsStack(p, query, u, addLine, base, stack);
      assert Apply(p, query, op) == Exit(p, query, u, addLine);
  }

  lemma WriteKeepsStack(p: Printer, query: int, text: string, line: bool)
    requires p.isFirstLine ==> |p.indents| > 0
    ensures var r := Apply(p, query, if line then PutLine(text) else Put(text));
            r.Ok? && r.value.printer.indents == p.indents && r.value.printer.indentsSum == p.indentsSum
  {
  }

  lemma OpenFollowsStack(p: Printer, query: int, u: int, base: seq<int>, stack: seq<int>)
    requires p.isFirstLine ==> |p.indents| > 0
    requires p.indents == base + stack
    ensures var r := Apply(p, query, Open(u));
            && r.Ok?
            && r.value.printer.indents == base + (stack + [u])
            && r.value.printer.indentsSum - Sum(stack + [u]) == p.indentsSum - Sum(stack)
  {
    assert (stack + [u])[..|stack|] == stack;
  }

  lemma CloseFollowsStack(p: Printer, query: int, u: int, addLine: bool, base: seq<int>, stack: seq<int>)
    requires p.indents == base + stack && |stack| > 0 && stack[|stack| - 1] == u
    ensures var r := Exit(p, query, u, addLine);
            && r.Ok?
            && r.value.printer.indents == base + stack[..|stack| - 1]
            && r.value.printer.indentsSum - Sum(stack[..|stack| - 1]) == p.indentsSum - Sum(stack)
  {
    assert p.indents[..|p.indents| - 1] == base + stack[..|stack| - 1];
    SumLast(stack);
  }

  lemma SumLast(xs: seq<int>)
    requires |xs| > 0
    ensures Sum(xs) == Sum(xs[..|xs| - 1]) + xs[|xs| - 1]
  {
  }

  lemma RunCons(p: Printer, query: int, ops: seq<Op>)
    requires p.isFirstLine ==> |p.indents| > 0
    requires |ops| > 0 && Apply(p, query, ops[0]).Ok?
    ensures var w := Apply(p, query, ops[0]).value;
            Run(w.printer, query, ops[1..]).Ok? ==>
              Run(p, query, ops).Ok? && Run(p, query, ops).value.printer == Run(w.printer, query, ops[1..]).value.printer
  {
  }

  /** A script whose groups nest properly never fails, and the printer's
      stack follows the simulated one: the base below it is untouched and
      the sum moves by exactly the units pushed and popped. */
  lemma {:induction false} RunFollowsStack(p: Printer, query: int, ops: seq<Op>, base: seq<int>, stack: seq<int>)
    requires p.isFirstLine ==> |p.indents| > 0
    requires p.indents == base + stack && Opened(ops, stack).Some?
    ensures var r := Run(p, query, ops);
            && r.Ok?
            && r.value.printer.indents == base + Opened(ops, stack).value
            && r.value.printer.indentsSum - Sum(Opened(ops, stack).value) == p.indentsSum - Sum(stack)
    decreases |ops|
  {
    if |ops| > 0 {
      var next := StackAfter(ops[0], stack).value;
      ApplyFollowsStack(p, query, ops[0], base, stack);
      var w := Apply(p, query, ops[0]).value;
      RunFollowsStack(w.printer, query, ops[1..], base, next);
      RunCons(p, query, ops);
    }
  }

  /** A script that ends by leaving a group with a line break ends at the
      start of a line, outside any first line. */
  lemma {:induction false} RunEndsClosed(p: Printer, query: int, ops: seq<Op>)
    requires p.isFirstLine ==> |p.indents| > 0
    requires |ops| > 0 && ops[|ops| - 1].Close? && ops[|ops| - 1].addLine
    requires Run(p, query, ops).Ok?
    ensures !Run(p, query, ops).value.printer.inLine && !Run(p, query, ops).value.printer.isFirstLine
    decreases |ops|
  {
    if |ops| == 1 {
      RunEndsOne(p, query, ops);
    } else {
      RunTail(p, query, ops);
      var w := Apply(p, query, ops[0]).value;
      assert ops[1..][|ops[1..]| - 1] == ops[|ops| - 1];
      RunEndsClosed(w.printer, query, ops[1..]);
    }
  }

  lemma RunEndsOne(p: Printer, query: int, ops: seq<Op>)
    requires p.isFirstLine ==> |p.indents| > 0
    requires |ops| == 1 && ops[0].Close? && ops[0].addLine
    requires Run(p, query, ops).Ok?
    ensures !Run(p, query, ops).value.printer.inLine && !Run(p, query, ops).value.printer.isFirstLine
  {
    RunTail(p, query, ops);
    assert ops[1..] == [];
    assert Apply(p, query, ops[0]) == Exit(p, query, ops[0].unit, true);
  }

  /** A run that succeeds succeeded on its first call and then on the rest. */
  lemma RunTail(p: Printer, query: int, ops: seq<Op>)
    requires p.isFirstLine ==> |p.indents| > 0
    requires |ops| > 0 && Run(p, query, ops).Ok?
    ensures Apply(p, query, ops[0]).Ok?
    ensures var w := Apply(p, query, ops[0]).value;
            && Run(w.printer, query, ops[1..]).Ok?
            && Run(p, query, ops).value.printer == Run(w.printer, query, ops[1..]).value.printer
  {
  }

  /** Scripts that nest properly keep the state valid. */
  lemma ScriptKeepsValid(p: Printer, query: int, ops: seq<Op>)
    requires Valid(p) && Opened(ops, []).Some?
    ensures Run(p, query, ops).Ok?
    ensures Valid(Run(p, query, ops).value.printer)
  {
    assert p.indents == p.indents + [];
    RunFollowsStack(p, query, ops, p.indents, []);
    SumAppend(p.indents, Opened(ops, []).value);
  }

  lemma {:induction false} OpenedWrites(ops: seq<Op>, stack: seq<int>)
    requires Writes(ops)
    ensures Opened(ops, stack) == Some(stack)
    decreases |ops|
  {
    if |ops| > 0 {
      OpenedWrites(ops[1..], stack);
    }
  }

  /** `write_aligned` nests its one group properly. */
  lemma AlignedNests(key: string, value: Value, notImportant: seq<string>, align: int, keyColor: string,
                     valueColor: string, darkKeyColor: string, darkValueColor: string, separator: string)
    ensures Opened(WriteAligned(key, value, notImportant, align, keyColor, valueColor,
                                darkKeyColor, darkValueColor, separator), []) == Some([])
  {
    if !value.Absent? {
      var important := key !in notImportant;
      var kc := if important then keyColor else darkKeyColor;
      var vc := if important then valueColor else darkValueColor;
      NestsAround(Put(kc + key + separator), Put(Spaces(align - |key| - 1)), ValueLines(value, vc), align);
    }
  }

  /** Two writes, then a group around plain writes: the stack ends empty. */
  lemma NestsAround(a: Op, b: Op, mid: seq<Op>, align: int)
    requires (a.Put? || a.PutLine?) && (b.Put? || b.PutLine?) && Writes(mid)
    ensures Opened([a, b, Open(align)] + mid + [Close(align, true)], []) == Some([])
  {
    var ops := [a, b, Open(align)] + mid + [Close(align, true)];
    assert ops[0] == a && ops[1..][0] == b;
    assert ops[1..][1..] == [Open(align)] + mid + [Close(align, true)];
    AlignedTail(mid, align);
  }

  /** A group around plain writes opens and closes its one unit. */
  lemma AlignedTail(mid: seq<Op>, align: int)
    requires Writes(mid)
    ensures Opened([Open(align)] + mid + [Close(align, true)], []) == Some([])
  {
    var ops := [Open(align)] + mid + [Close(align, true)];
    var tail := [Close(align, true)];
    assert ops[0] == Open(align) && ops[1..] == mid + tail;
    assert Opened(ops, []) == Opened(mid + tail, [align]) by {
      assert [] + [align] == [align];
    }
    OpenedWrites(mid, [align]);
    OpenedThrough(mid, tail, [align]);
    assert Opened(tail, [align]) == Some([]) by {
      assert [align][..0] == [];
      assert tail[1..] == [];
    }
  }

  lemma {:induction false} OpenedThrough(a: seq<Op>, b: seq<Op>, stack: seq<int>)
    requires Opened(a, stack) == Some(stack)
    requires Writes(a)
    ensures Opened(a + b, stack) == Opened(b, stack)
    decreases |a|
  {
    if |a| == 0 {
      assert a + b == b;
    } else {
      assert (a + b)[0] == a[0];
      assert (a + b)[1..] == a[1..] + b;
      OpenedWrites(a[1..], stack);
      OpenedThrough(a[1..], b, stack);
    }
  }

  /** `write_aligned` leaves the indentation as it found it and, when it
      printed a value, ends at the start of a fresh line. */
  lemma WriteAlignedRestores(p: Printer, query: int, key: string, value: Value, notImportant: seq<string>,
                             align: int, keyColor: string, valueColor: string, darkKeyColor: string,
                             darkValueColor: string, separator: string)
    requires p.isFirstLine ==> |p.indents| > 0
    ensures var r := Run(p, query, WriteAligned(key, value, notImportant, align, keyColor, valueColor,
                                                darkKeyColor, darkValueColor, separator));
            && r.Ok?
            && r.value.printer.indents == p.indents
            && r.value.printer.indentsSum == p.indentsSum
            && (!value.Absent? ==> !r.value.printer.inLine && !r.value.printer.isFirstLine)
  {
    var ops := WriteAligned(key, value, notImportant, align, keyColor, valueColor,
                            darkKeyColor, darkValueColor, separator);
    AlignedNests(key, value, notImportant, align, keyColor, valueColor, darkKeyColor, darkValueColor, separator);
    assert p.indents == p.indents + [];
    RunFollowsStack(p, query, ops, p.indents, []);
    if !value.Absent? {
      RunEndsClosed(p, query, ops);
    }
  }
}
